=== FILE: README.md ===
# vite-plugin-svg-icon-types, modelled in Dafny

A model of the core of the Vite plugin `vite-plugin-svg-icon-name`. The plugin does the following:

- scans an icon directory for `.svg` files;
- derives a hyphen-joined identifier and a display path for each file;
- writes four files, each only when its text changed:
  - a TypeScript declaration (`SvgIconName`, a union of the identifiers);
  - a Vue preview page;
  - the page's `main.ts`;
  - an HTML document that loads `main.ts`;
- adds the preview page to Rollup's `input`;
- while the dev server runs, regenerates after a debounce delay whenever an icon changes.

The model is written in the plugin's own terms, one module per source file.

| module | models |
|---|---|
| `Text`, `Ordering`, `Paths`, `Wrappers` | the JavaScript string operations used, string length and default sort order over UTF-16 code units, and the stable `Array.prototype.sort`. Also Node's `path.resolve`, `path.relative`, `path.join` and `path.dirname` under `/` separators. |
| `Scanner` | `scanSvgFiles` over a directory tree given as a value (`Listing`). |
| `Naming` | `createIconEntry`, `toTypeName`, `toDisplayPath`. |
| `TypeFile` | `buildTypeFile`, and a reader `DeclaredNames` for the union it writes. |
| `PreviewPage` | `buildPreviewVue` (categories, quote escaping, the `icons` array). It also has `buildPreviewMain`, `buildPreviewHtml` and `toPublicPath`. |
| `PreviewScript` | the embedded page script: `filteredIcons`, `groupedIcons` (with the `TypeError` a category named like an inherited `Object.prototype` property causes, and the key order of `Object.entries`), `normalizeRotation`, `changeRotate`. |
| `Color` | the embedded page script's `rgbToHex`, `rgbToString`, `hexToRgb` and `rgbTextToRgb`. |
| `FileStore` | `writeFileIfChanged` over a filesystem value (files, directories, unreadable paths). |
| `Artifacts` | `collectEntries`, `buildArtifacts`, `writeArtifacts`, `generateArtifacts`, `logGenerate`. |
| `Config` | `resolvePluginOptions` and the defaults. |
| `RollupInput` | `normalizeInput` and `createInputTransform`. |
| `Plugin` | `shouldHandle`, `scheduleGenerate`, `runGenerate`, and the `config`, `buildStart`, `configureServer` and close hooks. They are modelled as a state machine over timestamped events, with Node's timer queue as part of the state. |

Each operation has a partner that its lemmas connect it to:

- the type file and the preview page each have a reader that parses the written text back;
- the colour printers have the colour parsers;
- the scan has reachability in the tree;
- `writeFileIfChanged` has `Read`;
- the debounce timer has its invariant.

## Model

| member | source | states |
|---|---|---|
| Scanner.ScanSvgFiles | src/generator/scan.ts:17-20 | An error the scan throws is never `ENOENT`: a missing directory is read as empty. |
| Scanner.ScanFailsIffFatal | src/generator/scan.ts:5-22 | The scan fails exactly when some directory of the tree is unreadable for a reason other than `ENOENT`. A missing directory counts as empty. |
| Scanner.MissingRootIsEmpty | src/generator/scan.ts:17-20 | A missing root yields `[]`. Any other error reading the root is thrown as is. |
| Scanner.ScanSound | src/generator/scan.ts:9-16 | Every returned path is reached through readable directories and ends in a regular file whose name ends in `.svg` in any letter case. |
| Scanner.ScanComplete | src/generator/scan.ts:9-16 | Every regular `.svg` file reachable at any depth is returned; there is no depth limit. |
| Scanner.ScanFindsExactlyReachable | src/generator/scan.ts:9-16 | On success, a path is returned if and only if it is a reachable `.svg` file. A directory named `x.svg` is entered and never returned. |
| Scanner.ScannedFileBelowRoot | src/generator/scan.ts:10-15 | Each returned path is the root's directory names followed by at least one entry name, the last of them a `.svg` name. |
| Paths.RelativeResolves | src/generator/scan.ts:32 | Resolving `path.relative(from, to)` against `from` gives `to` in normalised form. |
| Paths.RelativeLands | src/generator/scan.ts:32 | The relative path never starts with `/`, and appended to `from` it names the same directories as `to`. |
| Paths.RelativeBelow | src/generator/scan.ts:32 | For a file below the root, the relative path is the names below the root joined by `/`. |
| Naming.StripSvgExtension | src/generator/scan.ts:33 | The result is a prefix of the input. It differs from the input exactly when the input ends in `.svg` in any case, and then it is four characters shorter. |
| Naming.StripRemovesOneExtension | src/generator/scan.ts:33 | Only one extension is removed: the result still ends in `.svg` only when the input ended in `.svg.svg`. |
| Naming.ToTypeName | src/generator/scan.ts:31-35 | The identifier never contains `/`: the relative path is split at every `/` and rejoined with `-`. |
| Naming.ToDisplayPath | src/generator/scan.ts:37-40 | The display path never contains a backslash. |
| Naming.CreateIconEntry | src/generator/scan.ts:24-29 | The entry's name has no `/` and its path no backslash. For backslash-free relative paths, the name is the non-empty `/`-pieces of the path joined by `-`. |
| Naming.DisplayPathEndsInSvgOnlyIfDoubled | src/generator/scan.ts:38-39 | The display path ends in `.svg` only when the relative path had a doubled extension. |
| Naming.NameFromDisplayPath | src/generator/scan.ts:24-40 | For backslash-free relative paths, the identifier is the non-empty `/`-pieces of the display path joined by `-`. |
| Naming.EntryOfFileBelowRoot | src/generator/scan.ts:24-40 | Take a file reached through directory names below the root. Its identifier is those names, extension stripped from the last, joined by `-`. Its display path is the same names joined by `/`. |
| Naming.NestedFileExample | src/generator/scan.ts:31-39 | `a/b/c.svg` below the root gives `a-b-c` and `a/b/c`. |
| Naming.TopLevelFileExample | src/generator/scan.ts:31-39 | `close.svg` directly below the root gives `close`. |
| Naming.CaseIsKeptExample | src/generator/scan.ts:33-34 | `Arrows/Left.SVG` gives `Arrows-Left`: only the extension is matched without regard to case. |
| TypeFile.BuildTypeFile | src/generator/templates.ts:842-849 | The text is the `never` declaration exactly when the name list is empty. |
| TypeFile.DeclaredNamesRoundTrip | src/generator/templates.ts:842-849 | Reading the union back gives the input names in ascending code-unit order, duplicates kept. This holds when no name contains a line break. |
| TypeFile.DeclaredNamesOfEmpty | src/generator/templates.ts:843-845 | The empty-list text declares no name. |
| TypeFile.DeclaredNamesSortedPermutation | src/generator/templates.ts:846 | The names in the union are sorted and are a permutation of the input, so the input keeps its multiplicities. |
| TypeFile.TypeFileIgnoresScanOrder | src/generator/templates.ts:846-848 | Two name lists with the same elements and multiplicities give the same text. |
| TypeFile.OrderExample | src/generator/templates.ts:846-847 | `["b", "a", "c"]` is declared as `a`, `b`, `c`. |
| TypeFile.SortTwoExample | src/generator/templates.ts:846 | `["a", "c"]`, already in order, is left as it is. |
| Ordering.Sort | src/generator/templates.ts:846 | The copy-then-sort result is a permutation of the input, so the input is left alone. Under a consistent comparator the result is sorted. |
| Ordering.SortForgetsOrder | src/generator/templates.ts:846 | Under a total order, sorting two permutations of the same names gives the same list. |
| Ordering.CodeUnitIsTotalOrder | src/generator/templates.ts:846 | The default comparison, lexicographic over the UTF-16 code units of the two strings, is a total order: total, transitive and antisymmetric. |
| Ordering.SurrogatesBeforeHighBmp | src/generator/templates.ts:846 | The order is by code units, not code points: `\u{1F600}` (surrogates `D83D DE00`) sorts before `\u{FFFF}`, although its code point is larger. |
| PreviewPage.ToCategory | src/generator/templates.ts:853-858 | The category is never empty. It is `root` or is made of characters of the path, with no `/` or backslash. |
| PreviewPage.CategoryOfNames | src/generator/templates.ts:853-858 | For a path of non-empty names, the category is `root` when there are fewer than two names, and otherwise the second-to-last name. |
| PreviewPage.EscapeQuotes | src/generator/templates.ts:864 | Escaping never shortens the text and leaves a quote-free text unchanged. |
| PreviewPage.ReadEscaped | src/generator/templates.ts:864-865 | An escaped category is read back by a single-quoted string literal reader as the category itself. |
| PreviewPage.UnescapedQuoteCutsValue | src/generator/templates.ts:865 | Names and paths are not escaped, so a `'` inside one ends the literal early. |
| PreviewPage.IconArray | src/generator/templates.ts:859-862 | The array text is `[] as const` exactly when there are no entries. |
| PreviewPage.IconArrayRoundTrip | src/generator/templates.ts:859-867 | Reading the embedded array back lists every entry in order with its category, for names and paths without quotes, backslashes or line breaks. |
| PreviewPage.BuildPreviewVue | src/generator/templates.ts:851-868 | For names and paths without quotes, backslashes or line breaks, the page's `icons` array reads back as the entries sorted by name, each with its category. |
| PreviewPage.PreviewListsEveryIcon | src/generator/templates.ts:851-868 | The page lists every entry once per occurrence, in the order sorted by name. The order is by the locale order whenever that order is consistent. |
| PreviewPage.BuildPreviewMain | src/generator/templates.ts:871-878 | The main module imports the page from `./generated-preview.vue` and mounts it on `#app`. |
| PreviewPage.ToPublicPath | src/generator/templates.ts:900-903 | The public path always begins with `/`. |
| PreviewPage.BackslashPairExamples | src/generator/templates.ts:901 | A single backslash is kept; a pair of backslashes becomes one `/`. |
| PreviewPage.PublicPathBelowRoot | src/generator/templates.ts:900-903 | A file below the root is served at `/` followed by its names below the root. |
| PreviewPage.BuildPreviewHtml | src/generator/templates.ts:880-898 | The document's module script loads the public path of `main.ts`. |
| PreviewScript.KeepMatching | src/generator/templates.ts:227 | An icon is kept exactly when its name or path, lower-cased by `toLowerCase` (a parameter, so any Unicode case mapping), contains the keyword. Kept icons keep their multiplicity. |
| PreviewScript.FilteredIcons | src/generator/templates.ts:224-228 | A keyword that is empty after trimming and `toLowerCase` returns all icons. Otherwise an icon is in the result exactly when its `toLowerCase`d name or path contains the trimmed, `toLowerCase`d keyword. |
| PreviewScript.FilteredIsSubsequence | src/generator/templates.ts:224-228 | The filter returns a subsequence of the icons, in their order. |
| PreviewScript.BlankKeywordKeepsAll | src/generator/templates.ts:225-226 | A keyword of white space alone keeps every icon, given only that `toLowerCase` maps the empty text to itself. |
| PreviewScript.UnicodeCaseFolded | src/generator/templates.ts:225-227 | With a case mapping that lower-cases `Ä`, the keyword `ä` finds the icon `Ä`: the filter is as wide as `toLowerCase`, not ASCII only. |
| PreviewScript.GroupKey | src/generator/templates.ts:233 | An icon's group key is never empty; an empty category becomes `root`. |
| PreviewScript.CollectGroups | src/generator/templates.ts:231-235 | The grouping throws (`None`) exactly when some icon's group key is a property every object inherits from `Object.prototype` (`constructor`, `toString`, `__proto__` and the rest): `groups[cat] ??= []` then finds a function or the prototype, and `push` fails. |
| PreviewScript.CollectGroupsCorrect | src/generator/templates.ts:231-235 | When the grouping does not throw, each category gets one group, holding exactly the icons of that category in filtered order. Every icon has a group, and no group is empty. |
| PreviewScript.InheritedCategoryThrows | src/generator/templates.ts:233-234 | An icon in a directory named `constructor` makes `groupedIcons` throw. |
| PreviewScript.ObjectEntries | src/generator/templates.ts:236 | `Object.entries` lists each group once per occurrence. |
| PreviewScript.EntriesOrder | src/generator/templates.ts:236 | `Object.entries` lists the array-index keys (canonical numerals below 2^32 - 1) first, in ascending numeric order, and then the other keys in the order they were created. |
| PreviewScript.IndexKeysFirst | src/generator/templates.ts:236 | A group `2` created after a group `b` is listed before it. |
| PreviewScript.GroupOrder | src/generator/templates.ts:237-241 | The comparator puts `root` at or before every group, and it is a total preorder whenever the locale order is. |
| PreviewScript.GroupedIcons | src/generator/templates.ts:230-243 | `groupedIcons` throws exactly when some filtered icon's group key is inherited from `Object.prototype`. Otherwise its groups are those collected, each once per occurrence. |
| PreviewScript.GroupedIconsPartition | src/generator/templates.ts:230-243 | When `groupedIcons` does not throw, its groups are a partition of the filtered icons, each group in filtered order. |
| PreviewScript.ExactlyOneGroup | src/generator/templates.ts:230-243 | When `groupedIcons` does not throw, every filtered icon is in exactly one group: the group of its category. |
| PreviewScript.RootGroupFirst | src/generator/templates.ts:237-239 | With a consistent locale order, a `root` group, when present, comes first. |
| PreviewScript.OtherGroupsInLocaleOrder | src/generator/templates.ts:237-241 | With a consistent locale order, the groups after a non-root one follow in that order. |
| PreviewScript.NormalizeRotation | src/generator/templates.ts:340-344 | The result lies strictly between -360 and 360. An angle in that range is kept, and anything else becomes 0. |
| PreviewScript.NormalizeIdempotent | src/generator/templates.ts:340-344 | Normalising twice is normalising once. |
| PreviewScript.ChangeRotate | src/generator/templates.ts:390-393 | A rotation stays within a turn and equals the sum whenever the sum is within a turn. |
| PreviewScript.RotateUndo | src/generator/templates.ts:390-393 | A step within a turn is undone by the opposite step. |
| PreviewScript.PressesBelowTurn | src/generator/templates.ts:390-393 | From 0, `n` presses of a positive step reach `n` times the step while that stays below a turn. |
| PreviewScript.EightEighthsReturn | src/generator/templates.ts:390-393 | Eight presses of `+45` come back to 0. |
| Color.Clamp | src/generator/templates.ts:358 | The clamped channel lies in 0 to 255 and equals the input when the input is in range. |
| Color.RgbToHex | src/generator/templates.ts:353-363 | The hex print is `#` followed by six lower-case hexadecimal digits. |
| Color.HexRoundTrip | src/generator/templates.ts:353-377 | Reading a printed colour back gives its clamped channels. |
| Color.HexCanonical | src/generator/templates.ts:353-377 | Six lower-case digits are read, and printing the result gives the same text. |
| Color.HexToRgb | src/generator/templates.ts:370-377 | A colour is returned only when the text after trimming and dropping the first `#` has a `length` of 3 or 6 UTF-16 code units. Its channels lie in 0 to 255. |
| Color.AstralCountsTwice | src/generator/templates.ts:371-376 | `#a\u{1F600}` has a `length` of 3 code units, so it takes the short form: `parseInt` reads `aa` and the colour is (0, 0, 170). |
| Color.ShortFormDoubles | src/generator/templates.ts:372-373 | The three-digit form reads as each digit doubled, giving channels of 17 times each digit. |
| Color.PrefixIsRead | src/generator/templates.ts:374 | `parseInt` reads only the leading digits: `#12zz56` is the colour (0, 0, 18), not null. |
| Color.ParseIntHex | src/generator/templates.ts:374 | `parseInt` gives `NaN` exactly when no hexadecimal digit follows the white space, sign and `0x` it skips. |
| Color.RgbToString | src/generator/templates.ts:365-368 | The `rgb(...)` print has 12 to 18 characters. |
| Color.RgbTextRoundTrip | src/generator/templates.ts:365-388 | With the pattern as evidently intended, reading the `rgb(...)` print back gives the clamped channels. |
| Color.ReadChannels | src/generator/templates.ts:379-388 | `rgb(x, y, z)` with 1-3 digit channels reads as the numbers the digits denote. |
| Color.RgbTextToRgb | src/generator/templates.ts:379-388 | A colour read by the intended pattern has each channel in 0 to 999, the most three digits can denote. |
| Color.MatchRgbText | src/generator/templates.ts:383 | A match captures three texts of one to three decimal digits. |
| Color.EmittedNeverParses | src/generator/templates.ts:379-388 | The script as the page receives it never returns a colour. |
| Color.EmittedRejectsPrintedColour | src/generator/templates.ts:365-388 | The printed `rgb(...)` of any colour is read by the intended script and rejected by the emitted one. |
| FileStore.Mkdir | src/utils/fs.ts:8 | A recursive `mkdir` succeeds exactly when no directory on the path is a file, and then adds every directory on the path. |
| FileStore.Read | src/utils/fs.ts:11-17 | A read succeeds exactly when the path is a readable file, and then returns its content. |
| FileStore.WriteFileIfChanged | src/utils/fs.ts:7-25 | After a call that returns, the file holds the text. A call that returns `false` leaves every file as it was. |
| FileStore.UnchangedExactlyWhenEqual | src/utils/fs.ts:19-21 | The call returns `false` exactly when the file already holds the text, and then nothing changes. |
| FileStore.MissingFileIsWritten | src/utils/fs.ts:9-24 | A missing file counts as different: it is written and the call returns `true`. |
| FileStore.WrittenContent | src/utils/fs.ts:7-25 | After a call that returns, the file holds the text and its parent directory exists. Only that file and the directories above it changed. |
| FileStore.ReadErrorIsThrown | src/utils/fs.ts:13-15 | A read error other than `ENOENT` is thrown, and no file is written. |
| FileStore.SecondWriteChangesNothing | src/utils/fs.ts:19-21 | A second call with the same text returns `false` and leaves the filesystem unchanged. |
| FileStore.OtherPathsUnchanged | src/utils/fs.ts:8-23 | Paths other than the target and the directories made above it read as before. |
| FileStore.FileSurvivesWrite | src/utils/fs.ts:8-23 | A file other than the target reads the same after a successful call. |
| FileStore.ParentOfFileCanBeMade | src/utils/fs.ts:8 | Making the parent of an existing file succeeds and changes nothing. |
| Artifacts.CollectEntries | src/generator/artifacts.ts:15-18 | The entries are one per scanned file, in scan order, each built from that file. A scan error is passed on. |
| Artifacts.NamedOnly | src/generator/artifacts.ts:21 | The kept names are non-empty, no more than the entries, and every non-empty name of an entry is kept. |
| Artifacts.NamedOnlyCounts | src/generator/artifacts.ts:21 | Each non-empty name is kept as many times as entries carry it, and the empty name is never kept. |
| Artifacts.BuildArtifacts | src/generator/artifacts.ts:20-28 | When no name contains a line break, the type text declares exactly the non-empty names of the entries, in code-unit order, duplicates kept. |
| Artifacts.TypeFileDeclaresNamedIcons | src/generator/artifacts.ts:20-23 | When no name contains a line break, the type file declares the non-empty names of the entries, sorted, duplicates kept, and no empty name. |
| Artifacts.TypeFileIgnoresEntryOrder | src/generator/artifacts.ts:21-23 | The type file does not depend on the order the scan met the files in. |
| Artifacts.PreviewGetsEveryEntry | src/generator/artifacts.ts:24 | When names and paths hold no quote, backslash or line break, the preview page lists every entry, those with an empty name included. |
| Artifacts.MainAndHtmlIndependence | src/generator/artifacts.ts:25-26 | `main.ts` is the same whatever the entries and options. The HTML depends only on `previewMainFile` and `root`. |
| Artifacts.WriteAll | src/generator/artifacts.ts:35-40 | A call that returns reports one result per write. |
| Artifacts.WriteAllStores | src/generator/artifacts.ts:35-40 | When every write succeeds and the targets differ, each target holds its own text. |
| Artifacts.WriteAllKeepsOtherFiles | src/generator/artifacts.ts:35-40 | Files that are not targets of the writes read the same afterwards. |
| Artifacts.WriteAllKeepsValid | src/generator/artifacts.ts:35-40 | Successful writes leave a well-formed filesystem. |
| Artifacts.WriteAllUnchanged | src/generator/artifacts.ts:35-40 | When every target already holds its text, every write reports `false` and nothing changes. |
| Artifacts.WriteAllTwice | src/generator/artifacts.ts:31-41 | When the targets are different files, repeating the writes reports nothing changed and leaves the filesystem as it was. |
| Artifacts.GenerateArtifacts | src/generator/artifacts.ts:43-48 | A scan error is thrown before anything is written, and it is never `ENOENT`. On success the count is the number of scanned files, empty names included. |
| Artifacts.GeneratedFilesInPlace | src/generator/artifacts.ts:43-48 | After a successful generation, each of the four files holds its text at its configured path. |
| Artifacts.GenerateTwice | src/generator/artifacts.ts:43-48 | A second generation over the same icons gives the same count and writes nothing. |
| Artifacts.DefaultsAreSeparate | src/config/defaults.ts:5-11 | The four default output paths are four different files. |
| Artifacts.DefaultMainImportsPage | src/config/defaults.ts:8-9 | With the default paths, the import in `main.ts` resolves to the page file. |
| Artifacts.LogGenerate | src/generator/artifacts.ts:50-53 | The line starts with the plugin's tag and `generated `, and ends in ` (types + preview)`. |
| Artifacts.LogOne | src/generator/artifacts.ts:50-53 | A count of one prints `[vite-plugin-svg-icon-name] generated 1 icon (types + preview)`, with the singular noun. |
| Artifacts.LogPlural | src/generator/artifacts.ts:51 | The line ends in `icons (types + preview)` exactly when the count is not one. |
| Artifacts.LogInjective | src/generator/artifacts.ts:50-53 | Different counts print different lines. |
| Config.ResolvePluginOptions | src/config/resolve.ts:5-24 | The root is passed through unchanged. |
| Config.DebounceChoice | src/config/resolve.ts:22 | A given delay is kept, 0 and negatives included; only an absent one becomes 100. |
| Config.OptionsAreIndependent | src/config/resolve.ts:9-22 | Each field is the user's value, or the default, resolved against the root. Changing one option changes only its own field. |
| Config.ResolveBelow | src/config/resolve.ts:17-21 | A relative path of entry names resolves to those names below the root. |
| Config.DefaultIconsRoot | src/config/resolve.ts:9-17 | Without options, icons are read from `src/assets/svg` below the root. |
| Config.DefaultTypeOutput | src/config/resolve.ts:10-18 | Without options, the type file is `src/types/generated-svg-names.d.ts` below the root. |
| Config.DefaultPreviewFiles | src/config/resolve.ts:11-21 | Without options, the preview files are `icon-preview/generated-preview.vue`, `icon-preview/main.ts` and `icon-preview.html` below the root. |
| RollupInput.SingleIsMain | src/rollup/input.ts:7-8 | A string input becomes `{ main: input }`. |
| RollupInput.Pages | src/rollup/input.ts:9-12 | A list's entry names are `page-0` to `page-(n-1)`. |
| RollupInput.PagesHoldFiles | src/rollup/input.ts:10-12 | `page-i` maps to the `i`-th file. |
| RollupInput.PageKeyInjective | src/rollup/input.ts:11 | Different positions have different entry names. |
| RollupInput.FilesArePages | src/rollup/input.ts:9-12 | A non-empty list becomes exactly the entries `page-0` to `page-(n-1)`, holding the files in order. |
| RollupInput.NamedKept | src/rollup/input.ts:13-21 | An object keeps its keys and values, except a key `__proto__`: assigning it calls the inherited `Object.prototype.__proto__` setter, which ignores a string, so the result never has that key. |
| RollupInput.ProtoOnlyFallsBack | src/rollup/input.ts:13-21 | An object whose only key is `__proto__` leaves nothing behind, so it falls back to `{ main: "index.html" }`. |
| RollupInput.EmptyFallsBack | src/rollup/input.ts:19-21 | No input, an empty list or an empty object falls back to `{ main: "index.html" }`. |
| RollupInput.NormalizeInput | src/rollup/input.ts:4-24 | The normalised input is never empty. |
| RollupInput.TransformInput | src/rollup/input.ts:26-31 | `icon-preview` always maps to the preview HTML, replacing any earlier entry of that name. |
| RollupInput.TransformKeepsOthers | src/rollup/input.ts:28-30 | Every other entry is kept unchanged, and only `icon-preview` is added. |
| Plugin.ConfigInput | src/plugin.ts:10-12 | The `config` hook maps `icon-preview` to the unresolved `previewHtmlOutput` option, or to `icon-preview.html`. |
| Plugin.ShouldHandle | src/plugin.ts:35-39 | No path is handled before the options are resolved. A handled path resolves to a name that ends in `.svg` and starts, as a string, with the icon root, so a path whose resolved form does not start with the root is ignored. |
| Plugin.HandlesIconBelowRoot | src/plugin.ts:37-38 | A `.svg` file below the icon root is handled. |
| Plugin.UpperCaseIgnored | src/plugin.ts:38 | The suffix test is case-sensitive: `.SVG` files are not handled. |
| Scanner.UpperCaseSvgCollected | src/generator/scan.ts:13-14 | The scan's suffix test ignores case: `A.SVG` is collected. |
| Plugin.SiblingDirectoryHandled | src/plugin.ts:38 | The prefix test is on strings: a `.svg` file in a sibling directory whose name extends the icon root's is handled, though it is not below the root. |
| Plugin.ScheduleBeforeResolve | src/plugin.ts:24-25 | Scheduling does nothing before the options are resolved. |
| Plugin.Schedule | src/plugin.ts:24-33 | Scheduling cancels the timer `debounceTimer` names and leaves exactly one timer pending, due the debounce delay after now. |
| Plugin.EffectiveDelay | src/plugin.ts:27-32 | The delay waited lies in 1 to 2147483647 and equals the setting exactly when the setting is in that range. |
| Plugin.Fire | src/plugin.ts:27-29 | A firing timer leaves the queue and clears `debounceTimer` before at most one generation. |
| Plugin.Elapse | src/plugin.ts:27-32 | Once time reaches `t`, no pending timer is due at or before `t`, and at most one generation has run. |
| Plugin.AtMostOnePending | src/plugin.ts:26-32 | Under the invariant, at most one timer is pending, and it is the one `debounceTimer` names. |
| Plugin.RunKeepsInv | src/plugin.ts:24-33 | Every sequence of events keeps the invariant, so at most one timer is ever pending. |
| Plugin.ServerSchedulesFirstRun | src/plugin.ts:61-66 | `configureServer` schedules one initial generation, the debounce delay later. It does nothing before the options are resolved. |
| Plugin.ResolvedThenServed | src/plugin.ts:55-66 | `configResolved` stores what `resolvePluginOptions` returns and touches no timer. A server configured after it generates once, after the user's delay or 100 ms. |
| Plugin.BurstPostpones | src/plugin.ts:26-32 | Take a burst of handled notifications, each less than the delay after the previous one. It generates nothing and leaves one timer, due the delay after the last notification. |
| Plugin.BurstGeneratesOnce | src/plugin.ts:26-32 | A burst causes exactly one generation, the debounce delay after the last notification. |
| Plugin.CloseCancels | src/plugin.ts:81-88 | Closing the server cancels the pending timer, so no generation follows. |
| Plugin.QuietAfterClose | src/plugin.ts:81-88 | After closing, no file change schedules or causes a generation. |
| Plugin.RunGenerate | src/plugin.ts:17-22 | Generation does nothing before the options are resolved. When it succeeds afterwards, it logs the number of scanned `.svg` files. |
| Plugin.Apply | src/plugin.ts:55-89 | Of the hooks and watcher events, only `buildStart` generates at once, and then exactly one generation runs, at the current time, with the state unchanged. |
| Plugin.BuildStartGeneratesNow | src/plugin.ts:58-60 | `buildStart` generates at once when resolved and leaves the timer alone. |
| Plugin.ZeroDelayWaitsOne | src/plugin.ts:32 | A debounce setting of zero or below makes the timer wait one millisecond. |

## Left out

- Vue markup, CSS, clipboard, toast and the `watch` wiring of the preview page. The page is modelled as a fixed head and tail around the `icons` array. The `watch` on `rotateDeg` is the same normalisation as `normalizeRotation`.
- `localeCompare` with and without `'zh-Hans'`: locale-dependent. It is a parameter `le`, and ordering properties hold when `le` is a total preorder.
- Floating point: angles, colour channels and the debounce delay are integers. `Number.isFinite`, `Math.round` and `NaN` inputs are not modelled, except that `Number` on a captured text gives `NaN` (`None`) for non-digits.
- Node's `path` module is modelled for `/` separators only: `path.sep` is `/`, and relative paths resolve against a given base instead of the process's working directory.
- Windows backslashes: `toDisplayPath` and `toCategory` still replace every single backslash, as the code does. `toPublicPath` (`templates.ts:901`) replaces only pairs of backslashes; a single backslash stays.
- `Promise.all` in `writeArtifacts`: the four writes are taken one after another in list order. Each write is attempted, and the first error in list order is reported. Interleavings of the concurrent writes are not modelled.
- A failing `mkdir` is modelled as changing nothing. Write errors other than writing over a directory (permissions, a full disk) are not modelled.
- The icon tree the scan reads is a separate value (`Listing`) from the filesystem that the writes change. A generation whose outputs lie inside the icon directory is not modelled.
- `Artifacts.WriteAllTwice`: requires the targets to be different files. With two different texts written to one path, the repeated run finds the second text, so it writes both texts again and reports `true` for each.
- `Artifacts.WriteAllStores`, `Artifacts.GeneratedFilesInPlace`, `Artifacts.GenerateTwice`: each requires the four output paths to be different files. `Artifacts.DefaultsAreSeparate` proves this for the defaults; with colliding options the later text wins, and that is not stated.
- `Artifacts.TypeFileDeclaresNamedIcons`: requires that no name contains a line break, as `TypeFile.DeclaredNamesRoundTrip` does; the line reader cannot separate such a name from the next.
- `Artifacts.PreviewGetsEveryEntry`: requires names and paths without quotes, backslashes or line breaks, as `PreviewPage.IconArrayRoundTrip` does; the page embeds them unescaped.
- `TypeFile.DeclaredNamesRoundTrip` requires that no identifier contains a line break. `PreviewPage.IconArrayRoundTrip` and `PreviewPage.PreviewListsEveryIcon` require names and paths without quotes, backslashes or line breaks. `PreviewPage.UnescapedQuoteCutsValue` shows what a quote does.
- `RollupInput.NamedKept`: object values are already strings; `String(value)` on other values is not modelled.
- `Plugin.Elapse`: timers fire only when the next event arrives or when time runs on (`Drain`). The generations run synchronously, with no overlap between generation cycles. A `Run` records only when generations happen, not how they end: a failure in the timer's generation is caught and logged (`plugin.ts:29-31`), while a failure in `buildStart`'s is not caught, so the hook rejects and the build fails (`plugin.ts:58-60`). `Plugin.RunGenerate` models one generation's outcome, failures included.
- `String.prototype.toLowerCase` and its Unicode case mapping: a parameter `lower` of the filter, like `localeCompare`. The model's own `ToLower` (ASCII only) serves where only the letters of `.svg` or the hex digits are compared: the scan's `toLowerCase().endsWith(".svg")` and the `/\.svg$/i` pattern. No other character lower-cases to one of those letters, so the ASCII mapping decides those tests the same way.
- The watcher subscription itself (`watcher.add`, `on` and `off`) is the `listening` flag. The HTTP server, the `build`/`serve` distinction of `runGenerate` and the console are left out.
- `scripts/build.mjs` and `scripts/watch.mjs`: build tooling.

## Findings

| source | as written | input that shows it | evidently intended | confidence | as-written member | corrected member |
|---|---|---|---|---|---|---|
| src/generator/templates.ts:382-383 | The page script is the body of an untagged template literal (lines 6-839). There `\s`, `\d`, `\(` and `\)` lose their backslash. The page receives `/s+/g` and `/^rgba?((d{1,3}),(d{1,3}),(d{1,3})(?:,[0-9.]+)?)$/i`, whose first group always starts with `d`, so `Number` gives `NaN`. | `rgb(1, 2, 3)`, or any `rgb(...)` text: the emitted function returns `null` | Read `rgb(r, g, b)` and `rgba(r, g, b, a)` texts, white space ignored. The regexes need doubled backslashes inside the template. | not executed | Color.RgbTextToRgbAsEmitted (Color.EmittedNeverParses, Color.EmittedRejectsPrintedColour) | Color.RgbTextToRgb (Color.RgbTextRoundTrip) |

=== FILE: artifacts.dfy ===
/** The generation pipeline of `src/generator/artifacts.ts`: scan the icon
    directory, derive the entries, build the four texts and write each one
    where the options place it. */
module Artifacts {
  import opened Wrappers
  import opened Text
  import opened Ordering
  import opened Paths
  import opened Scanner
  import opened Naming
  import opened TypeFile
  import opened PreviewPage
  import opened FileStore
  import opened Config

  /** The texts one generation produces, and the entries they came from. */
  datatype GeneratedFiles = GeneratedFiles(
    typeContent: string,
    previewContent: string,
    previewMain: string,
    previewHtml: string,
    entries: seq<IconEntry>)

  /** `collectEntries(options)`: an entry for each `.svg` file below the icon
      root, in scan order; a scan error is passed on. */
  function CollectEntries(options: ResolvedOptions, icons: Listing): (r: Result<seq<IconEntry>, ErrorCode>)
    ensures r.Failure? <==> ScanSvgFiles(options.iconsRoot, icons).Failure?
    ensures r.Success? ==> |r.value| == |ScanSvgFiles(options.iconsRoot, icons).value|
    ensures r.Success? ==> forall i :: 0 <= i < |r.value| ==>
      r.value[i] == CreateIconEntry(ScanSvgFiles(options.iconsRoot, icons).value[i], options.iconsRoot)
  {
    match ScanSvgFiles(options.iconsRoot, icons)
    case Failure(e) => Failure(e)
    case Success(files) =>
      Success(seq(|files|, i requires 0 <= i < |files| => CreateIconEntry(files[i], options.iconsRoot)))
  }

  /** `entries.map((entry) => entry.name).filter(Boolean)`. */
  function NamedOnly(entries: seq<IconEntry>): (names: seq<string>)
    ensures |names| <= |entries|
    ensures forall i :: 0 <= i < |names| ==> names[i] != ""
    ensures forall i :: 0 <= i < |entries| && entries[i].name != "" ==> entries[i].name in names
  {
    if |entries| == 0 then []
    else
      assert forall i :: 1 <= i < |entries| ==> entries[i] == entries[1..][i - 1];
      NameOf(entries[0]) + NamedOnly(entries[1..])
  }

  /** `entries.map((entry) => entry.name)`. */
  function EntryNames(entries: seq<IconEntry>): (r: seq<string>)
    ensures |r| == |entries|
    ensures forall i :: 0 <= i < |entries| ==> r[i] == entries[i].name
  {
    seq(|entries|, i requires 0 <= i < |entries| => entries[i].name)
  }

  /** The filter drops the empty names and keeps every other name as often
      as the entries carry it. */
  lemma {:induction false} NamedOnlyCounts(entries: seq<IconEntry>)
    ensures forall n :: n != "" ==> multiset(NamedOnly(entries))[n] == multiset(EntryNames(entries))[n]
    ensures multiset(NamedOnly(entries))[""] == 0
  {
    if |entries| > 0 {
      NamedOnlyCounts(entries[1..]);
      assert EntryNames(entries) == [entries[0].name] + EntryNames(entries[1..]);
    }
  }

  /** `buildArtifacts(entries, options)`, with the locale order of the page
      as a parameter. */
  function BuildArtifacts(entries: seq<IconEntry>, options: ResolvedOptions, le: (string, string) -> bool): (files: GeneratedFiles)
    ensures (forall i :: 0 <= i < |entries| ==> '\n' !in entries[i].name) ==>
      DeclaredNames(files.typeContent) == Some(Sort(NamedOnly(entries), CodeUnitLessEq))
  {
    TypeFileOfEntries(entries);
    GeneratedFiles(
      BuildTypeFile(NamedOnly(entries)),
      BuildPreviewVue(entries, le),
      BuildPreviewMain(),
      BuildPreviewHtml(options.previewMainFile, options.root),
      entries)
  }

  /** The four (path, text) pairs `writeArtifacts` hands to `writeFileIfChanged`. */
  function ArtifactWrites(files: GeneratedFiles, options: ResolvedOptions): (w: seq<(string, string)>)
    ensures |w| == 4
  {
    [(options.typeOutputFile, files.typeContent),
     (options.previewVueFile, files.previewContent),
     (options.previewMainFile, files.previewMain),
     (options.previewHtmlFile, files.previewHtml)]
  }

  /** `Promise.all(writes.map(writeFileIfChanged))`, with the writes taken in
      list order: every write is attempted, and the call throws the first
      error met, or returns the list of what each write reported. */
  function WriteAll(fs: FileSystem, writes: seq<(string, string)>): (o: Outcome<seq<bool>>)
    ensures o.result.Success? ==> |o.result.value| == |writes|
    decreases |writes|
  {
    if |writes| == 0 then Outcome(fs, Success([]))
    else
      var first := WriteFileIfChanged(fs, writes[0].0, writes[0].1);
      var rest := WriteAll(first.fs, writes[1..]);
      Outcome(rest.fs,
        match first.result
        case Failure(e) => Failure(e)
        case Success(b) =>
          match rest.result
          case Failure(e) => Failure(e)
          case Success(bs) => Success([b] + bs))
  }

  /** `writeArtifacts(files, options)`. */
  function WriteArtifacts(fs: FileSystem, files: GeneratedFiles, options: ResolvedOptions): Outcome<seq<bool>> {
    WriteAll(fs, ArtifactWrites(files, options))
  }

  /** `generateArtifacts(options)`: the number of scanned files once the
      texts are written. */
  function GenerateArtifacts(fs: FileSystem, icons: Listing, options: ResolvedOptions, le: (string, string) -> bool): (o: Outcome<nat>)
    ensures ScanSvgFiles(options.iconsRoot, icons).Failure? ==>
      o == Outcome(fs, Failure(ScanSvgFiles(options.iconsRoot, icons).error))
    ensures o.result.Failure? ==> o.result.error != ENOENT || ScanSvgFiles(options.iconsRoot, icons).Success?
    ensures o.result.Success? ==>
      ScanSvgFiles(options.iconsRoot, icons).Success? && o.result.value == |ScanSvgFiles(options.iconsRoot, icons).value|
  {
    match CollectEntries(options, icons)
    case Failure(e) => Outcome(fs, Failure(e))
    case Success(entries) =>
      var files := BuildArtifacts(entries, options, le);
      var written := WriteArtifacts(fs, files, options);
      Outcome(written.fs, if written.result.Failure? then Failure(written.result.error) else Success(|files.entries|))
  }

  /** The line `logGenerate(count)` prints. */
  function LogGenerate(count: nat): (line: string)
    ensures StartsWith(line, LogHead)
    ensures EndsWith(line, " (types + preview)")
  {
    LogHead + Decimal(count) + LogTail(count)
  }

  const LogHead: string := "[" + PluginName + "] generated "

  /** What follows the count: the noun, plural unless the count is one, and
      what was generated. */
  function LogTail(count: nat): string {
    " icon" + (if count == 1 then "" else "s") + " (types + preview)"
  }

  // ---------------------------------------------------------------------------
  // Lemmas on the texts
  // ---------------------------------------------------------------------------

  lemma {:induction false} NamedOnlyAppend(a: seq<IconEntry>, b: seq<IconEntry>)
    ensures NamedOnly(a + b) == NamedOnly(a) + NamedOnly(b)
  {
    if |a| == 0 {
      assert a + b == b;
    } else {
      assert (a + b)[0] == a[0];
      assert (a + b)[1..] == a[1..] + b;
      NamedOnlyAppend(a[1..], b);
    }
  }

  /** The type file declares the non-empty names of the entries, in code-unit
      order with duplicates kept; entries with an empty name are not declared. */
  lemma TypeFileOfEntries(entries: seq<IconEntry>)
    ensures (forall i :: 0 <= i < |entries| ==> '\n' !in entries[i].name) ==>
      DeclaredNames(BuildTypeFile(NamedOnly(entries))) == Some(Sort(NamedOnly(entries), CodeUnitLessEq))
  {
    if forall i :: 0 <= i < |entries| ==> '\n' !in entries[i].name {
      var names := NamedOnly(entries);
      NamedOnlyUnbroken(entries, names);
      DeclaredNamesRoundTrip(names);
    }
  }

  lemma TypeFileDeclaresNamedIcons(entries: seq<IconEntry>, options: ResolvedOptions, le: (string, string) -> bool)
    requires forall i :: 0 <= i < |entries| ==> '\n' !in entries[i].name
    ensures DeclaredNames(BuildArtifacts(entries, options, le).typeContent) == Some(Sort(NamedOnly(entries), CodeUnitLessEq))
    ensures "" !in Sort(NamedOnly(entries), CodeUnitLessEq)
    ensures |Sort(NamedOnly(entries), CodeUnitLessEq)| <= |entries|
  {
    SortKeepsNonEmpty(NamedOnly(entries));
  }

  lemma NamedOnlyUnbroken(entries: seq<IconEntry>, names: seq<string>)
    requires forall i :: 0 <= i < |entries| ==> '\n' !in entries[i].name
    requires names == NamedOnly(entries)
    ensures forall k :: 0 <= k < |names| ==> '\n' !in names[k]
  {
    forall k | 0 <= k < |names| ensures '\n' !in names[k] {
      NamedOnlyFrom(entries, k);
    }
  }

  lemma SortKeepsNonEmpty(names: seq<string>)
    requires forall i :: 0 <= i < |names| ==> names[i] != ""
    ensures "" !in Sort(names, CodeUnitLessEq)
  {
    assert "" !in multiset(names);
  }

  /** Every kept name is the name of some entry. */
  lemma {:induction false} NamedOnlyFrom(entries: seq<IconEntry>, k: nat)
    requires k < |NamedOnly(entries)|
    ensures exists i :: 0 <= i < |entries| && entries[i].name == NamedOnly(entries)[k]
  {
    var head := NameOf(entries[0]);
    if k < |head| {
      assert entries[0].name == NamedOnly(entries)[k];
    } else {
      NamedOnlyFrom(entries[1..], k - |head|);
      var i :| 0 <= i < |entries[1..]| && entries[1..][i].name == NamedOnly(entries[1..])[k - |head|];
      assert entries[i + 1].name == NamedOnly(entries)[k];
    }
  }

  /** The name an entry contributes, if any. */
  function NameOf(e: IconEntry): seq<string> {
    if e.name == "" then [] else [e.name]
  }

  /** Rearranging the entries rearranges the names kept. */
  lemma {:induction false} NamedOnlyPermutation(a: seq<IconEntry>, b: seq<IconEntry>)
    requires multiset(a) == multiset(b)
    ensures multiset(NamedOnly(a)) == multiset(NamedOnly(b))
    decreases |a|
  {
    assert |a| == |multiset(a)| == |multiset(b)| == |b|;
    if |a| > 0 {
      assert a[0] in multiset(b);
      var j :| 0 <= j < |b| && b[j] == a[0];
      var rest := b[..j] + b[j + 1..];
      RemoveAt(b, j);
      MultisetTail(a);
      NamedOnlyPermutation(a[1..], rest);
      NamedOnlyRemoveAt(b, j);
      assert NamedOnly(a) == NameOf(a[0]) + NamedOnly(a[1..]);
    }
  }

  lemma RemoveAt<T>(b: seq<T>, j: nat)
    requires j < |b|
    ensures multiset(b[..j] + b[j + 1..]) == multiset(b) - multiset{b[j]}
  {
    SplitAt(b, j);
    assert multiset(b) == multiset(b[..j]) + multiset{b[j]} + multiset(b[j + 1..]);
  }

  lemma NamedOnlyRemoveAt(b: seq<IconEntry>, j: nat)
    requires j < |b|
    ensures multiset(NamedOnly(b)) == multiset(NameOf(b[j])) + multiset(NamedOnly(b[..j] + b[j + 1..]))
  {
    SplitAt(b, j);
    NamedOnlyAround(b[..j], b[j], b[j + 1..]);
  }

  lemma SplitAt<T>(b: seq<T>, j: nat)
    requires j < |b|
    ensures b == b[..j] + [b[j]] + b[j + 1..]
  {
  }

  lemma NamedOnlyAround(x: seq<IconEntry>, e: IconEntry, y: seq<IconEntry>)
    ensures multiset(NamedOnly(x + [e] + y)) == multiset(NameOf(e)) + multiset(NamedOnly(x + y))
  {
    NamedOnlyAppend(x + [e], y);
    NamedOnlyAppend(x, [e]);
    assert [e][1..] == [];
    assert NamedOnly([e]) == NameOf(e) + NamedOnly([]);
    NamedOnlyAppend(x, y);
  }

  /** The type file does not depend on the order the scan met the files in. */
  lemma TypeFileIgnoresEntryOrder(a: seq<IconEntry>, b: seq<IconEntry>, options: ResolvedOptions, le: (string, string) -> bool)
    requires multiset(a) == multiset(b)
    ensures BuildArtifacts(a, options, le).typeContent == BuildArtifacts(b, options, le).typeContent
  {
    NamedOnlyPermutation(a, b);
    TypeFileIgnoresScanOrder(NamedOnly(a), NamedOnly(b));
  }

  /** The preview page of a generation lists every scanned entry, the ones
      with an empty name included, ordered by name. */
  lemma PreviewGetsEveryEntry(entries: seq<IconEntry>, options: ResolvedOptions, le: (string, string) -> bool)
    requires forall i :: 0 <= i < |entries| ==> Plain(entries[i].name) && Plain(entries[i].path)
    ensures IconsOfPage(BuildArtifacts(entries, options, le).previewContent).Some?
    ensures var items := IconsOfPage(BuildArtifacts(entries, options, le).previewContent).value;
      |items| == |entries| &&
      multiset(Sort(entries, ByName(le))) == multiset(entries) &&
      forall i :: 0 <= i < |items| ==> items[i] == ItemOf(Sort(entries, ByName(le))[i])
  {
    PreviewListsEveryIcon(entries, le);
  }

  /** `main.ts` is the same text whatever the icons and options, and the HTML
      document depends only on where `main.ts` goes and on the root. */
  lemma MainAndHtmlIndependence(a: seq<IconEntry>, b: seq<IconEntry>, oa: ResolvedOptions, ob: ResolvedOptions,
                                le: (string, string) -> bool)
    ensures BuildArtifacts(a, oa, le).previewMain == BuildArtifacts(b, ob, le).previewMain
    ensures oa.previewMainFile == ob.previewMainFile && oa.root == ob.root ==>
      BuildArtifacts(a, oa, le).previewHtml == BuildArtifacts(b, ob, le).previewHtml
    ensures ScriptSource(BuildArtifacts(a, oa, le).previewHtml) == Some(ToPublicPath(oa.previewMainFile, oa.root))
  {
  }

  // ---------------------------------------------------------------------------
  // Lemmas on the writes
  // ---------------------------------------------------------------------------

  /** No two writes go to the same file. */
  predicate DistinctTargets(writes: seq<(string, string)>) {
    forall i, j :: 0 <= i < j < |writes| ==> Normal(writes[i].0) != Normal(writes[j].0)
  }

  /** A file that reads back before the writes and is none of their targets
      reads back the same after them all succeed. */
  lemma {:induction false} WriteAllKeepsOtherFiles(fs: FileSystem, writes: seq<(string, string)>, q: string)
    requires Valid(fs)
    requires WriteAll(fs, writes).result.Success?
    requires forall i :: 0 <= i < |writes| ==> Normal(q) != Normal(writes[i].0)
    requires Read(fs, q).Success?
    ensures Read(WriteAll(fs, writes).fs, q) == Read(fs, q)
    decreases |writes|
  {
    if |writes| > 0 {
      var first := WriteFileIfChanged(fs, writes[0].0, writes[0].1);
      var tail := writes[1..];
      FirstKeepsOtherFile(fs, writes, q);
      AvoidsTail(writes, q);
      WriteAllKeepsOtherFiles(first.fs, tail, q);
    }
  }

  lemma AvoidsTail(writes: seq<(string, string)>, q: string)
    requires |writes| > 0
    requires forall i :: 0 <= i < |writes| ==> Normal(q) != Normal(writes[i].0)
    ensures forall i :: 0 <= i < |writes[1..]| ==> Normal(q) != Normal(writes[1..][i].0)
  {
    assert forall i :: 0 <= i < |writes[1..]| ==> writes[1..][i] == writes[i + 1];
  }

  /** The first write keeps the filesystem well formed and the other file as it was. */
  lemma FirstKeepsOtherFile(fs: FileSystem, writes: seq<(string, string)>, q: string)
    requires Valid(fs) && |writes| > 0
    requires WriteAll(fs, writes).result.Success?
    requires Normal(q) != Normal(writes[0].0) && Read(fs, q).Success?
    ensures var first := WriteFileIfChanged(fs, writes[0].0, writes[0].1);
      Valid(first.fs) && Read(first.fs, q) == Read(fs, q) &&
      WriteAll(first.fs, writes[1..]).result.Success? &&
      WriteAll(fs, writes).fs == WriteAll(first.fs, writes[1..]).fs
  {
    WriteAllCons(fs, writes);
    CallKeepsValid(fs, writes[0].0, writes[0].1);
    FileSurvivesWrite(fs, writes[0].0, writes[0].1, q);
  }

  /** Successful writes leave a well-formed filesystem. */
  lemma {:induction false} WriteAllKeepsValid(fs: FileSystem, writes: seq<(string, string)>)
    requires Valid(fs)
    requires WriteAll(fs, writes).result.Success?
    ensures Valid(WriteAll(fs, writes).fs)
    decreases |writes|
  {
    if |writes| > 0 {
      var first := WriteFileIfChanged(fs, writes[0].0, writes[0].1);
      WriteAllCons(fs, writes);
      CallKeepsValid(fs, writes[0].0, writes[0].1);
      WriteAllKeepsValid(first.fs, writes[1..]);
    }
  }

  /** Once every write succeeds, each target holds its text. */
  lemma {:induction false} WriteAllStores(fs: FileSystem, writes: seq<(string, string)>, i: nat)
    requires Valid(fs)
    requires WriteAll(fs, writes).result.Success?
    requires DistinctTargets(writes)
    requires i < |writes|
    ensures Read(WriteAll(fs, writes).fs, writes[i].0) == Success(writes[i].1)
    decreases |writes|, 1
  {
    var first := WriteFileIfChanged(fs, writes[0].0, writes[0].1);
    var tail := writes[1..];
    WriteAllCons(fs, writes);
    if i == 0 {
      FirstStays(fs, writes, first.fs, tail);
    } else {
      LaterStays(fs, writes, i, first.fs, tail);
    }
  }

  /** A later write's text is stored by the writes after the first. */
  lemma {:induction false} LaterStays(fs: FileSystem, writes: seq<(string, string)>, i: nat, after: FileSystem, tail: seq<(string, string)>)
    requires Valid(fs) && DistinctTargets(writes) && 0 < i < |writes|
    requires WriteFileIfChanged(fs, writes[0].0, writes[0].1).result.Success?
    requires after == WriteFileIfChanged(fs, writes[0].0, writes[0].1).fs
    requires tail == writes[1..] && WriteAll(after, tail).result.Success?
    ensures Read(WriteAll(after, tail).fs, writes[i].0) == Success(writes[i].1)
    decreases |writes|, 0
  {
    CallKeepsValid(fs, writes[0].0, writes[0].1);
    DistinctTail(writes, tail);
    assert tail[i - 1] == writes[i];
    WriteAllStores(after, tail, i - 1);
  }

  /** The first write's text survives the writes after it. */
  lemma FirstStays(fs: FileSystem, writes: seq<(string, string)>, after: FileSystem, tail: seq<(string, string)>)
    requires Valid(fs) && |writes| > 0 && DistinctTargets(writes)
    requires WriteFileIfChanged(fs, writes[0].0, writes[0].1).result.Success?
    requires after == WriteFileIfChanged(fs, writes[0].0, writes[0].1).fs
    requires tail == writes[1..] && WriteAll(after, tail).result.Success?
    ensures Read(WriteAll(after, tail).fs, writes[0].0) == Success(writes[0].1)
  {
    CallKeepsValid(fs, writes[0].0, writes[0].1);
    CallStores(fs, writes[0].0, writes[0].1);
    forall j | 0 <= j < |tail| ensures Normal(writes[0].0) != Normal(tail[j].0) {
      assert tail[j] == writes[j + 1];
    }
    WriteAllKeepsOtherFiles(after, tail, writes[0].0);
  }

  lemma DistinctTail(writes: seq<(string, string)>, tail: seq<(string, string)>)
    requires |writes| > 0 && DistinctTargets(writes) && tail == writes[1..]
    ensures DistinctTargets(tail)
  {
    forall i, j | 0 <= i < j < |tail| ensures Normal(tail[i].0) != Normal(tail[j].0) {
      assert tail[i] == writes[i + 1] && tail[j] == writes[j + 1];
    }
  }

  /** What `n` writes that changed nothing report: `false`, `n` times. */
  function Unchanged(n: nat): (r: seq<bool>)
    ensures |r| == n && forall i :: 0 <= i < n ==> !r[i]
  {
    if n == 0 then [] else [false] + Unchanged(n - 1)
  }

  /** Writes whose targets already hold their texts report `false` each and
      change nothing. */
  lemma {:induction false} WriteAllUnchanged(fs: FileSystem, writes: seq<(string, string)>)
    requires Valid(fs)
    requires forall i :: 0 <= i < |writes| ==> Read(fs, writes[i].0) == Success(writes[i].1)
    ensures WriteAll(fs, writes) == Outcome(fs, Success(Unchanged(|writes|)))
    decreases |writes|
  {
    if |writes| > 0 {
      var tail := writes[1..];
      UnchangedCall(fs, writes[0].0, writes[0].1);
      assert forall i :: 0 <= i < |tail| ==> tail[i] == writes[i + 1];
      WriteAllUnchanged(fs, tail);
      UnchangedCons(fs, writes, tail);
    }
  }

  lemma UnchangedCons(fs: FileSystem, writes: seq<(string, string)>, tail: seq<(string, string)>)
    requires |writes| > 0 && tail == writes[1..]
    requires WriteFileIfChanged(fs, writes[0].0, writes[0].1) == Outcome(fs, Success(false))
    requires WriteAll(fs, tail) == Outcome(fs, Success(Unchanged(|tail|)))
    ensures WriteAll(fs, writes) == Outcome(fs, Success(Unchanged(|writes|)))
  {
    WriteAllCons(fs, writes);
    var whole := WriteAll(fs, writes);
    assert whole.fs == fs;
    assert whole.result.value == [false] + Unchanged(|tail|) == Unchanged(|writes|);
  }

  /** A file that already holds the text is left as it is, and the call says so. */
  lemma UnchangedCall(fs: FileSystem, p: string, content: string)
    requires Valid(fs) && Read(fs, p) == Success(content)
    ensures WriteFileIfChanged(fs, p, content) == Outcome(fs, Success(false))
  {
    UnchangedExactlyWhenEqual(fs, p, content);
  }

  /** `WriteAll` does the first write, then the others from where it left the files. */
  lemma WriteAllCons(fs: FileSystem, writes: seq<(string, string)>)
    requires |writes| > 0
    ensures var first := WriteFileIfChanged(fs, writes[0].0, writes[0].1);
      var rest := WriteAll(first.fs, writes[1..]);
      WriteAll(fs, writes).fs == rest.fs &&
      (WriteAll(fs, writes).result.Success? <==> first.result.Success? && rest.result.Success?) &&
      (WriteAll(fs, writes).result.Success? ==> WriteAll(fs, writes).result.value == [first.result.value] + rest.result.value)
  {
  }

  /** Running the same writes again reports nothing changed and leaves the
      files as the first run left them. */
  lemma WriteAllTwice(fs: FileSystem, writes: seq<(string, string)>)
    requires Valid(fs)
    requires WriteAll(fs, writes).result.Success?
    requires DistinctTargets(writes)
    ensures var after := WriteAll(fs, writes).fs;
      WriteAll(after, writes) == Outcome(after, Success(Unchanged(|writes|)))
  {
    var after := WriteAll(fs, writes).fs;
    forall i | 0 <= i < |writes| ensures Read(after, writes[i].0) == Success(writes[i].1) {
      WriteAllStores(fs, writes, i);
    }
    WriteAllKeepsValid(fs, writes);
    WriteAllUnchanged(after, writes);
  }

  // ---------------------------------------------------------------------------
  // Lemmas on a generation
  // ---------------------------------------------------------------------------

  /** The four output files are four different files. */
  predicate Separate(options: ResolvedOptions) {
    DistinctTargets(ArtifactWrites(GeneratedFiles("", "", "", "", []), options))
  }

  /** After a successful generation each output file holds its text. */
  lemma GeneratedFilesInPlace(fs: FileSystem, icons: Listing, options: ResolvedOptions, le: (string, string) -> bool)
    requires Valid(fs) && Separate(options)
    requires GenerateArtifacts(fs, icons, options, le).result.Success?
    ensures CollectEntries(options, icons).Success?
    ensures var entries := CollectEntries(options, icons).value;
      var after := GenerateArtifacts(fs, icons, options, le).fs;
      Read(after, options.typeOutputFile) == Success(BuildTypeFile(NamedOnly(entries))) &&
      Read(after, options.previewVueFile) == Success(BuildPreviewVue(entries, le)) &&
      Read(after, options.previewMainFile) == Success(BuildPreviewMain()) &&
      Read(after, options.previewHtmlFile) == Success(BuildPreviewHtml(options.previewMainFile, options.root))
    ensures Valid(GenerateArtifacts(fs, icons, options, le).fs)
  {
    var entries := CollectEntries(options, icons).value;
    var files := BuildArtifacts(entries, options, le);
    var writes := ArtifactWrites(files, options);
    GenerateWrites(fs, icons, options, le);
    SeparateWrites(files, options);
    WriteAllStores(fs, writes, 0);
    WriteAllStores(fs, writes, 1);
    WriteAllStores(fs, writes, 2);
    WriteAllStores(fs, writes, 3);
    WriteAllKeepsValid(fs, writes);
  }

  /** A successful generation is the writes of the texts built from the scanned entries. */
  lemma GenerateWrites(fs: FileSystem, icons: Listing, options: ResolvedOptions, le: (string, string) -> bool)
    requires GenerateArtifacts(fs, icons, options, le).result.Success?
    ensures CollectEntries(options, icons).Success?
    ensures var writes := ArtifactWrites(BuildArtifacts(CollectEntries(options, icons).value, options, le), options);
      WriteAll(fs, writes).result.Success? && GenerateArtifacts(fs, icons, options, le).fs == WriteAll(fs, writes).fs
  {
  }

  /** When the options keep the four files apart, so do the writes of any texts. */
  lemma SeparateWrites(files: GeneratedFiles, options: ResolvedOptions)
    requires Separate(options)
    ensures DistinctTargets(ArtifactWrites(files, options))
  {
    SameTargets(files, options);
  }

  /** The targets of the writes depend on the options only. */
  lemma SameTargets(files: GeneratedFiles, options: ResolvedOptions)
    ensures forall i :: 0 <= i < 4 ==>
      ArtifactWrites(files, options)[i].0 == ArtifactWrites(GeneratedFiles("", "", "", "", []), options)[i].0
  {
  }

  /** A second generation over the same icons reports the same count and
      writes nothing. */
  lemma GenerateTwice(fs: FileSystem, icons: Listing, options: ResolvedOptions, le: (string, string) -> bool)
    requires Valid(fs) && Separate(options)
    requires GenerateArtifacts(fs, icons, options, le).result.Success?
    ensures var first := GenerateArtifacts(fs, icons, options, le);
      GenerateArtifacts(first.fs, icons, options, le) == first
  {
    var entries := CollectEntries(options, icons).value;
    var files := BuildArtifacts(entries, options, le);
    var writes := ArtifactWrites(files, options);
    GenerateWrites(fs, icons, options, le);
    SeparateWrites(files, options);
    WriteAllTwice(fs, writes);
  }

  /** Without options the four output files are four different files. */
  lemma DefaultsAreSeparate(root: string)
    ensures Separate(ResolvePluginOptions(NoOptions, root))
  {
    var o := ResolvePluginOptions(NoOptions, root);
    var r := Segments(root);
    DefaultTypeOutput(root);
    DefaultPreviewFiles(root);
    var t0: seq<string> := ["src", "types", "generated-svg-names.d.ts"];
    var t1: seq<string> := ["icon-preview", "generated-preview.vue"];
    var t2: seq<string> := ["icon-preview", "main.ts"];
    var t3: seq<string> := ["icon-preview.html"];
    assert t0[0] != t1[0] && t0[0] != t2[0] && t0[0] != t3[0] && t1[0] != t3[0] && t2[0] != t3[0];
    assert t1[1] != t2[1];
    DistinctBelow(r, t0, t1, o.typeOutputFile, o.previewVueFile);
    DistinctBelow(r, t0, t2, o.typeOutputFile, o.previewMainFile);
    DistinctBelow(r, t0, t3, o.typeOutputFile, o.previewHtmlFile);
    DistinctBelow(r, t1, t2, o.previewVueFile, o.previewMainFile);
    DistinctBelow(r, t1, t3, o.previewVueFile, o.previewHtmlFile);
    DistinctBelow(r, t2, t3, o.previewMainFile, o.previewHtmlFile);
    SeparateWhenPairwise(o);
  }

  lemma AppendCancel<T>(r: seq<T>, t: seq<T>, u: seq<T>)
    requires r + t == r + u
    ensures t == u
  {
    assert t == (r + t)[|r|..];
    assert u == (r + u)[|r|..];
  }

  lemma SeparateWhenPairwise(o: ResolvedOptions)
    requires Normal(o.typeOutputFile) != Normal(o.previewVueFile)
    requires Normal(o.typeOutputFile) != Normal(o.previewMainFile)
    requires Normal(o.typeOutputFile) != Normal(o.previewHtmlFile)
    requires Normal(o.previewVueFile) != Normal(o.previewMainFile)
    requires Normal(o.previewVueFile) != Normal(o.previewHtmlFile)
    requires Normal(o.previewMainFile) != Normal(o.previewHtmlFile)
    ensures Separate(o)
  {
  }

  /** Paths with different names below the same directory are different files. */
  lemma DistinctBelow(r: seq<string>, t: seq<string>, u: seq<string>, p: string, q: string)
    requires Segments(p) == r + t && Segments(q) == r + u
    requires t != u
    ensures Normal(p) != Normal(q)
  {
    if Render(Segments(p)) == Render(Segments(q)) {
      RenderInjective(Segments(p), Segments(q));
      AppendCancel(r, t, u);
    }
  }

  /** Without options `main.ts` sits next to the page, so the import it
      carries resolves to the page file. */
  lemma DefaultMainImportsPage(root: string)
    ensures var o := ResolvePluginOptions(NoOptions, root);
      Resolve(Dirname(o.previewMainFile), PreviewImport) == o.previewVueFile
  {
    var o := ResolvePluginOptions(NoOptions, root);
    DefaultPreviewFiles(root);
    RenderOfResolve(root, DefaultPreviewVue);
    var dir := Segments(root) + ["icon-preview"];
    AppendPair(Segments(root), "icon-preview", "main.ts");
    AppendPair(Segments(root), "icon-preview", "generated-preview.vue");
    ImportNextToMain(o.previewMainFile, o.previewVueFile, dir);
  }

  lemma AppendPair<T>(r: seq<T>, a: T, b: T)
    ensures r + [a, b] == r + [a] + [b]
  {
  }

  /** A `main.ts` next to the page imports the page. */
  lemma ImportNextToMain(mainFile: string, vueFile: string, dir: seq<string>)
    requires Segments(mainFile) == dir + ["main.ts"]
    requires Segments(vueFile) == dir + ["generated-preview.vue"] && vueFile == Render(Segments(vueFile))
    ensures Resolve(Dirname(mainFile), PreviewImport) == vueFile
  {
    DirnameBelow(mainFile, dir, "main.ts");
    ImportBelow(Dirname(mainFile), dir);
  }

  /** The directory of the file `dir + [name]` is `dir`. */
  lemma DirnameBelow(p: string, dir: seq<string>, name: string)
    requires Segments(p) == dir + [name]
    ensures Dirname(p) == Render(dir)
  {
    assert (dir + [name])[..|dir|] == dir;
  }

  /** The page import, read from the directory `dir`, names the page in `dir`. */
  lemma ImportBelow(from: string, dir: seq<string>)
    requires from == Render(dir) && AllEntryNames(dir)
    ensures Resolve(from, PreviewImport) == Render(dir + ["generated-preview.vue"])
  {
    SegmentsOfRender(dir);
    ImportPieces();
    ResolveRelativePieces(from, [".", "generated-preview.vue"]);
    assert [".", "generated-preview.vue"][1..] == ["generated-preview.vue"];
    NormalizeEntries(dir, ["generated-preview.vue"]);
  }

  lemma ImportPieces()
    ensures PreviewImport == Join([".", "generated-preview.vue"], "/")
    ensures !StartsWith(PreviewImport, "/")
  {
    JoinTwo(".", "generated-preview.vue", "/");
    assert PreviewImport == "." + "/" + "generated-preview.vue";
    assert PreviewImport[..1][0] == '.';
  }

  /** A resolved path is already in rendered form. */
  lemma RenderOfResolve(base: string, p: string)
    ensures Resolve(base, p) == Render(Segments(Resolve(base, p)))
  {
    var s := if StartsWith(p, "/") then Segments(p) else Segments(base + "/" + p);
    SegmentsOfRender(s);
  }

  // ---------------------------------------------------------------------------
  // Lemmas on the log line
  // ---------------------------------------------------------------------------

  /** One icon is counted in the singular. */
  lemma LogOne()
    ensures LogGenerate(1) == "[vite-plugin-svg-icon-name] generated " + "1" + " icon (types + preview)"
  {
    DecimalOne();
    LogHeadText();
    SingularTail();
  }

  lemma DecimalOne()
    ensures Decimal(1) == "1"
  {
    assert DigitChar(1) == '1';
    assert Numeral(1, 10) == "1";
  }

  lemma LogHeadText()
    ensures LogHead == "[vite-plugin-svg-icon-name] generated "
  {
  }

  lemma SingularTail()
    ensures LogTail(1) == " icon (types + preview)"
  {
  }

  lemma PluralTail(count: nat)
    requires count != 1
    ensures LogTail(count) == " icons (types + preview)"
  {
  }

  /** The plural ending appears exactly when the count is not one. */
  lemma LogPlural(count: nat)
    ensures EndsWith(LogGenerate(count), " icons (types + preview)") <==> count != 1
  {
    if count == 1 {
      DecimalOne();
      SingularTail();
      SingularEnding(LogHead);
    } else {
      PluralTail(count);
      EndsWithAppend(LogHead + Decimal(count), LogTail(count));
    }
  }

  lemma SingularEnding(head: string)
    ensures !EndsWith(head + "1" + " icon (types + preview)", " icons (types + preview)")
  {
    var line := head + "1" + " icon (types + preview)";
    var tail := " icons (types + preview)";
    assert line[|line| - |tail|..][5] != tail[5];
  }

  lemma EndsWithAppend(a: string, b: string)
    ensures EndsWith(a + b, b)
  {
    assert (a + b)[|a + b| - |b|..] == b;
  }

  /** Different counts print different lines. */
  lemma LogInjective(m: nat, n: nat)
    requires LogGenerate(m) == LogGenerate(n)
    ensures m == n
  {
    TailOpensWithSpace(m);
    TailOpensWithSpace(n);
    CountsBetween(LogHead, Decimal(m), LogTail(m), Decimal(n), LogTail(n));
    DecimalInjective(m, n);
  }

  lemma TailOpensWithSpace(count: nat)
    ensures |LogTail(count)| > 0 && LogTail(count)[0] == ' '
  {
  }

  /** Two runs of digits between the same beginning and texts that open with
      a non-digit are equal when the whole texts are. */
  lemma CountsBetween(h: string, a: string, x: string, b: string, y: string)
    requires AllDigits(a) && AllDigits(b)
    requires |x| > 0 && |y| > 0 && !IsDigit(x[0]) && !IsDigit(y[0])
    requires h + a + x == h + b + y
    ensures a == b
  {
    assert h + a + x == h + (a + x);
    assert h + b + y == h + (b + y);
    DropHead(h, a + x, b + y);
    DigitsThenSpace(a, x, b, y);
  }

  /** Equal texts with the same beginning are equal after it. */
  lemma DropHead(h: string, u: string, v: string)
    requires h + u == h + v
    ensures u == v
  {
    assert (h + u)[|h|..] == u && (h + v)[|h|..] == v;
  }

  /** Two runs of digits, each followed by text opening with a non-digit,
      are equal when the two strings are. */
  lemma DigitsThenSpace(a: string, x: string, b: string, y: string)
    requires AllDigits(a) && AllDigits(b)
    requires |x| > 0 && |y| > 0 && !IsDigit(x[0]) && !IsDigit(y[0])
    requires a + x == b + y
    ensures a == b
  {
    var s := a + x;
    if |a| == |b| {
      assert s[..|a|] == a;
      assert s[..|b|] == b;
    } else if |a| < |b| {
      DigitFollows(a, x, b, y);
    } else {
      DigitFollows(b, y, a, x);
    }
  }

  /** Where the shorter run of digits ends, the longer one has a digit. */
  lemma DigitFollows(a: string, x: string, b: string, y: string)
    requires AllDigits(b) && |a| < |b| && |x| > 0
    requires a + x == b + y
    ensures IsDigit(x[0])
  {
    assert (a + x)[|a|] == x[0];
    assert (b + y)[|a|] == b[|a|];
  }
}

=== FILE: color.dfy ===
/** The colour conversions of the script embedded in the preview page
    (`src/generator/templates.ts`): printing a colour as `#rrggbb` or
    `rgb(r, g, b)`, and reading those forms back. Channels are whole numbers,
    so `Math.round` leaves them unchanged. */
module Color {
  import opened Wrappers
  import opened Text

  datatype Rgb = Rgb(r: int, g: int, b: int)

  /** `Math.min(255, Math.max(0, v))`. */
  function Clamp(v: int): (c: int)
    ensures 0 <= c <= 255
    ensures 0 <= v <= 255 ==> c == v
    ensures v < 0 ==> c == 0
    ensures v > 255 ==> c == 255
  {
    if v < 0 then 0 else if v > 255 then 255 else v
  }

  function ClampRgb(c: Rgb): Rgb {
    Rgb(Clamp(c.r), Clamp(c.g), Clamp(c.b))
  }

  predicate InRange(c: Rgb) {
    0 <= c.r <= 255 && 0 <= c.g <= 255 && 0 <= c.b <= 255
  }

  // ---------------------------------------------------------------------------
  // Printing
  // ---------------------------------------------------------------------------

  predicate IsLowerHexDigit(ch: char) {
    IsDigit(ch) || 'a' <= ch <= 'f'
  }

  /** `v.toString(16).padStart(2, '0')` for a channel. */
  function Hex2(v: int): (s: string)
    requires 0 <= v <= 255
    ensures s == [DigitChar(v / 16), DigitChar(v % 16)]
  {
    var n := Numeral(v, 16);
    HexNumeral(v);
    if |n| == 1 then "0" + n else n
  }

  lemma HexNumeral(v: int)
    requires 0 <= v <= 255
    ensures Numeral(v, 16) == if v < 16 then [DigitChar(v)] else [DigitChar(v / 16), DigitChar(v % 16)]
    ensures DigitChar(0) == '0'
  {
    if v >= 16 {
      assert v / 16 < 16;
      assert Numeral(v / 16, 16) == [DigitChar(v / 16)];
    }
  }

  /** Both printed digits of a channel are lower-case hexadecimal digits. */
  lemma Hex2Lower(v: int)
    requires 0 <= v <= 255
    ensures IsLowerHexDigit(Hex2(v)[0]) && IsLowerHexDigit(Hex2(v)[1])
  {
  }

  /** `rgbToHex(c)`: `#` and two lower-case hexadecimal digits per clamped channel. */
  function RgbToHex(c: Rgb): (s: string)
    ensures |s| == 7 && s[0] == '#'
    ensures forall i :: 1 <= i < 7 ==> IsLowerHexDigit(s[i])
  {
    var x, y, z := Hex2(Clamp(c.r)), Hex2(Clamp(c.g)), Hex2(Clamp(c.b));
    Hex2Lower(Clamp(c.r));
    Hex2Lower(Clamp(c.g));
    Hex2Lower(Clamp(c.b));
    HashSix(x, y, z)
  }

  /** `#` followed by three digit pairs. */
  function HashSix(x: string, y: string, z: string): (s: string)
    requires |x| == 2 && |y| == 2 && |z| == 2
    requires IsLowerHexDigit(x[0]) && IsLowerHexDigit(x[1]) && IsLowerHexDigit(y[0])
    requires IsLowerHexDigit(y[1]) && IsLowerHexDigit(z[0]) && IsLowerHexDigit(z[1])
    ensures |s| == 7 && s[0] == '#'
    ensures forall i :: 1 <= i < 7 ==> IsLowerHexDigit(s[i])
    ensures s[1..] == x + y + z
  {
    var s := "#" + x + y + z;
    assert s[1] == x[0] && s[2] == x[1] && s[3] == y[0] && s[4] == y[1] && s[5] == z[0] && s[6] == z[1];
    s
  }

  /** `rgbToString(c)`: `rgb(r, g, b)` with the clamped channels in decimal. */
  function RgbToString(c: Rgb): (s: string)
    ensures 12 <= |s| <= 18
  {
    "rgb(" + Decimal(Clamp(c.r)) + ", " + Decimal(Clamp(c.g)) + ", " + Decimal(Clamp(c.b)) + ")"
  }

  // ---------------------------------------------------------------------------
  // Reading `#rgb` and `#rrggbb`
  // ---------------------------------------------------------------------------

  /** The longest prefix of hexadecimal digits. */
  function HexPrefix(s: string): (p: string)
    ensures StartsWith(s, p) && AllHexDigits(p)
    ensures |p| < |s| ==> !IsHexDigit(s[|p|])
  {
    if |s| == 0 || !IsHexDigit(s[0]) then ""
    else [s[0]] + HexPrefix(s[1..])
  }

  /** `Number.parseInt(s, 16)`, `None` standing for `NaN`: leading white
      space, an optional sign and an optional `0x` are skipped, then the
      longest run of hexadecimal digits is read; the rest is ignored. */
  function ParseIntHex(s: string): (r: Option<int>)
    ensures r.None? <==> HexPrefix(Unsigned(TrimStart(s))) == ""
  {
    var t := TrimStart(s);
    var digits := HexPrefix(Unsigned(t));
    if digits == "" then None
    else
      var v: int := NumeralValue(digits, 16);
      Some(if |t| > 0 && t[0] == '-' then -v else v)
  }

  /** The text after an optional sign and an optional `0x` or `0X`. */
  function Unsigned(t: string): string {
    var u := if |t| > 0 && (t[0] == '-' || t[0] == '+') then t[1..] else t;
    if |u| >= 2 && u[0] == '0' && (u[1] == 'x' || u[1] == 'X') then u[2..] else u
  }

  /** The conversion of a number to a signed 32-bit integer that `>>` applies first. */
  function ToInt32(n: int): (r: int)
    ensures -0x8000_0000 <= r < 0x8000_0000
    ensures -0x8000_0000 <= n < 0x8000_0000 ==> r == n
  {
    var m := n % 0x1_0000_0000;
    if m >= 0x8000_0000 then m - 0x1_0000_0000 else m
  }

  /** `(num >> 16) & 255`, `(num >> 8) & 255` and `num & 255`: the arithmetic
      shift is a division rounding down, and `& 255` keeps the low eight bits
      of the two's complement, a remainder that is never negative. */
  function Channels(num: int): (c: Rgb)
    ensures InRange(c)
  {
    var n := ToInt32(num);
    Rgb((n / 0x1_0000) % 256, (n / 0x100) % 256, n % 256)
  }

  /** `hex.split('').map(ch => ch + ch).join('')`. */
  function Double(s: string): (r: string)
    ensures |r| == 2 * |s|
    ensures forall i :: 0 <= i < |s| ==> r[2 * i] == s[i] && r[2 * i + 1] == s[i]
  {
    if |s| == 0 then "" else [s[0], s[0]] + Double(s[1..])
  }

  /** `value.trim().replace('#', '')`: only the first `#` goes. */
  function Stripped(value: string): string {
    RemoveFirst(Trim(value), '#')
  }

  /** `hexToRgb(value)`. `hex.length` counts UTF-16 code units, so a
      character beyond U+FFFF counts twice. `Double` doubles characters where
      the page doubles code units; `parseInt` reads the same number from
      both, since it stops at the first character that is not an ASCII
      hexadecimal digit and no surrogate is one. */
  function HexToRgb(value: string): (r: Option<Rgb>)
    ensures r.Some? ==> Length(Stripped(value)) == 3 || Length(Stripped(value)) == 6
    ensures r.Some? ==> InRange(r.value)
  {
    var hex := Stripped(value);
    if Length(hex) != 3 && Length(hex) != 6 then None
    else
      var normalized := if Length(hex) == 3 then Double(hex) else hex;
      match ParseIntHex(normalized)
      case None => None
      case Some(num) => Some(Channels(num))
  }

  // ---------------------------------------------------------------------------
  // Lemmas on the hexadecimal form
  // ---------------------------------------------------------------------------

  lemma DivMod(q: int, r: int, d: int)
    requires d == 16 || d == 256 || d == 0x1_0000
    requires 0 <= r < d
    ensures (q * d + r) / d == q && (q * d + r) % d == r
  {
    if d == 16 {
      assert q * d == q * 16;
    } else if d == 256 {
      assert q * d == q * 256;
    } else {
      assert q * d == q * 0x1_0000;
    }
  }

  /** A text with no white space at either end is its own trim. */
  lemma TrimUntouched(s: string)
    requires |s| > 0 && !IsWhiteSpace(s[0]) && !IsWhiteSpace(s[|s| - 1])
    ensures Trim(s) == s
  {
    assert TrimStart(s) == s;
    assert TrimEnd(s) == s;
  }

  lemma StrippedOfHash(h: string)
    requires |h| > 0 && AllHexDigits(h)
    ensures Stripped("#" + h) == h
    ensures Length(h) == |h|
  {
    BmpLength(h);
    var s := "#" + h;
    assert s[|s| - 1] == h[|h| - 1];
    TrimUntouched(s);
    assert s[1..] == h;
  }

  /** The value of six hexadecimal digits. */
  lemma Value6(h: string)
    requires |h| == 6 && AllHexDigits(h)
    ensures NumeralValue(h, 16) ==
      PairValue(h[0], h[1]) * 0x1_0000 + PairValue(h[2], h[3]) * 0x100 + PairValue(h[4], h[5])
  {
    var d0, d1, d2 := DigitValue(h[0]), DigitValue(h[1]), DigitValue(h[2]);
    var d3, d4, d5 := DigitValue(h[3]), DigitValue(h[4]), DigitValue(h[5]);
    NumeralSnoc(h, 1);
    NumeralSnoc(h, 2);
    NumeralSnoc(h, 3);
    NumeralSnoc(h, 4);
    NumeralSnoc(h, 5);
    NumeralSnoc(h, 6);
    assert h[..0] == "";
    assert h[..6] == h;
  }

  /** One more digit multiplies the value so far by the base. */
  lemma NumeralSnoc(h: string, k: nat)
    requires 1 <= k <= |h| && AllHexDigits(h)
    ensures NumeralValue(h[..k], 16) == NumeralValue(h[..k - 1], 16) * 16 + DigitValue(h[k - 1])
  {
    assert h[..k][..k - 1] == h[..k - 1];
  }

  /** Six hexadecimal digits are read in full. */
  lemma ParseSixDigits(h: string)
    requires |h| == 6 && AllHexDigits(h)
    ensures ParseIntHex(h) == Some(NumeralValue(h, 16))
  {
    NoSpaceBeforeDigit(h);
    NoSignBeforeDigits(h);
    HexPrefixOfDigits(h);
  }

  lemma {:induction false} HexPrefixOfDigits(h: string)
    requires AllHexDigits(h)
    ensures HexPrefix(h) == h
  {
    if |h| > 0 {
      HexPrefixOfDigits(h[1..]);
      assert [h[0]] + h[1..] == h;
    }
  }

  /** The number two hexadecimal digits denote. */
  function PairValue(a: char, b: char): (v: int)
    requires IsHexDigit(a) && IsHexDigit(b)
    ensures 0 <= v <= 255
  {
    16 * DigitValue(a) + DigitValue(b)
  }

  /** Reading `#` and six digits is reading the number they denote. */
  lemma HexOfSix(h: string)
    requires |h| == 6 && AllHexDigits(h)
    ensures HexToRgb("#" + h) == Some(Channels(NumeralValue(h, 16)))
  {
    StrippedOfHash(h);
    ParseSixDigits(h);
  }

  /** Reading six digits gives the three channels their pairs denote. */
  lemma ChannelsOfSix(h: string)
    requires |h| == 6 && AllHexDigits(h)
    ensures HexToRgb("#" + h) == Some(Rgb(PairValue(h[0], h[1]), PairValue(h[2], h[3]), PairValue(h[4], h[5])))
  {
    HexOfSix(h);
    Value6(h);
    ChannelsOfValue(NumeralValue(h, 16), PairValue(h[0], h[1]), PairValue(h[2], h[3]), PairValue(h[4], h[5]));
  }

  /** The channel extraction inverts packing three channels into a number. */
  lemma ChannelsOfValue(n: int, r: int, g: int, b: int)
    requires 0 <= r <= 255 && 0 <= g <= 255 && 0 <= b <= 255
    requires n == r * 0x1_0000 + g * 0x100 + b
    ensures Channels(n) == Rgb(r, g, b)
  {
    assert ToInt32(n) == n;
    DivMod(r, g * 0x100 + b, 0x1_0000);
    assert n == (r * 0x100 + g) * 0x100 + b;
    DivMod(r * 0x100 + g, b, 0x100);
    DivMod(r, g, 0x100);
  }

  /** Reading `#` and three digit pairs gives the channels the pairs denote. */
  lemma HexOfPairs(x: string, y: string, z: string)
    requires |x| == 2 && |y| == 2 && |z| == 2
    requires IsLowerHexDigit(x[0]) && IsLowerHexDigit(x[1]) && IsLowerHexDigit(y[0])
    requires IsLowerHexDigit(y[1]) && IsLowerHexDigit(z[0]) && IsLowerHexDigit(z[1])
    ensures HexToRgb(HashSix(x, y, z)) == Some(Rgb(PairValue(x[0], x[1]), PairValue(y[0], y[1]), PairValue(z[0], z[1])))
  {
    var h := x + y + z;
    assert HashSix(x, y, z) == "#" + h;
    assert h[0] == x[0] && h[1] == x[1] && h[2] == y[0] && h[3] == y[1] && h[4] == z[0] && h[5] == z[1];
    ChannelsOfSix(h);
  }

  /** Printing then reading a colour gives its clamped channels back. */
  lemma HexRoundTrip(c: Rgb)
    ensures HexToRgb(RgbToHex(c)) == Some(ClampRgb(c))
  {
    var x, y, z := Hex2(Clamp(c.r)), Hex2(Clamp(c.g)), Hex2(Clamp(c.b));
    Hex2Lower(Clamp(c.r));
    Hex2Lower(Clamp(c.g));
    Hex2Lower(Clamp(c.b));
    assert RgbToHex(c) == HashSix(x, y, z);
    HexOfPairs(x, y, z);
    DigitPair(Clamp(c.r));
    DigitPair(Clamp(c.g));
    DigitPair(Clamp(c.b));
  }

  /** The two printed digits of a channel denote the channel. */
  lemma DigitPair(v: int)
    requires 0 <= v <= 255
    ensures IsHexDigit(Hex2(v)[0]) && IsHexDigit(Hex2(v)[1])
    ensures PairValue(Hex2(v)[0], Hex2(v)[1]) == v
  {
  }

  /** A lower-case digit is the digit printed for its value. */
  lemma DigitCharOfValue(ch: char)
    requires IsLowerHexDigit(ch)
    ensures DigitChar(DigitValue(ch)) == ch
  {
  }

  /** Six lower-case digits are the canonical print of the colour they denote. */
  lemma HexCanonical(h: string)
    requires |h| == 6 && forall i :: 0 <= i < 6 ==> IsLowerHexDigit(h[i])
    ensures HexToRgb("#" + h).Some?
    ensures RgbToHex(HexToRgb("#" + h).value) == "#" + h
  {
    var x, y, z := h[0..2], h[2..4], h[4..6];
    assert x[0] == h[0] && x[1] == h[1] && y[0] == h[2] && y[1] == h[3] && z[0] == h[4] && z[1] == h[5];
    var c := Rgb(PairValue(x[0], x[1]), PairValue(y[0], y[1]), PairValue(z[0], z[1]));
    ChannelsOfSix(h);
    assert HexToRgb("#" + h) == Some(c);
    PairOfDigits(x);
    PairOfDigits(y);
    PairOfDigits(z);
    assert RgbToHex(c) == HashSix(x, y, z);
    PrintSix(h);
  }

  /** The print of three pairs of a text's digits is `#` and the text. */
  lemma PrintSix(h: string)
    requires |h| == 6 && forall i :: 0 <= i < 6 ==> IsLowerHexDigit(h[i])
    ensures HashSix(h[0..2], h[2..4], h[4..6]) == "#" + h
  {
    var s := HashSix(h[0..2], h[2..4], h[4..6]);
    assert h[0..2] + h[2..4] + h[4..6] == h;
    assert s == [s[0]] + s[1..];
  }

  /** Two lower-case digits are printed back as they were. */
  lemma PairOfDigits(s: string)
    requires |s| == 2 && IsLowerHexDigit(s[0]) && IsLowerHexDigit(s[1])
    ensures Hex2(PairValue(s[0], s[1])) == s
  {
    DivMod(DigitValue(s[0]), DigitValue(s[1]), 16);
    DigitCharOfValue(s[0]);
    DigitCharOfValue(s[1]);
  }

  /** The short form `#abc` reads as `#aabbcc`. */
  lemma ShortFormDoubles(h: string)
    requires |h| == 3 && AllHexDigits(h)
    ensures HexToRgb("#" + h) == HexToRgb("#" + Double(h))
    ensures HexToRgb("#" + h) == Some(Rgb(17 * DigitValue(h[0]), 17 * DigitValue(h[1]), 17 * DigitValue(h[2])))
  {
    var d := [h[0], h[0], h[1], h[1], h[2], h[2]];
    DoubleOfThree(h);
    ShortIsDoubled(h, d);
    ChannelsOfSix(d);
    assert PairValue(d[0], d[1]) == 17 * DigitValue(h[0]);
    assert PairValue(d[2], d[3]) == 17 * DigitValue(h[1]);
    assert PairValue(d[4], d[5]) == 17 * DigitValue(h[2]);
  }

  lemma DoubleOfThree(h: string)
    requires |h| == 3
    ensures Double(h) == [h[0], h[0], h[1], h[1], h[2], h[2]]
  {
  }

  lemma ShortIsDoubled(h: string, d: string)
    requires |h| == 3 && AllHexDigits(h)
    requires d == Double(h) && AllHexDigits(d)
    ensures HexToRgb("#" + h) == HexToRgb("#" + d)
  {
    StrippedOfHash(h);
    StrippedOfHash(d);
  }

  /** `parseInt` stops at the first non-digit: `#12zz56` is read as `0x12`. */
  lemma PrefixIsRead()
    ensures HexToRgb("#12zz56") == Some(Rgb(0, 0, 18))
  {
    var h := "12zz56";
    assert "#12zz56" == "#" + h;
    PrefixStripped(h);
    PrefixParsed(h);
    SixReadAs("#" + h, h, 18);
    ChannelsOfValue(18, 0, 0, 18);
  }

  /** A text whose stripped form has six code units is read in full by
      `parseInt`. */
  lemma SixReadAs(value: string, h: string, v: int)
    requires Stripped(value) == h && Length(h) == 6 && ParseIntHex(h) == Some(v)
    ensures HexToRgb(value) == Some(Channels(v))
  {
  }

  /** `hex.length` counts code units: `a` and U+1F600 make three, so the
      text takes the short-form branch, and `parseInt` reads `aa` from the
      doubled text. */
  lemma AstralCountsTwice()
    ensures HexToRgb("#a\U{1F600}") == Some(Rgb(0, 0, 170))
  {
    var h := "a\U{1F600}";
    assert "#a\U{1F600}" == "#" + h;
    AstralStripped(h);
    AstralLength(h);
    AstralDoubleRead(h);
    ChannelsOfValue(170, 0, 0, 170);
  }

  lemma AstralLength(h: string)
    requires h == "a\U{1F600}"
    ensures Length(h) == 3
  {
    assert Utf16(h) == Utf16Char('a') + Utf16Char('\U{1F600}') + Utf16(h[2..]);
  }

  lemma AstralDoubleRead(h: string)
    requires h == "a\U{1F600}"
    ensures ParseIntHex(Double(h)) == Some(170)
  {
    DoubleOfTwo(h);
    var p, rest := "aa", "\U{1F600}\U{1F600}";
    assert [h[0], h[0], h[1], h[1]] == p + rest;
    ReadDoubledA(p, rest);
  }

  lemma DoubleOfTwo(h: string)
    requires |h| == 2
    ensures Double(h) == [h[0], h[0], h[1], h[1]]
  {
  }

  lemma ReadDoubledA(p: string, rest: string)
    requires p == "aa" && rest == "\U{1F600}\U{1F600}"
    ensures ParseIntHex(p + rest) == Some(170)
  {
    assert AllHexDigits(p) && !IsHexDigit(rest[0]);
    DigitsThenOther(p, rest);
    ValueOfAa(p);
  }

  lemma ValueOfAa(p: string)
    requires p == "aa"
    ensures NumeralValue(p, 16) == 170
  {
    assert DigitValue('a') == 10;
    assert p[..1] == "a" && p[..1][..0] == "";
    assert NumeralValue(p[..1], 16) == 10;
  }

  lemma AstralStripped(h: string)
    requires h == "a\U{1F600}"
    ensures Stripped("#" + h) == h
  {
    var s := "#" + h;
    assert s[|s| - 1] == '\U{1F600}';
    TrimUntouched(s);
    assert s[1..] == h;
  }

  lemma PrefixParsed(h: string)
    requires h == "12zz56"
    ensures ParseIntHex(h) == Some(18)
  {
    assert h == "12" + "zz56";
    DigitsThenOther("12", "zz56");
    ValueOfTwelve();
  }

  lemma ValueOfTwelve()
    ensures NumeralValue("12", 16) == 18
  {
    assert "12"[..1] == "1";
  }

  /** `parseInt` reads the digits before the first character that is not one. */
  lemma DigitsThenOther(p: string, rest: string)
    requires |p| >= 2 && AllHexDigits(p)
    requires |rest| > 0 && !IsHexDigit(rest[0])
    ensures ParseIntHex(p + rest) == Some(NumeralValue(p, 16))
  {
    var s := p + rest;
    assert s[0] == p[0] && s[1] == p[1];
    HexPrefixStops(p, rest);
    ParseLeadingDigits(s);
  }

  /** A text that opens with two digits is read from its first character. */
  lemma ParseLeadingDigits(s: string)
    requires |s| >= 2 && IsHexDigit(s[0]) && IsHexDigit(s[1])
    ensures ParseIntHex(s) == Some(NumeralValue(HexPrefix(s), 16))
  {
    NoSpaceBeforeDigit(s);
    NoSignBeforeDigits(s);
    var v := NumeralValue(HexPrefix(s), 16);
    assert HexPrefix(s) != "" by {
      assert HexPrefix(s) == [s[0]] + HexPrefix(s[1..]);
    }
  }

  /** A text opening with a digit is its own `trimStart`. */
  lemma NoSpaceBeforeDigit(s: string)
    requires |s| > 0 && IsHexDigit(s[0])
    ensures TrimStart(s) == s
  {
    HexDigitIsNotSpace(s[0]);
  }

  /** A text opening with two digits has no sign and no `0x` to skip. */
  lemma NoSignBeforeDigits(s: string)
    requires |s| >= 2 && IsHexDigit(s[0]) && IsHexDigit(s[1])
    ensures Unsigned(s) == s && s[0] != '-'
  {
  }

  lemma HexDigitIsNotSpace(c: char)
    requires IsHexDigit(c)
    ensures !IsWhiteSpace(c)
  {
  }

  lemma {:induction false} HexPrefixStops(p: string, rest: string)
    requires AllHexDigits(p)
    requires |rest| > 0 && !IsHexDigit(rest[0])
    ensures HexPrefix(p + rest) == p
  {
    if |p| == 0 {
      assert p + rest == rest;
    } else {
      assert (p + rest)[1..] == p[1..] + rest;
      HexPrefixStops(p[1..], rest);
      assert p == [p[0]] + p[1..];
    }
  }

  lemma PrefixStripped(h: string)
    requires h == "12zz56"
    ensures Stripped("#" + h) == h
    ensures Length(h) == |h|
  {
    BmpLength(h);
    var s := "#" + h;
    assert s[|s| - 1] == '6';
    TrimUntouched(s);
    assert s[1..] == h;
  }

  // ---------------------------------------------------------------------------
  // Reading `rgb(r, g, b)`
  // ---------------------------------------------------------------------------

  /** `Number(s)` on the texts the colour patterns capture: blank text is 0,
      decimal digits their value, and any other text `NaN` (`None`). */
  function NumberOf(s: string): (r: Option<int>)
    ensures r.Some? ==> r.value >= 0
  {
    var t := Trim(s);
    if t == "" then Some(0)
    else if AllDigits(t) then Some(NumeralValue(t, 10))
    else None
  }

  predicate IsDecimalChannel(s: string) {
    1 <= |s| <= 3 && AllDigits(s)
  }

  /** `[0-9.]+`. */
  predicate IsAlphaPart(s: string) {
    |s| >= 1 && forall i :: 0 <= i < |s| ==> IsDigit(s[i]) || s[i] == '.'
  }

  /** The three channel texts that
      `/^rgba?\((\d{1,3}),(\d{1,3}),(\d{1,3})(?:,[0-9.]+)?\)$/i` captures. */
  function MatchRgbText(s: string): (groups: Option<seq<string>>)
    ensures groups.Some? ==> (|groups.value| == 3 &&
      forall i :: 0 <= i < 3 ==> IsDecimalChannel(groups.value[i]))
  {
    var open := if StartsWithIgnoringCase(s, "rgba(") then 5
                else if StartsWithIgnoringCase(s, "rgb(") then 4 else 0;
    if open == 0 || |s| < open + 1 || s[|s| - 1] != ')' then None
    else
      var parts := Split(s[open..|s| - 1], ',');
      if (|parts| == 3 || (|parts| == 4 && IsAlphaPart(parts[3]))) &&
         IsDecimalChannel(parts[0]) && IsDecimalChannel(parts[1]) && IsDecimalChannel(parts[2])
      then Some(parts[..3])
      else None
  }

  /** `rgbTextToRgb(value)` as the script means it: the channels of an
      `rgb(...)` or `rgba(...)` text, white space ignored, not clamped. */
  function RgbTextToRgb(value: string): (r: Option<Rgb>)
    ensures r.Some? ==> 0 <= r.value.r <= 999 && 0 <= r.value.g <= 999 && 0 <= r.value.b <= 999
  {
    match MatchRgbText(RemoveWhiteSpace(Trim(value)))
    case None => None
    case Some(groups) =>
      ChannelBound(groups[0]);
      ChannelBound(groups[1]);
      ChannelBound(groups[2]);
      match (NumberOf(groups[0]), NumberOf(groups[1]), NumberOf(groups[2]))
      case (Some(r), Some(g), Some(b)) => Some(Rgb(r, g, b))
      case _ => None
  }

  /** A channel of one to three digits is read as a number below 1000. */
  lemma ChannelBound(s: string)
    requires IsDecimalChannel(s)
    ensures NumberOf(s) == Some(NumeralValue(s, 10)) && NumeralValue(s, 10) <= 999
  {
    HexDigitIsNotSpace(s[0]);
    HexDigitIsNotSpace(s[|s| - 1]);
    TrimUntouched(s);
    DecimalBelow(s);
    assert Pow10(|s|) <= 1000;
  }

  function Pow10(k: nat): nat {
    if k == 0 then 1 else 10 * Pow10(k - 1)
  }

  /** A decimal numeral of `k` digits denotes a number below `10^k`. */
  lemma {:induction false} DecimalBelow(s: string)
    requires AllDigits(s)
    ensures NumeralValue(s, 10) < Pow10(|s|)
  {
    if |s| > 0 {
      DecimalBelow(s[..|s| - 1]);
    }
  }

  // ---------------------------------------------------------------------------
  // Lemmas on the `rgb(...)` form
  // ---------------------------------------------------------------------------

  lemma {:induction false} RemoveWhiteSpaceAppend(a: string, b: string)
    ensures RemoveWhiteSpace(a + b) == RemoveWhiteSpace(a) + RemoveWhiteSpace(b)
  {
    if |a| == 0 {
      assert a + b == b;
    } else {
      assert (a + b)[0] == a[0] && (a + b)[1..] == a[1..] + b;
      RemoveWhiteSpaceAppend(a[1..], b);
    }
  }

  lemma RemoveWhiteSpaceNone(s: string)
    requires forall i :: 0 <= i < |s| ==> !IsWhiteSpace(s[i])
    ensures RemoveWhiteSpace(s) == s
  {
  }

  predicate NoWhiteSpace(s: string) {
    forall i :: 0 <= i < |s| ==> !IsWhiteSpace(s[i])
  }

  /** Removing white space drops the blank after a comma. */
  lemma DropBlankAfterComma(a: string, b: string)
    requires NoWhiteSpace(a)
    ensures RemoveWhiteSpace(a + ", " + b) == a + "," + RemoveWhiteSpace(b)
  {
    RemoveWhiteSpaceAppend(a + ", ", b);
    RemoveWhiteSpaceAppend(a, ", ");
    assert RemoveWhiteSpace(", ") == ",";
    RemoveWhiteSpaceNone(a);
  }

  lemma DigitsHaveNoWhiteSpace(s: string)
    requires AllDigits(s)
    ensures NoWhiteSpace(s)
  {
    forall i | 0 <= i < |s| ensures !IsWhiteSpace(s[i]) {
      HexDigitIsNotSpace(s[i]);
    }
  }

  /** The printed form loses its spaces: `rgb(r,g,b)`, for any opening
      and closing text without white space. */
  lemma CompactForm(o: string, x: string, y: string, z: string, e: string)
    requires NoWhiteSpace(o) && NoWhiteSpace(e)
    requires AllDigits(x) && AllDigits(y) && AllDigits(z)
    ensures RemoveWhiteSpace(o + x + ", " + y + ", " + z + e) == o + (x + "," + y + "," + z) + e
  {
    DigitsHaveNoWhiteSpace(x);
    DigitsHaveNoWhiteSpace(y);
    DigitsHaveNoWhiteSpace(z);
    NoWhiteSpaceAppend(o, x);
    NoWhiteSpaceAppend(z, e);
    Regroup(o, x, y, z, e, ", ");
    Regroup(o, x, y, z, e, ",");
    TwoBlanksDropped(o + x, y, z + e);
  }

  lemma Regroup(o: string, x: string, y: string, z: string, e: string, sep: string)
    ensures o + x + sep + y + sep + z + e == (o + x) + sep + (y + sep + (z + e))
    ensures o + (x + sep + y + sep + z) + e == (o + x) + sep + (y + sep + (z + e))
  {
  }

  lemma NoWhiteSpaceAppend(a: string, b: string)
    requires NoWhiteSpace(a) && NoWhiteSpace(b)
    ensures NoWhiteSpace(a + b)
  {
    forall i | 0 <= i < |a + b| ensures !IsWhiteSpace((a + b)[i]) {
      if i >= |a| {
        assert (a + b)[i] == b[i - |a|];
      }
    }
  }

  lemma TwoBlanksDropped(a: string, b: string, c: string)
    requires NoWhiteSpace(a) && NoWhiteSpace(b) && NoWhiteSpace(c)
    ensures RemoveWhiteSpace(a + ", " + (b + ", " + c)) == a + "," + (b + "," + c)
  {
    DropBlankAfterComma(a, b + ", " + c);
    DropBlankAfterComma(b, c);
    RemoveWhiteSpaceNone(c);
  }

  /** The compact form captures the three channel texts. */
  lemma MatchCompact(x: string, y: string, z: string)
    requires IsDecimalChannel(x) && IsDecimalChannel(y) && IsDecimalChannel(z)
    ensures MatchRgbText("rgb(" + (x + "," + y + "," + z) + ")") == Some([x, y, z])
  {
    var body := x + "," + y + "," + z;
    var s := "rgb(" + body + ")";
    assert s[..4] == "rgb(" && s[4] == x[0];
    OpensWithRgb(s);
    assert s[4..|s| - 1] == body;
    SplitThree(x, y, z);
    var parts := Split(s[4..|s| - 1], ',');
    assert parts == [x, y, z];
    assert parts[..3] == [x, y, z];
  }

  /** A text opening with `rgb(` and a digit is read from its fifth character. */
  lemma OpensWithRgb(s: string)
    requires |s| >= 5 && s[..4] == "rgb(" && IsDigit(s[4])
    ensures !StartsWithIgnoringCase(s, "rgba(")
    ensures StartsWithIgnoringCase(s, "rgb(")
  {
    assert s[..5][3] == '(';
    assert ToLower(s[..5])[3] == '(' && ToLower("rgba(")[3] == 'a';
    assert s[..|"rgb("|] == "rgb(";
  }

  lemma SplitThree(x: string, y: string, z: string)
    requires AllDigits(x) && AllDigits(y) && AllDigits(z)
    ensures Split(x + "," + y + "," + z, ',') == [x, y, z]
  {
    assert ',' !in x && ',' !in y && ',' !in z;
    JoinThree(x, y, z, ",");
    SplitJoin([x, y, z], ',');
  }

  /** Reading a printed colour back gives its clamped channels. */
  lemma RgbTextRoundTrip(c: Rgb)
    ensures RgbTextToRgb(RgbToString(c)) == Some(ClampRgb(c))
  {
    ReadChannels(Decimal(Clamp(c.r)), Decimal(Clamp(c.g)), Decimal(Clamp(c.b)));
  }

  /** `rgb(x, y, z)` with decimal channel texts reads as the numbers they denote. */
  lemma ReadChannels(x: string, y: string, z: string)
    requires IsDecimalChannel(x) && IsDecimalChannel(y) && IsDecimalChannel(z)
    ensures RgbTextToRgb("rgb(" + x + ", " + y + ", " + z + ")") ==
      Some(Rgb(NumeralValue(x, 10), NumeralValue(y, 10), NumeralValue(z, 10)))
  {
    var s := "rgb(" + x + ", " + y + ", " + z + ")";
    assert s[0] == 'r' && s[|s| - 1] == ')';
    TrimUntouched(s);
    assert NoWhiteSpace("rgb(") && NoWhiteSpace(")");
    CompactForm("rgb(", x, y, z, ")");
    MatchCompact(x, y, z);
    ReadGroups(s, x, y, z);
  }

  /** Once the pattern captures three channels, they are what is read. */
  lemma ReadGroups(value: string, x: string, y: string, z: string)
    requires IsDecimalChannel(x) && IsDecimalChannel(y) && IsDecimalChannel(z)
    requires MatchRgbText(RemoveWhiteSpace(Trim(value))) == Some([x, y, z])
    ensures RgbTextToRgb(value) == Some(Rgb(NumeralValue(x, 10), NumeralValue(y, 10), NumeralValue(z, 10)))
  {
    ChannelBound(x);
    ChannelBound(y);
    ChannelBound(z);
  }

  // ---------------------------------------------------------------------------
  // The script as the page receives it
  // ---------------------------------------------------------------------------

  /** `s.replace(/s+/g, '')`: every lower-case `s` removed. */
  function DropLetterS(s: string): (r: string)
    ensures 's' !in r
    ensures 's' !in s ==> r == s
  {
    if |s| == 0 then ""
    else if s[0] == 's' then DropLetterS(s[1..])
    else [s[0]] + DropLetterS(s[1..])
  }

  /** `d{1,3}` with the `i` flag. */
  predicate IsLetterDRun(s: string) {
    1 <= |s| <= 3 && forall i :: 0 <= i < |s| ==> s[i] == 'd' || s[i] == 'D'
  }

  /** The groups 1 to 3 that `/^rgba?((d{1,3}),(d{1,3}),(d{1,3})(?:,[0-9.]+)?)$/i`
      captures: the whole text after `rgb`/`rgba`, then the first two runs. */
  function MatchEmitted(s: string): (groups: Option<seq<string>>)
    ensures groups.Some? ==> (|groups.value| == 3 && |groups.value[0]| > 0 &&
      (groups.value[0][0] == 'd' || groups.value[0][0] == 'D'))
  {
    if !StartsWithIgnoringCase(s, "rgb") then None
    else
      var open := if |s| > 3 && (s[3] == 'a' || s[3] == 'A') then 4 else 3;
      var rest := s[open..];
      var parts := Split(rest, ',');
      if (|parts| == 3 || (|parts| == 4 && IsAlphaPart(parts[3]))) &&
         IsLetterDRun(parts[0]) && IsLetterDRun(parts[1]) && IsLetterDRun(parts[2])
      then
        assert rest == Join(parts, ",");
        JoinHead(parts, ",");
        Some([rest, parts[0], parts[1]])
      else None
  }

  /** `rgbTextToRgb` as the page runs it: the generator writes the script
      inside a template literal, where `\s`, `\d`, `\(` and `\)` lose their
      backslash before the page receives them. */
  function RgbTextToRgbAsEmitted(value: string): Option<Rgb> {
    match MatchEmitted(DropLetterS(Trim(value)))
    case None => None
    case Some(groups) =>
      match (NumberOf(groups[0]), NumberOf(groups[1]), NumberOf(groups[2]))
      case (Some(r), Some(g), Some(b)) => Some(Rgb(r, g, b))
      case _ => None
  }

  /** The emitted script never reads a colour: its first group starts with
      the letter `d`, which `Number` turns into `NaN`. */
  lemma EmittedNeverParses(value: string)
    ensures RgbTextToRgbAsEmitted(value) == None
  {
    var m := MatchEmitted(DropLetterS(Trim(value)));
    if m.Some? {
      LetterIsNotANumber(m.value[0]);
    }
  }

  /** `Number` of a text that opens with `d` is `NaN`. */
  lemma LetterIsNotANumber(g: string)
    requires |g| > 0 && (g[0] == 'd' || g[0] == 'D')
    ensures NumberOf(g) == None
  {
    HexDigitIsNotSpace(g[0]);
    assert TrimStart(g) == g;
    var t := Trim(g);
    assert |t| > 0 && t[0] == g[0];
  }

  /** `rgb(1, 2, 3)` is read by the intended script and not by the emitted one. */
  lemma EmittedRejectsPrintedColour(c: Rgb)
    ensures RgbTextToRgb(RgbToString(c)) == Some(ClampRgb(c))
    ensures RgbTextToRgbAsEmitted(RgbToString(c)) == None
  {
    RgbTextRoundTrip(c);
    EmittedNeverParses(RgbToString(c));
  }
}

=== FILE: config.dfy ===
/** The plugin's options (`src/types.ts`), their defaults
    (`src/config/defaults.ts`) and `resolvePluginOptions`
    (`src/config/resolve.ts`). */
module Config {
  import opened Wrappers
  import opened Text
  import opened Paths

  const PluginName: string := "vite-plugin-svg-icon-name"

  const DefaultIconsDir: string := "src/assets/svg"
  const DefaultOutput: string := "src/types/generated-svg-names.d.ts"
  const DefaultPreviewVue: string := "icon-preview/generated-preview.vue"
  const DefaultPreviewMain: string := "icon-preview/main.ts"
  const DefaultPreviewHtml: string := "icon-preview.html"
  const DefaultDebounceMs: int := 100

  /** What the user passes; every field may be left out. */
  datatype PluginOptions = PluginOptions(
    iconsDir: Option<string>,
    output: Option<string>,
    previewVueOutput: Option<string>,
    previewMainOutput: Option<string>,
    previewHtmlOutput: Option<string>,
    debounceMs: Option<int>)

  const NoOptions: PluginOptions := PluginOptions(None, None, None, None, None, None)

  /** The options with every path made absolute against the project root. */
  datatype ResolvedOptions = ResolvedOptions(
    root: string,
    iconsRoot: string,
    typeOutputFile: string,
    previewVueFile: string,
    previewMainFile: string,
    previewHtmlFile: string,
    debounceMs: int)

  /** `resolvePluginOptions(options, root)`: each path is the user's value,
      or the default when absent, resolved against `root`; the debounce
      delay is the user's value, or 100 when absent. */
  function ResolvePluginOptions(options: PluginOptions, root: string): (r: ResolvedOptions)
    ensures r.root == root
  {
    ResolvedOptions(
      root,
      Resolve(root, options.iconsDir.GetOr(DefaultIconsDir)),
      Resolve(root, options.output.GetOr(DefaultOutput)),
      Resolve(root, options.previewVueOutput.GetOr(DefaultPreviewVue)),
      Resolve(root, options.previewMainOutput.GetOr(DefaultPreviewMain)),
      Resolve(root, options.previewHtmlOutput.GetOr(DefaultPreviewHtml)),
      options.debounceMs.GetOr(DefaultDebounceMs))
  }

  // ---------------------------------------------------------------------------
  // Lemmas
  // ---------------------------------------------------------------------------

  /** A given delay is kept as it is, zero and negative values included; an
      absent one becomes 100. */
  lemma DebounceChoice(options: PluginOptions, root: string)
    ensures options.debounceMs == Some(0) ==> ResolvePluginOptions(options, root).debounceMs == 0
    ensures options.debounceMs.Some? ==> ResolvePluginOptions(options, root).debounceMs == options.debounceMs.value
    ensures options.debounceMs.None? ==> ResolvePluginOptions(options, root).debounceMs == 100
  {
  }

  /** Changing one option changes only the field resolved from it. */
  lemma OptionsAreIndependent(options: PluginOptions, root: string, v: Option<string>, n: Option<int>)
    ensures ResolvePluginOptions(options.(iconsDir := v), root) ==
      ResolvePluginOptions(options, root).(iconsRoot := Resolve(root, v.GetOr(DefaultIconsDir)))
    ensures ResolvePluginOptions(options.(output := v), root) ==
      ResolvePluginOptions(options, root).(typeOutputFile := Resolve(root, v.GetOr(DefaultOutput)))
    ensures ResolvePluginOptions(options.(previewVueOutput := v), root) ==
      ResolvePluginOptions(options, root).(previewVueFile := Resolve(root, v.GetOr(DefaultPreviewVue)))
    ensures ResolvePluginOptions(options.(previewMainOutput := v), root) ==
      ResolvePluginOptions(options, root).(previewMainFile := Resolve(root, v.GetOr(DefaultPreviewMain)))
    ensures ResolvePluginOptions(options.(previewHtmlOutput := v), root) ==
      ResolvePluginOptions(options, root).(previewHtmlFile := Resolve(root, v.GetOr(DefaultPreviewHtml)))
    ensures ResolvePluginOptions(options.(debounceMs := n), root) ==
      ResolvePluginOptions(options, root).(debounceMs := n.GetOr(DefaultDebounceMs))
  {
  }

  /** A relative path of entry names resolves to those names below the base. */
  lemma ResolveBelow(base: string, names: seq<string>)
    requires |names| >= 1 && AllEntryNames(names)
    ensures Segments(Resolve(base, Join(names, "/"))) == Segments(base) + names
  {
    var rel := Join(names, "/");
    JoinHead(names, "/");
    assert rel[0] != '/';
    assert NoSlash(names);
    ResolveRelativePieces(base, names);
    NormalizeEntries(Segments(base), names);
    SegmentsOfRender(Segments(base) + names);
  }

  lemma IconsDirPieces()
    ensures DefaultIconsDir == Join(["src", "assets", "svg"], "/")
  {
    JoinThree("src", "assets", "svg", "/");
    assert "src" + "/" + "assets" + "/" + "svg" == "src/assets/svg";
  }

  lemma OutputPieces()
    ensures DefaultOutput == Join(["src", "types", "generated-svg-names.d.ts"], "/")
  {
    JoinThree("src", "types", "generated-svg-names.d.ts", "/");
    assert "src" + "/" + "types" + "/" + "generated-svg-names.d.ts" == "src/types/generated-svg-names.d.ts";
  }

  lemma PreviewPieces()
    ensures DefaultPreviewVue == Join(["icon-preview", "generated-preview.vue"], "/")
    ensures DefaultPreviewMain == Join(["icon-preview", "main.ts"], "/")
    ensures DefaultPreviewHtml == Join(["icon-preview.html"], "/")
  {
    JoinTwo("icon-preview", "generated-preview.vue", "/");
    JoinTwo("icon-preview", "main.ts", "/");
    assert "icon-preview" + "/" + "generated-preview.vue" == "icon-preview/generated-preview.vue";
    assert "icon-preview" + "/" + "main.ts" == "icon-preview/main.ts";
  }

  lemma JoinTwo(a: string, b: string, sep: string)
    ensures Join([a, b], sep) == a + sep + b
  {
    assert [a, b][1..] == [b];
  }

  /** Without options the icons are read from `src/assets/svg` below the root. */
  lemma DefaultIconsRoot(root: string)
    ensures Segments(ResolvePluginOptions(NoOptions, root).iconsRoot) == Segments(root) + ["src", "assets", "svg"]
  {
    IconsDirPieces();
    ResolveBelow(root, ["src", "assets", "svg"]);
  }

  /** Without options the type file is `src/types/generated-svg-names.d.ts` below the root. */
  lemma DefaultTypeOutput(root: string)
    ensures Segments(ResolvePluginOptions(NoOptions, root).typeOutputFile) ==
      Segments(root) + ["src", "types", "generated-svg-names.d.ts"]
  {
    OutputPieces();
    ResolveBelow(root, ["src", "types", "generated-svg-names.d.ts"]);
  }

  /** Without options the preview files sit in `icon-preview` and next to it. */
  lemma DefaultPreviewFiles(root: string)
    ensures Segments(ResolvePluginOptions(NoOptions, root).previewVueFile) ==
      Segments(root) + ["icon-preview", "generated-preview.vue"]
    ensures Segments(ResolvePluginOptions(NoOptions, root).previewMainFile) ==
      Segments(root) + ["icon-preview", "main.ts"]
    ensures Segments(ResolvePluginOptions(NoOptions, root).previewHtmlFile) == Segments(root) + ["icon-preview.html"]
  {
    PreviewPieces();
    ResolveBelow(root, ["icon-preview", "generated-preview.vue"]);
    ResolveBelow(root, ["icon-preview", "main.ts"]);
    ResolveBelow(root, ["icon-preview.html"]);
  }
}

=== FILE: file_store.dfy ===
/** `writeFileIfChanged` of `src/utils/fs.ts` over a snapshot of the
    filesystem: the directories, the text of every regular file, and the
    files whose reads fail. Every path is looked up by its normalised form. */
module FileStore {
  import opened Wrappers
  import opened Text
  import opened Paths

  /** The filesystem the generator writes into. `unreadable` maps a file to
      the code its reads fail with (a permission error, say). */
  datatype FileSystem = FileSystem(
    files: map<string, string>,
    dirs: set<string>,
    unreadable: map<string, ErrorCode>)

  /** The filesystem after an operation, and what the operation returned or threw. */
  datatype Outcome<T> = Outcome(fs: FileSystem, result: Result<T, ErrorCode>)

  /** The key a path is stored under: its normalised absolute form. */
  function Normal(p: string): string {
    Render(Segments(p))
  }

  /** What holds of every real filesystem: the root directory exists, no path
      is both a file and a directory, and the directory holding a file or a
      directory exists. */
  predicate Valid(fs: FileSystem) {
    Render([]) in fs.dirs && fs.files.Keys !! fs.dirs &&
    (forall f :: f in fs.files ==> f == Normal(f) && Dirname(f) in fs.dirs) &&
    (forall d :: d in fs.dirs ==> d == Normal(d) && Dirname(d) in fs.dirs)
  }

  /** The directories `mkdir(dir, { recursive: true })` makes: `dir` and
      every directory above it. */
  function Chain(s: seq<string>): (c: set<string>)
    ensures Render([]) in c && Render(s) in c
  {
    assert s[..0] == [] && s[..|s|] == s;
    set k | 0 <= k <= |s| :: Render(s[..k])
  }

  /** `mkdir(dir, { recursive: true })`: a file in the way of a directory
      above `dir` throws `ENOTDIR`, a file at `dir` itself `EEXIST`;
      otherwise the missing directories are made and existing ones are kept. */
  function Mkdir(fs: FileSystem, dir: string): (r: Result<FileSystem, ErrorCode>)
    ensures r.Success? <==> forall k :: 0 <= k <= |Segments(dir)| ==> Render(Segments(dir)[..k]) !in fs.files
    ensures r.Success? ==> r.value == fs.(dirs := fs.dirs + Chain(Segments(dir)))
  {
    var s := Segments(dir);
    if exists k | 0 <= k < |s| :: Render(s[..k]) in fs.files then Failure(ENOTDIR)
    else if Render(s) in fs.files then
      assert s[..|s|] == s;
      Failure(EEXIST)
    else
      NoneInTheWay(fs, s);
      Success(fs.(dirs := fs.dirs + Chain(s)))
  }

  /** No file at `s` or above it: every directory on the way is free. */
  lemma NoneInTheWay(fs: FileSystem, s: seq<string>)
    requires forall k | 0 <= k < |s| :: Render(s[..k]) !in fs.files
    requires Render(s) !in fs.files
    ensures forall k :: 0 <= k <= |s| ==> Render(s[..k]) !in fs.files
  {
    forall k | 0 <= k <= |s| ensures Render(s[..k]) !in fs.files {
      if k == |s| {
        assert s[..k] == s;
      }
    }
  }

  /** `readFile(path, "utf8")`. */
  function Read(fs: FileSystem, p: string): (r: Result<string, ErrorCode>)
    ensures r.Success? <==> Normal(p) in fs.files && Normal(p) !in fs.dirs && Normal(p) !in fs.unreadable
    ensures r.Success? ==> r.value == fs.files[Normal(p)]
  {
    var key := Normal(p);
    if key in fs.dirs then Failure(EISDIR)
    else if key in fs.unreadable then Failure(fs.unreadable[key])
    else if key in fs.files then Success(fs.files[key])
    else Failure(ENOENT)
  }

  /** `writeFile(path, content, "utf8")`: replaces the file, or makes it. */
  function WriteFile(fs: FileSystem, p: string, content: string): (r: Result<FileSystem, ErrorCode>)
    ensures r.Failure? <==> Normal(p) in fs.dirs
  {
    var key := Normal(p);
    if key in fs.dirs then Failure(EISDIR)
    else Success(fs.(files := fs.files[key := content], unreadable := fs.unreadable - {key}))
  }

  /** `writeFileIfChanged(filePath, content)`: makes the parent directory,
      reads the current text (a missing file counts as different, any other
      read error is thrown), and writes only when the text differs; the
      result tells whether it wrote. */
  function WriteFileIfChanged(fs: FileSystem, filePath: string, content: string): (o: Outcome<bool>)
    ensures o.result.Success? ==> Normal(filePath) in o.fs.files && o.fs.files[Normal(filePath)] == content
    ensures o.result == Success(false) ==> o.fs.files == fs.files
  {
    match Mkdir(fs, Dirname(filePath))
    case Failure(e) => Outcome(fs, Failure(e))
    case Success(made) =>
      match Read(made, filePath)
      case Failure(e) =>
        if e != ENOENT then Outcome(made, Failure(e)) else Commit(made, filePath, content)
      case Success(existing) =>
        if existing == content then Outcome(made, Success(false)) else Commit(made, filePath, content)
  }

  function Commit(fs: FileSystem, filePath: string, content: string): Outcome<bool> {
    match WriteFile(fs, filePath, content)
    case Failure(e) => Outcome(fs, Failure(e))
    case Success(written) => Outcome(written, Success(true))
  }

  // ---------------------------------------------------------------------------
  // Lemmas
  // ---------------------------------------------------------------------------

  /** Distinct lists of directory names render as distinct paths. */
  lemma RenderInjective(a: seq<string>, b: seq<string>)
    requires AllEntryNames(a) && AllEntryNames(b)
    requires Render(a) == Render(b)
    ensures a == b
  {
    SegmentsOfRender(a);
    SegmentsOfRender(b);
  }

  /** Making the parent of a file makes neither the file's own path nor, for
      a path other than the root, anything it could be confused with. */
  lemma ParentChainAvoidsTarget(p: string)
    ensures Normal(Dirname(p)) in Chain(Segments(Dirname(p)))
    ensures Normal(p) in Chain(Segments(Dirname(p))) ==> Segments(p) == []
  {
    var s := Segments(p);
    var d := Segments(Dirname(p));
    if |s| > 0 {
      SegmentsOfRender(s[..|s| - 1]);
      assert d == s[..|s| - 1];
      if Normal(p) in Chain(d) {
        var k :| 0 <= k <= |d| && Render(d[..k]) == Render(s);
        RenderInjective(d[..k], s);
      }
    } else {
      SegmentsOfRender([]);
    }
  }

  /** Making the parent directory does not change what reading the file gives. */
  lemma MkdirKeepsRead(fs: FileSystem, p: string)
    requires Valid(fs)
    requires Mkdir(fs, Dirname(p)).Success?
    ensures Read(Mkdir(fs, Dirname(p)).value, p) == Read(fs, p)
  {
    ParentChainAvoidsTarget(p);
    if Segments(p) == [] {
      assert Normal(p) == Render([]);
    }
  }

  /** `mkdir` keeps the filesystem well formed. */
  lemma MkdirKeepsValid(fs: FileSystem, dir: string)
    requires Valid(fs)
    requires Mkdir(fs, dir).Success?
    ensures Valid(Mkdir(fs, dir).value)
  {
    var d := Segments(dir);
    ChainClosed(d);
    forall q | q in Chain(d) ensures q !in fs.files {
      var k :| 0 <= k <= |d| && q == Render(d[..k]);
    }
  }

  /** The chain of directories holds the parent of each of its members. */
  lemma ChainClosed(s: seq<string>)
    requires AllEntryNames(s)
    ensures forall q :: q in Chain(s) ==> q == Normal(q) && Dirname(q) in Chain(s)
  {
    forall q | q in Chain(s) ensures q == Normal(q) && Dirname(q) in Chain(s) {
      var k :| 0 <= k <= |s| && q == Render(s[..k]);
      SegmentsOfRender(s[..k]);
      if k > 0 {
        DirnameOfRender(s[..k]);
        assert s[..k][..k - 1] == s[..k - 1];
        assert Render(s[..k - 1]) in Chain(s);
      } else {
        assert s[..k] == [];
        assert Dirname(q) == Render([]);
      }
    }
  }

  /** The parent of a rendered path is the path one name shorter. */
  lemma DirnameOfRender(s: seq<string>)
    requires AllEntryNames(s) && |s| > 0
    ensures Dirname(Render(s)) == Render(s[..|s| - 1])
    ensures Normal(Render(s)) == Render(s)
  {
    SegmentsOfRender(s);
  }

  /** Every directory above an existing directory exists. */
  lemma {:induction false} AncestorsAreDirs(fs: FileSystem, s: seq<string>, k: nat)
    requires Valid(fs) && AllEntryNames(s)
    requires Render(s) in fs.dirs && k <= |s|
    ensures Render(s[..k]) in fs.dirs
    decreases |s|
  {
    if k < |s| {
      DirnameOfRender(s);
      AncestorsAreDirs(fs, s[..|s| - 1], k);
      assert s[..|s| - 1][..k] == s[..k];
    } else {
      assert s[..k] == s;
    }
  }

  /** A file's parent can always be made: the directories above a file exist. */
  lemma ParentOfFileCanBeMade(fs: FileSystem, p: string)
    requires Valid(fs)
    requires Normal(p) in fs.files
    ensures Mkdir(fs, Dirname(p)).Success?
    ensures Mkdir(fs, Dirname(p)).value == fs
  {
    var d := Segments(Dirname(p));
    ParentOfFileExists(fs, p);
    ChainExists(fs, d);
    MkdirExisting(fs, Dirname(p));
  }

  /** The directory holding a file exists, and its path is in normal form. */
  lemma ParentOfFileExists(fs: FileSystem, p: string)
    requires Valid(fs) && Normal(p) in fs.files
    ensures Render(Segments(Dirname(p))) in fs.dirs
  {
    assert Dirname(Normal(p)) in fs.dirs;
    DirnameOfNormal(p);
    DirnameIsNormal(p);
  }

  /** A path and its normal form have the same parent. */
  lemma DirnameOfNormal(p: string)
    ensures Dirname(Normal(p)) == Dirname(p)
  {
    SegmentsOfRender(Segments(p));
  }

  /** The directories above an existing directory all exist. */
  lemma ChainExists(fs: FileSystem, d: seq<string>)
    requires Valid(fs) && AllEntryNames(d) && Render(d) in fs.dirs
    ensures Chain(d) <= fs.dirs
  {
    forall k | 0 <= k <= |d| ensures Render(d[..k]) in fs.dirs {
      AncestorsAreDirs(fs, d, k);
    }
  }

  /** Making directories that all exist succeeds and changes nothing. */
  lemma MkdirExisting(fs: FileSystem, dir: string)
    requires fs.files.Keys !! fs.dirs && Chain(Segments(dir)) <= fs.dirs
    ensures Mkdir(fs, dir) == Success(fs)
  {
    var d := Segments(dir);
    forall k | 0 <= k <= |d| ensures Render(d[..k]) !in fs.files {
      assert Render(d[..k]) in Chain(d);
    }
    assert fs.(dirs := fs.dirs + Chain(d)) == fs;
  }

  /** Writing a file that is not a directory keeps the filesystem well formed
      once its parent exists. */
  lemma WriteKeepsValid(fs: FileSystem, p: string, content: string)
    requires Valid(fs)
    requires Dirname(p) in fs.dirs && Normal(p) !in fs.dirs
    ensures WriteFile(fs, p, content).Success?
    ensures Valid(WriteFile(fs, p, content).value)
  {
    var s := Segments(p);
    SegmentsOfRender(s);
    assert Dirname(Normal(p)) == Dirname(p);
  }

  /** The parent directory, as a path, is already in normal form. */
  lemma DirnameIsNormal(p: string)
    ensures Normal(Dirname(p)) == Dirname(p)
  {
    var s := Segments(p);
    if |s| > 0 {
      SegmentsOfRender(s[..|s| - 1]);
    } else {
      SegmentsOfRender([]);
    }
  }

  /** `false`, with nothing written, exactly when the file already holds the text. */
  lemma UnchangedExactlyWhenEqual(fs: FileSystem, p: string, content: string)
    requires Valid(fs)
    ensures WriteFileIfChanged(fs, p, content).result == Success(false) <==> Read(fs, p) == Success(content)
    ensures WriteFileIfChanged(fs, p, content).result == Success(false) ==> WriteFileIfChanged(fs, p, content).fs == fs
  {
    var m := Mkdir(fs, Dirname(p));
    if m.Success? {
      MkdirKeepsRead(fs, p);
      if Read(fs, p).Success? {
        ParentOfFileCanBeMade(fs, p);
      }
    }
    if Read(fs, p).Success? {
      ParentOfFileCanBeMade(fs, p);
      MkdirKeepsRead(fs, p);
    }
  }

  /** After a call that returns, the file holds the text, its parent directory
      exists, and only the file and the directories above it have changed. */
  lemma WrittenContent(fs: FileSystem, p: string, content: string)
    requires Valid(fs)
    requires WriteFileIfChanged(fs, p, content).result.Success?
    ensures Read(WriteFileIfChanged(fs, p, content).fs, p) == Success(content)
    ensures Valid(WriteFileIfChanged(fs, p, content).fs)
    ensures Dirname(p) in WriteFileIfChanged(fs, p, content).fs.dirs
    ensures WriteFileIfChanged(fs, p, content).fs.dirs == fs.dirs + Chain(Segments(Dirname(p)))
    ensures WriteFileIfChanged(fs, p, content).fs.files ==
      if WriteFileIfChanged(fs, p, content).result.value then fs.files[Normal(p) := content] else fs.files
  {
    var made := Mkdir(fs, Dirname(p)).value;
    MkdirKeepsRead(fs, p);
    MkdirKeepsValid(fs, Dirname(p));
    ParentChainAvoidsTarget(p);
    DirnameIsNormal(p);
    if Read(made, p).Success? && Read(made, p).value == content {
      if Read(fs, p).Success? {
        ParentOfFileCanBeMade(fs, p);
      }
    } else {
      WriteKeepsValid(made, p, content);
    }
  }

  /** A call that returns leaves a well-formed filesystem. */
  lemma CallKeepsValid(fs: FileSystem, p: string, content: string)
    requires Valid(fs) && WriteFileIfChanged(fs, p, content).result.Success?
    ensures Valid(WriteFileIfChanged(fs, p, content).fs)
  {
    WrittenContent(fs, p, content);
  }

  /** After a call that returns, the file reads back the text. */
  lemma CallStores(fs: FileSystem, p: string, content: string)
    requires Valid(fs) && WriteFileIfChanged(fs, p, content).result.Success?
    ensures Read(WriteFileIfChanged(fs, p, content).fs, p) == Success(content)
  {
    WrittenContent(fs, p, content);
  }

  /** A missing file is written, and the call reports the write. */
  lemma MissingFileIsWritten(fs: FileSystem, p: string, content: string)
    requires Valid(fs)
    requires Read(fs, p) == Failure(ENOENT)
    requires Mkdir(fs, Dirname(p)).Success?
    ensures WriteFileIfChanged(fs, p, content).result == Success(true)
  {
    MkdirKeepsRead(fs, p);
    ParentChainAvoidsTarget(p);
    assert Render([]) in fs.dirs;
  }

  /** A read error other than `ENOENT` is thrown, and no file is written. */
  lemma ReadErrorIsThrown(fs: FileSystem, p: string, content: string)
    requires Valid(fs)
    requires Read(fs, p).Failure? && Read(fs, p).error != ENOENT
    ensures WriteFileIfChanged(fs, p, content).result.Failure?
    ensures WriteFileIfChanged(fs, p, content).fs.files == fs.files
    ensures Mkdir(fs, Dirname(p)).Success? ==> WriteFileIfChanged(fs, p, content).result == Failure(Read(fs, p).error)
  {
    if Mkdir(fs, Dirname(p)).Success? {
      MkdirKeepsRead(fs, p);
    }
  }

  /** A second call with the same text returns `false` and changes nothing. */
  lemma SecondWriteChangesNothing(fs: FileSystem, p: string, content: string)
    requires Valid(fs)
    requires WriteFileIfChanged(fs, p, content).result.Success?
    ensures WriteFileIfChanged(WriteFileIfChanged(fs, p, content).fs, p, content) ==
      Outcome(WriteFileIfChanged(fs, p, content).fs, Success(false))
  {
    var after := WriteFileIfChanged(fs, p, content).fs;
    WrittenContent(fs, p, content);
    UnchangedExactlyWhenEqual(after, p, content);
  }

  /** Every other path reads as before, apart from the directories made above the file. */
  lemma OtherPathsUnchanged(fs: FileSystem, p: string, content: string, q: string)
    requires Valid(fs)
    requires WriteFileIfChanged(fs, p, content).result.Success?
    requires Normal(q) != Normal(p) && Normal(q) !in Chain(Segments(Dirname(p)))
    ensures Read(WriteFileIfChanged(fs, p, content).fs, q) == Read(fs, q)
  {
    OutcomeShape(fs, p, content);
    var made := Mkdir(fs, Dirname(p)).value;
    MkdirKeepsOtherRead(fs, Dirname(p), q);
    WriteKeepsOtherRead(made, p, content, q);
  }

  /** A call that returns has made the parent directory, and then either
      left the filesystem as it was or written the file into it. */
  lemma OutcomeShape(fs: FileSystem, p: string, content: string)
    requires WriteFileIfChanged(fs, p, content).result.Success?
    ensures Mkdir(fs, Dirname(p)).Success?
    ensures var made := Mkdir(fs, Dirname(p)).value;
      WriteFileIfChanged(fs, p, content).fs == made ||
      (WriteFile(made, p, content).Success? && WriteFileIfChanged(fs, p, content).fs == WriteFile(made, p, content).value)
  {
  }

  /** Making directories changes no read of a path outside them. */
  lemma MkdirKeepsOtherRead(fs: FileSystem, dir: string, q: string)
    requires Mkdir(fs, dir).Success? && Normal(q) !in Chain(Segments(dir))
    ensures Read(Mkdir(fs, dir).value, q) == Read(fs, q)
  {
  }

  /** Writing a file changes no read of another path. */
  lemma WriteKeepsOtherRead(fs: FileSystem, p: string, content: string, q: string)
    requires WriteFile(fs, p, content).Success? && Normal(q) != Normal(p)
    ensures Read(WriteFile(fs, p, content).value, q) == Read(fs, q)
  {
  }

  /** A file that reads back before a successful call to another path still
      reads back the same afterwards: the directories made cannot include it. */
  lemma FileSurvivesWrite(fs: FileSystem, p: string, content: string, q: string)
    requires Valid(fs)
    requires WriteFileIfChanged(fs, p, content).result.Success?
    requires Normal(q) != Normal(p) && Read(fs, q).Success?
    ensures Read(WriteFileIfChanged(fs, p, content).fs, q) == Read(fs, q)
  {
    assert Mkdir(fs, Dirname(p)).Success?;
    OtherPathsUnchanged(fs, p, content, q);
  }
}

=== FILE: naming.dfy ===
/** Identifier and display-path derivation of `src/generator/scan.ts`. */
module Naming {
  import opened Text
  import opened Paths

  /** One discovered icon (`IconEntry`). */
  datatype IconEntry = IconEntry(name: string, path: string)

  /** `s.replace(/\.svg$/i, "")`: drops one trailing `.svg` written in any
      letter case and keeps every other character as it is. */
  function StripSvgExtension(s: string): (r: string)
    ensures StartsWith(s, r)
    ensures r != s <==> EndsWithIgnoringCase(s, ".svg")
    ensures r != s ==> |s| == |r| + 4
  {
    if EndsWithIgnoringCase(s, ".svg") then s[..|s| - 4] else s
  }

  /** `toTypeName`: the path relative to the icon root, extension stripped,
      its non-empty `/`-separated pieces joined by `-`. */
  function ToTypeName(filePath: string, iconsRoot: string): (name: string)
    ensures '/' !in name
  {
    var pieces := NonEmpty(Split(StripSvgExtension(Relative(iconsRoot, filePath)), '/'));
    assert forall i :: 0 <= i < |pieces| ==> '/' !in pieces[i] by {
      forall i | 0 <= i < |pieces| ensures '/' !in pieces[i] {
        assert pieces[i] in pieces;
      }
    }
    NotInJoin(pieces, "-", '/');
    Join(pieces, "-")
  }

  /** `toDisplayPath`: the path relative to the icon root with every
      backslash turned into `/`, extension stripped. */
  function ToDisplayPath(filePath: string, iconsRoot: string): (path: string)
    ensures '\\' !in path
  {
    var s := ReplaceAll(Relative(iconsRoot, filePath), '\\', '/');
    var d := StripSvgExtension(s);
    assert d == s[..|d|];
    d
  }

  /** `createIconEntry`. */
  function CreateIconEntry(file: string, iconsRoot: string): (e: IconEntry)
    ensures '/' !in e.name && '\\' !in e.path
    ensures '\\' !in Relative(iconsRoot, file) ==> e.name == Join(NonEmpty(Split(e.path, '/')), "-")
  {
    var e := IconEntry(ToTypeName(file, iconsRoot), ToDisplayPath(file, iconsRoot));
    if '\\' in Relative(iconsRoot, file) then e
    else
      NameFromDisplayPath(file, iconsRoot);
      e
  }

  // ---------------------------------------------------------------------------
  // Lemmas
  // ---------------------------------------------------------------------------

  /** Exactly one extension is removed: the result still ends in `.svg`
      only when the input ended in `.svg.svg`. */
  lemma StripRemovesOneExtension(s: string)
    requires EndsWithIgnoringCase(StripSvgExtension(s), ".svg")
    ensures EndsWithIgnoringCase(s, ".svg.svg")
  {
    var r := StripSvgExtension(s);
    assert r != s;
    DoubledSuffix(s, r);
  }

  lemma DoubledSuffix(s: string, r: string)
    requires |s| >= 4 && r == s[..|s| - 4]
    requires EndsWithIgnoringCase(s, ".svg") && EndsWithIgnoringCase(r, ".svg")
    ensures EndsWithIgnoringCase(s, ".svg.svg")
  {
    var a, b := r[|r| - 4..], s[|s| - 4..];
    assert s[|s| - 8..] == a + b;
    ConcatIgnoringCase(a, b, ".svg", ".svg");
    assert ".svg" + ".svg" == ".svg.svg";
  }

  /** Texts equal without regard to case stay so when concatenated. */
  lemma ConcatIgnoringCase(a: string, b: string, x: string, y: string)
    requires EqualIgnoringCase(a, x) && EqualIgnoringCase(b, y)
    ensures EqualIgnoringCase(a + b, x + y)
  {
    ToLowerAppend(a, b);
    ToLowerAppend(x, y);
  }

  /** The display path ends in `.svg` only when the relative path ended in
      `.svg.svg`. */
  lemma DisplayPathEndsInSvgOnlyIfDoubled(filePath: string, iconsRoot: string)
    requires EndsWithIgnoringCase(ToDisplayPath(filePath, iconsRoot), ".svg")
    ensures EndsWithIgnoringCase(ReplaceAll(Relative(iconsRoot, filePath), '\\', '/'), ".svg.svg")
  {
    StripRemovesOneExtension(ReplaceAll(Relative(iconsRoot, filePath), '\\', '/'));
  }

  lemma ToLowerAppend(a: string, b: string)
    ensures ToLower(a + b) == ToLower(a) + ToLower(b)
  {
  }

  /** For a relative path free of backslashes, the identifier is the display
      path with its non-empty `/`-pieces joined by `-`. */
  lemma NameFromDisplayPath(filePath: string, iconsRoot: string)
    requires '\\' !in Relative(iconsRoot, filePath)
    ensures ToTypeName(filePath, iconsRoot) ==
      Join(NonEmpty(Split(ToDisplayPath(filePath, iconsRoot), '/')), "-")
  {
    var rel := Relative(iconsRoot, filePath);
    assert ReplaceAll(rel, '\\', '/') == rel;
  }

  /** Stripping the extension of a joined path touches only the last piece. */
  lemma StripLastPiece(init: seq<string>, last: string)
    requires NoSlash(init) && '/' !in last && EndsWithIgnoringCase(last, ".svg")
    ensures StripSvgExtension(Join(init + [last], "/")) == Join(init + [StripSvgExtension(last)], "/")
  {
    var stem := StripSvgExtension(last);
    assert last == stem + last[|stem|..];
    if |init| > 0 {
      JoinAppend(init, [last], "/");
      JoinAppend(init, [stem], "/");
      var j := Join(init, "/") + "/";
      assert j + last == (j + stem) + last[|stem|..];
      assert (j + last)[|j + last| - 4..] == last[|last| - 4..];
    } else {
      assert init + [last] == [last] && init + [stem] == [stem];
    }
  }

  /** For a file reached through the directory names `init` and the file name
      `last` below the icon root, the identifier is those names, extension
      stripped from the last, empty ones dropped, joined by `-`; the display
      path is the same names joined by `/`. */
  lemma EntryOfFileBelowRoot(filePath: string, iconsRoot: string, init: seq<string>, last: string)
    requires AllEntryNames(init) && IsEntryName(last) && EndsWithIgnoringCase(last, ".svg")
    requires Segments(filePath) == Segments(iconsRoot) + init + [last]
    ensures ToTypeName(filePath, iconsRoot) == Join(init + NonEmpty([StripSvgExtension(last)]), "-")
    ensures '\\' !in Join(init + [last], "/") ==>
      ToDisplayPath(filePath, iconsRoot) == Join(init + [StripSvgExtension(last)], "/")
  {
    var names := init + [last];
    assert Segments(filePath) == Segments(iconsRoot) + names;
    RelativeBelow(iconsRoot, filePath, names);
    assert NoSlash(init) && '/' !in last;
    StripLastPiece(init, last);
    TypeNameBelow(filePath, iconsRoot, init, last);
    if '\\' !in Join(names, "/") {
      DisplayPathBelow(filePath, iconsRoot, init, last);
    }
  }

  lemma TypeNameBelow(filePath: string, iconsRoot: string, init: seq<string>, last: string)
    requires AllEntryNames(init) && IsEntryName(last)
    requires StripSvgExtension(Relative(iconsRoot, filePath)) == Join(init + [StripSvgExtension(last)], "/")
    ensures ToTypeName(filePath, iconsRoot) == Join(init + NonEmpty([StripSvgExtension(last)]), "-")
  {
    TypeNameOfPieces(init, last);
  }

  lemma DisplayPathBelow(filePath: string, iconsRoot: string, init: seq<string>, last: string)
    requires Relative(iconsRoot, filePath) == Join(init + [last], "/") && '\\' !in Join(init + [last], "/")
    requires StripSvgExtension(Join(init + [last], "/")) == Join(init + [StripSvgExtension(last)], "/")
    ensures ToDisplayPath(filePath, iconsRoot) == Join(init + [StripSvgExtension(last)], "/")
  {
    var j := Join(init + [last], "/");
    assert ReplaceAll(j, '\\', '/') == j;
  }

  /** The `/`-pieces of the stripped path are the names, the empty stem dropped. */
  lemma TypeNameOfPieces(init: seq<string>, last: string)
    requires AllEntryNames(init) && IsEntryName(last)
    ensures NonEmpty(Split(Join(init + [StripSvgExtension(last)], "/"), '/')) == init + NonEmpty([StripSvgExtension(last)])
  {
    var stem := StripSvgExtension(last);
    var pieces := init + [stem];
    assert '/' !in stem by {
      assert stem == last[..|stem|];
    }
    assert NoSlash(pieces);
    SplitJoin(pieces, '/');
    NonEmptyAppend(init, [stem]);
    NonEmptyIdentity(init);
  }

  /** The file `names` below the directory `root`. */
  lemma BelowRoot(root: seq<string>, names: seq<string>)
    requires AllEntryNames(root) && AllEntryNames(names)
    ensures Segments(Render(root + names)) == Segments(Render(root)) + names
  {
    SegmentsOfRender(root + names);
    SegmentsOfRender(root);
  }

  lemma StripExamples()
    ensures StripSvgExtension("c.svg") == "c"
    ensures StripSvgExtension("close.svg") == "close"
    ensures StripSvgExtension("Left.SVG") == "Left"
  {
    assert "c.svg"[1..] == ".svg";
    assert "close.svg"[5..] == ".svg";
    assert "Left.SVG"[4..] == ".SVG";
  }

  /** The file `init + [last]` below the directory `root`, as in `EntryOfFileBelowRoot`. */
  lemma EntryBelowRoot(root: seq<string>, init: seq<string>, last: string, file: string)
    requires AllEntryNames(root) && AllEntryNames(init) && IsEntryName(last) && EndsWithIgnoringCase(last, ".svg")
    requires file == Render(root + init + [last])
    ensures ToTypeName(file, Render(root)) == Join(init + NonEmpty([StripSvgExtension(last)]), "-")
    ensures '\\' !in Join(init + [last], "/") ==>
      ToDisplayPath(file, Render(root)) == Join(init + [StripSvgExtension(last)], "/")
  {
    EntryNamesSnoc(init, last);
    BelowRoot(root, init + [last]);
    SnocAssoc(root, init, last);
    SnocAssoc(Segments(Render(root)), init, last);
    EntryOfFileBelowRoot(file, Render(root), init, last);
  }

  lemma EntryNamesSnoc(init: seq<string>, last: string)
    requires AllEntryNames(init) && IsEntryName(last)
    ensures AllEntryNames(init + [last])
  {
  }

  lemma SnocAssoc<T>(r: seq<T>, init: seq<T>, last: T)
    ensures r + (init + [last]) == r + init + [last]
  {
  }

  lemma NestedJoins()
    ensures Join(["a", "b"] + NonEmpty([StripSvgExtension("c.svg")]), "-") == "a-b-c"
    ensures Join(["a", "b"] + [StripSvgExtension("c.svg")], "/") == "a/b/c"
    ensures '\\' !in Join(["a", "b"] + ["c.svg"], "/")
  {
    StripExamples();
    assert NonEmpty(["c"]) == ["c"];
    assert ["a", "b"] + ["c"] == ["a", "b", "c"];
    assert ["a", "b"] + ["c.svg"] == ["a", "b", "c.svg"];
    JoinThree("a", "b", "c", "-");
    JoinThree("a", "b", "c", "/");
    JoinThree("a", "b", "c.svg", "/");
  }

  lemma CaseJoins()
    ensures Join(["Arrows"] + NonEmpty([StripSvgExtension("Left.SVG")]), "-") == "Arrows-Left"
  {
    StripExamples();
    assert NonEmpty(["Left"]) == ["Left"];
    assert ["Arrows"] + ["Left"] == ["Arrows", "Left"];
    assert ["Arrows", "Left"][1..] == ["Left"];
  }

  /** `a/b/c.svg` below the root gives the identifier `a-b-c` and the display path `a/b/c`. */
  lemma NestedFileExample(root: seq<string>)
    requires AllEntryNames(root)
    ensures ToTypeName(Render(root + ["a", "b", "c.svg"]), Render(root)) == "a-b-c"
    ensures ToDisplayPath(Render(root + ["a", "b", "c.svg"]), Render(root)) == "a/b/c"
  {
    var init: seq<string> := ["a", "b"];
    assert root + ["a", "b", "c.svg"] == root + init + ["c.svg"];
    assert EndsWithIgnoringCase("c.svg", ".svg") by {
      StripExamples();
    }
    EntryBelowRoot(root, init, "c.svg", Render(root + ["a", "b", "c.svg"]));
    NestedJoins();
  }

  /** A file directly below the root gives its stem: `close.svg` is `close`. */
  lemma TopLevelFileExample(root: seq<string>)
    requires AllEntryNames(root)
    ensures ToTypeName(Render(root + ["close.svg"]), Render(root)) == "close"
    ensures ToDisplayPath(Render(root + ["close.svg"]), Render(root)) == "close"
  {
    CloseFacts();
    EntryDirectlyBelowRoot(root, "close.svg", Render(root + ["close.svg"]));
  }

  lemma CloseFacts()
    ensures IsEntryName("close.svg") && EndsWithIgnoringCase("close.svg", ".svg") && '\\' !in "close.svg"
    ensures StripSvgExtension("close.svg") == "close"
  {
    StripExamples();
  }

  /** A file directly below the root is named by its stem. */
  lemma EntryDirectlyBelowRoot(root: seq<string>, last: string, file: string)
    requires AllEntryNames(root) && IsEntryName(last) && EndsWithIgnoringCase(last, ".svg")
    requires file == Render(root + [last])
    ensures StripSvgExtension(last) != "" ==> ToTypeName(file, Render(root)) == StripSvgExtension(last)
    ensures '\\' !in last ==> ToDisplayPath(file, Render(root)) == StripSvgExtension(last)
  {
    var init: seq<string> := [];
    assert root + [last] == root + init + [last];
    EntryBelowRoot(root, init, last, file);
    assert init + [last] == [last];
    assert init + [StripSvgExtension(last)] == [StripSvgExtension(last)];
    if StripSvgExtension(last) != "" {
      assert NonEmpty([StripSvgExtension(last)]) == [StripSvgExtension(last)];
    }
  }

  /** Only the extension is case-insensitive: `Arrows/Left.SVG` keeps its case. */
  lemma CaseIsKeptExample(root: seq<string>)
    requires AllEntryNames(root)
    ensures ToTypeName(Render(root + ["Arrows", "Left.SVG"]), Render(root)) == "Arrows-Left"
  {
    var init: seq<string> := ["Arrows"];
    assert root + ["Arrows", "Left.SVG"] == root + init + ["Left.SVG"];
    assert EndsWithIgnoringCase("Left.SVG", ".svg") by {
      StripExamples();
    }
    EntryBelowRoot(root, init, "Left.SVG", Render(root + ["Arrows", "Left.SVG"]));
    CaseJoins();
  }
}

=== FILE: ordering.dfy ===
/** Orders and the stable sort of `Array.prototype.sort`.

    The type file sorts names with the default comparison, the UTF-16
    code-unit order of the strings; that order is `CodeUnitLessEq` here,
    lexicographic over the code units with a prefix before its extensions. The
    preview page sorts with `localeCompare`, whose order depends on the
    locale: it is a parameter of the model, assumed to be a total preorder. */
module Ordering {

  import opened Text

  // ---------------------------------------------------------------------------
  // Properties of relations
  // ---------------------------------------------------------------------------

  ghost predicate Total<T(!new)>(le: (T, T) -> bool) {
    forall a, b :: le(a, b) || le(b, a)
  }

  ghost predicate Transitive<T(!new)>(le: (T, T) -> bool) {
    forall a, b, c :: le(a, b) && le(b, c) ==> le(a, c)
  }

  ghost predicate AntiSymmetric<T(!new)>(le: (T, T) -> bool) {
    forall a, b :: le(a, b) && le(b, a) ==> a == b
  }

  /** What a consistent comparator gives `sort`: every pair is comparable,
      and comparisons chain. */
  ghost predicate TotalPreorder<T(!new)>(le: (T, T) -> bool) {
    Total(le) && Transitive(le)
  }

  ghost predicate TotalOrder<T(!new)>(le: (T, T) -> bool) {
    TotalPreorder(le) && AntiSymmetric(le)
  }

  /** Every element is `le` every later one. */
  ghost predicate Sorted<T>(xs: seq<T>, le: (T, T) -> bool) {
    forall i, j :: 0 <= i < j < |xs| ==> le(xs[i], xs[j])
  }

  // ---------------------------------------------------------------------------
  // Code-unit order on strings
  // ---------------------------------------------------------------------------

  /** Lexicographic order on code-unit sequences, a prefix before its
      extensions. */
  predicate UnitsLessEq(a: seq<int>, b: seq<int>) {
    if |a| == 0 then true
    else if |b| == 0 then false
    else if a[0] != b[0] then a[0] < b[0]
    else UnitsLessEq(a[1..], b[1..])
  }

  /** `a <= b` in the order the default `sort` uses: the strings' UTF-16
      code units compared lexicographically. */
  predicate CodeUnitLessEq(a: string, b: string) {
    UnitsLessEq(Utf16(a), Utf16(b))
  }

  lemma {:induction false} UnitsTotal(a: seq<int>, b: seq<int>)
    ensures UnitsLessEq(a, b) || UnitsLessEq(b, a)
  {
    if |a| > 0 && |b| > 0 && a[0] == b[0] {
      UnitsTotal(a[1..], b[1..]);
    }
  }

  lemma {:induction false} UnitsTransitive(a: seq<int>, b: seq<int>, c: seq<int>)
    requires UnitsLessEq(a, b) && UnitsLessEq(b, c)
    ensures UnitsLessEq(a, c)
  {
    if |a| > 0 && |b| > 0 && |c| > 0 && a[0] == b[0] == c[0] {
      UnitsTransitive(a[1..], b[1..], c[1..]);
    }
  }

  lemma {:induction false} UnitsAntiSymmetric(a: seq<int>, b: seq<int>)
    requires UnitsLessEq(a, b) && UnitsLessEq(b, a)
    ensures a == b
  {
    if |a| > 0 && |b| > 0 {
      UnitsAntiSymmetric(a[1..], b[1..]);
      assert a == [a[0]] + a[1..] && b == [b[0]] + b[1..];
    }
  }

  /** The default string order is a total order. */
  lemma CodeUnitIsTotalOrder()
    ensures TotalOrder(CodeUnitLessEq)
  {
    forall a, b ensures CodeUnitLessEq(a, b) || CodeUnitLessEq(b, a) {
      UnitsTotal(Utf16(a), Utf16(b));
    }
    forall a, b, c | CodeUnitLessEq(a, b) && CodeUnitLessEq(b, c)
      ensures CodeUnitLessEq(a, c)
    {
      UnitsTransitive(Utf16(a), Utf16(b), Utf16(c));
    }
    forall a, b | CodeUnitLessEq(a, b) && CodeUnitLessEq(b, a) ensures a == b {
      UnitsAntiSymmetric(Utf16(a), Utf16(b));
      Utf16Injective(a, b);
    }
  }

  /** The order is over code units, not characters: U+1F600 is stored as the
      surrogates D83D DE00 and so sorts before U+FFFF, although its code
      point is larger. */
  lemma SurrogatesBeforeHighBmp()
    ensures CodeUnitLessEq("\U{1F600}", "\U{FFFF}")
    ensures !CodeUnitLessEq("\U{FFFF}", "\U{1F600}")
    ensures '\U{FFFF}' < '\U{1F600}'
  {
    assert Utf16("\U{1F600}") == [0xD83D, 0xDE00];
    assert Utf16("\U{FFFF}") == [0xFFFF];
  }

  // ---------------------------------------------------------------------------
  // Sorting
  // ---------------------------------------------------------------------------

  /** Places `x` before the first element it is `le`. */
  function Insert<T>(x: T, xs: seq<T>, le: (T, T) -> bool): (r: seq<T>)
    ensures multiset(r) == multiset(xs) + multiset{x}
    ensures |r| == |xs| + 1
  {
    if |xs| == 0 then [x]
    else if le(x, xs[0]) then [x] + xs
    else
      assert xs == [xs[0]] + xs[1..];
      [xs[0]] + Insert(x, xs[1..], le)
  }

  lemma {:induction false} InsertSorted<T(!new)>(x: T, xs: seq<T>, le: (T, T) -> bool)
    requires TotalPreorder(le)
    requires Sorted(xs, le)
    ensures Sorted(Insert(x, xs, le), le)
  {
    if |xs| > 0 && !le(x, xs[0]) {
      var tail := Insert(x, xs[1..], le);
      InsertSorted(x, xs[1..], le);
      var r := [xs[0]] + tail;
      forall j | 0 < j < |r| ensures le(xs[0], r[j]) {
        assert r[j] in multiset(tail);
        assert r[j] in multiset(xs[1..]) + multiset{x};
        if r[j] in multiset(xs[1..]) {
          var k :| 0 <= k < |xs[1..]| && xs[1..][k] == r[j];
          assert xs[k + 1] == r[j];
        }
      }
    }
  }

  lemma InsertKeepsSorted<T(!new)>(x: T, xs: seq<T>, le: (T, T) -> bool)
    ensures TotalPreorder(le) && Sorted(xs, le) ==> Sorted(Insert(x, xs, le), le)
  {
    if TotalPreorder(le) && Sorted(xs, le) {
      InsertSorted(x, xs, le);
    }
  }

  /** The stable sort `[...xs].sort(compare)` with `le(a, b)` standing for
      `compare(a, b) <= 0`: the result is always a permutation of the input,
      and with a consistent comparator it is sorted. */
  function Sort<T(!new)>(xs: seq<T>, le: (T, T) -> bool): (r: seq<T>)
    ensures multiset(r) == multiset(xs)
    ensures |r| == |xs|
    ensures TotalPreorder(le) ==> Sorted(r, le)
  {
    if |xs| == 0 then []
    else
      var rest := Sort(xs[1..], le);
      assert xs == [xs[0]] + xs[1..];
      InsertKeepsSorted(xs[0], rest, le);
      Insert(xs[0], rest, le)
  }

  /** The head of a sorted sequence is `le` each of its elements. */
  lemma HeadIsLeast<T>(a: seq<T>, x: T, le: (T, T) -> bool)
    requires Sorted(a, le) && x in a
    ensures x == a[0] || le(a[0], x)
  {
    var i :| 0 <= i < |a| && a[i] == x;
  }

  lemma MultisetTail<T>(a: seq<T>)
    requires |a| > 0
    ensures multiset(a[1..]) == multiset(a) - multiset{a[0]}
  {
    assert a == [a[0]] + a[1..];
  }

  /** Under a total order there is only one sorted arrangement of a multiset. */
  lemma {:induction false} SortedUnique<T(!new)>(a: seq<T>, b: seq<T>, le: (T, T) -> bool)
    requires TotalOrder(le)
    requires Sorted(a, le) && Sorted(b, le)
    requires multiset(a) == multiset(b)
    ensures a == b
  {
    assert |a| == |multiset(a)| == |multiset(b)| == |b|;
    if |a| > 0 {
      assert a[0] in multiset(b) && b[0] in multiset(a);
      HeadIsLeast(b, a[0], le);
      HeadIsLeast(a, b[0], le);
      MultisetTail(a);
      MultisetTail(b);
      SortedUnique(a[1..], b[1..], le);
      assert a == [a[0]] + a[1..] && b == [b[0]] + b[1..];
    }
  }

  /** Sorting with a total order forgets the input's arrangement. */
  lemma SortForgetsOrder<T(!new)>(xs: seq<T>, ys: seq<T>, le: (T, T) -> bool)
    requires TotalOrder(le)
    requires multiset(xs) == multiset(ys)
    ensures Sort(xs, le) == Sort(ys, le)
  {
    SortedUnique(Sort(xs, le), Sort(ys, le), le);
  }
}

=== FILE: paths.dfy ===
/** A POSIX model of the `node:path` functions the generator calls:
    `resolve`, `relative`, `join` and `dirname`, with `/` as the only
    separator. Paths are taken as absolute: a relative base is resolved as if
    the working directory were `/`. */
module Paths {
  import opened Text

  /** A name a directory listing can hold: non-empty, free of `/`, and
      neither `.` nor `..`. Normalised paths consist of such names. */
  predicate IsEntryName(name: string) {
    name != "" && name != "." && name != ".." && '/' !in name
  }

  predicate AllEntryNames(names: seq<string>) {
    forall i :: 0 <= i < |names| ==> IsEntryName(names[i])
  }

  predicate NoSlash(parts: seq<string>) {
    forall i :: 0 <= i < |parts| ==> '/' !in parts[i]
  }

  /** Folds the pieces of a path onto a stack of directory names: empty
      pieces and `.` are skipped, `..` leaves the current directory (never
      above the root), and any other piece enters a directory. */
  function Normalize(stack: seq<string>, parts: seq<string>): (r: seq<string>)
    requires AllEntryNames(stack) && NoSlash(parts)
    ensures AllEntryNames(r)
    decreases |parts|
  {
    if |parts| == 0 then stack
    else if parts[0] == "" || parts[0] == "." then Normalize(stack, parts[1..])
    else if parts[0] == ".." then
      Normalize(if |stack| > 0 then stack[..|stack| - 1] else stack, parts[1..])
    else Normalize(stack + [parts[0]], parts[1..])
  }

  /** The directory names of the normalised absolute path `p`. */
  function Segments(p: string): (r: seq<string>)
    ensures AllEntryNames(r)
  {
    Normalize([], Split(p, '/'))
  }

  /** The absolute path with the given directory names. */
  function Render(segments: seq<string>): string {
    "/" + Join(segments, "/")
  }

  /** `path.resolve(base, p)`. */
  function Resolve(base: string, p: string): string {
    if StartsWith(p, "/") then Render(Segments(p)) else Render(Segments(base + "/" + p))
  }

  /** `path.join(dir, name)`. */
  function JoinPath(dir: string, name: string): string {
    Render(Segments(dir + "/" + name))
  }

  /** `path.dirname(p)` of a normalised path: the path one level up (`/` stays `/`). */
  function Dirname(p: string): string {
    var s := Segments(p);
    if |s| == 0 then "/" else Render(s[..|s| - 1])
  }

  function CommonPrefixLength(a: seq<string>, b: seq<string>): (k: nat)
    ensures k <= |a| && k <= |b| && a[..k] == b[..k]
    ensures k < |a| && k < |b| ==> a[k] != b[k]
  {
    if |a| == 0 || |b| == 0 || a[0] != b[0] then 0
    else
      var k := 1 + CommonPrefixLength(a[1..], b[1..]);
      assert a[..k] == [a[0]] + a[1..][..k - 1];
      assert b[..k] == [b[0]] + b[1..][..k - 1];
      k
  }

  function Repeat(x: string, n: nat): (r: seq<string>)
    ensures |r| == n && forall i :: 0 <= i < n ==> r[i] == x
  {
    if n == 0 then [] else [x] + Repeat(x, n - 1)
  }

  /** `path.relative(from, to)`: climb out of `from` to the directory both
      paths share, then descend to `to`. */
  function Relative(from: string, to: string): string {
    var f := Segments(from);
    var t := Segments(to);
    var k := CommonPrefixLength(f, t);
    Join(Repeat("..", |f| - k) + t[k..], "/")
  }

  // ---------------------------------------------------------------------------
  // Lemmas
  // ---------------------------------------------------------------------------

  lemma {:induction false} NormalizeAppend(stack: seq<string>, xs: seq<string>, ys: seq<string>)
    requires AllEntryNames(stack) && NoSlash(xs) && NoSlash(ys)
    ensures NoSlash(xs + ys)
    ensures Normalize(stack, xs + ys) == Normalize(Normalize(stack, xs), ys)
    decreases |xs|
  {
    if |xs| > 0 {
      assert (xs + ys)[0] == xs[0];
      assert (xs + ys)[1..] == xs[1..] + ys;
      var st := if xs[0] == "" || xs[0] == "." then stack
                else if xs[0] == ".." then (if |stack| > 0 then stack[..|stack| - 1] else stack)
                else stack + [xs[0]];
      NormalizeAppend(st, xs[1..], ys);
    } else {
      assert xs + ys == ys;
    }
  }

  /** Entry names are entered one after the other. */
  lemma {:induction false} NormalizeEntries(stack: seq<string>, names: seq<string>)
    requires AllEntryNames(stack) && AllEntryNames(names)
    ensures Normalize(stack, names) == stack + names
    decreases |names|
  {
    if |names| > 0 {
      NormalizeEntries(stack + [names[0]], names[1..]);
      assert stack + [names[0]] + names[1..] == stack + names;
    }
  }

  /** `n` times `..` leaves `n` directories. */
  lemma {:induction false} NormalizeUps(stack: seq<string>, n: nat)
    requires AllEntryNames(stack) && n <= |stack|
    ensures Normalize(stack, Repeat("..", n)) == stack[..|stack| - n]
  {
    if n > 0 {
      NormalizeUps(stack[..|stack| - 1], n - 1);
      assert stack[..|stack| - 1][..|stack| - 1 - (n - 1)] == stack[..|stack| - n];
    }
  }

  lemma {:induction false} SplitAppend(a: string, b: string, c: char)
    ensures Split(a + [c] + b, c) == Split(a, c) + Split(b, c)
  {
    if |a| == 0 {
      assert a + [c] + b == [c] + b;
      assert ([c] + b)[1..] == b;
    } else {
      var x := a + [c] + b;
      assert x[0] == a[0];
      assert x[1..] == a[1..] + [c] + b;
      SplitAppend(a[1..], b, c);
    }
  }

  /** Rendering and reading back the directory names are inverse. */
  lemma SegmentsOfRender(segments: seq<string>)
    requires AllEntryNames(segments)
    ensures Segments(Render(segments)) == segments
  {
    var j := Join(segments, "/");
    assert Render(segments) == "" + ['/'] + j;
    SplitAppend("", j, '/');
    var parts := Split(j, '/');
    assert Split(Render(segments), '/') == [""] + parts;
    if |segments| == 0 {
      assert parts == [""];
      assert ["", ""][1..] == [""];
      assert Normalize([], [""]) == Normalize([], []);
    } else {
      SplitJoin(segments, '/');
      NormalizeEntries([], segments);
    }
  }

  /** Joining an entry name appends it to the directory names. */
  lemma SegmentsOfJoinPath(dir: string, name: string)
    requires IsEntryName(name)
    ensures Segments(JoinPath(dir, name)) == Segments(dir) + [name]
  {
    SplitAppend(dir, name, '/');
    SplitFree(name, '/');
    NormalizeAppend([], Split(dir, '/'), [name]);
    NormalizeEntries(Segments(dir), [name]);
    SegmentsOfRender(Segments(dir) + [name]);
  }

  /** Resolving a relative path against `from` folds its pieces onto the
      directory names of `from`. */
  lemma ResolveRelativePieces(from: string, parts: seq<string>)
    requires |parts| >= 1 && NoSlash(parts)
    ensures Segments(from + "/" + Join(parts, "/")) == Normalize(Segments(from), parts)
  {
    var r := Join(parts, "/");
    SplitJoin(parts, '/');
    SplitAppend(from, r, '/');
    NormalizeAppend([], Split(from, '/'), parts);
  }

  /** Climbing out of `f` to its first `k` names and descending into the
      rest of `t` arrives at `t`. */
  lemma ClimbThenDescend(f: seq<string>, t: seq<string>, k: nat)
    requires AllEntryNames(f) && AllEntryNames(t)
    requires k <= |f| && k <= |t| && f[..k] == t[..k]
    ensures NoSlash(Repeat("..", |f| - k) + t[k..])
    ensures Normalize(f, Repeat("..", |f| - k) + t[k..]) == t
  {
    NormalizeAppend(f, Repeat("..", |f| - k), t[k..]);
    NormalizeUps(f, |f| - k);
    NormalizeEntries(f[..k], t[k..]);
    assert t == t[..k] + t[k..];
  }

  /** `path.resolve(from, path.relative(from, to)) == path.resolve(to)`. */
  lemma RelativeResolves(from: string, to: string)
    ensures Resolve(from, Relative(from, to)) == Render(Segments(to))
  {
    RelativeLands(from, to, Relative(from, to));
  }

  /** The relative path is never absolute, and read from `from` it names `to`. */
  lemma RelativeLands(from: string, to: string, r: string)
    requires r == Relative(from, to)
    ensures !StartsWith(r, "/") && Segments(from + "/" + r) == Segments(to)
  {
    var f := Segments(from);
    var t := Segments(to);
    var k := CommonPrefixLength(f, t);
    ClimbLands(from, f, t, k, Repeat("..", |f| - k) + t[k..]);
  }

  /** Climbing out of `from` to its first `k` names and descending into the
      rest of `t`, written as a path relative to `from`, arrives at `t`. */
  lemma ClimbLands(from: string, f: seq<string>, t: seq<string>, k: nat, parts: seq<string>)
    requires f == Segments(from) && AllEntryNames(t)
    requires k <= |f| && k <= |t| && f[..k] == t[..k]
    requires parts == Repeat("..", |f| - k) + t[k..]
    ensures !StartsWith(Join(parts, "/"), "/") && Segments(from + "/" + Join(parts, "/")) == t
  {
    ClimbThenDescend(f, t, k);
    if |parts| == 0 {
      assert t == t[..k] + t[k..];
      assert f == t;
      TrailingSlash(from);
    } else {
      assert |parts[0]| >= 1;
      RelativePieces(from, parts);
    }
  }

  /** A trailing `/` names the same directory. */
  lemma TrailingSlash(from: string)
    ensures Segments(from + "/" + Join([], "/")) == Segments(from)
  {
    assert from + "/" + Join([], "/") == from + "/" + "";
    SplitAppend(from, "", '/');
    NormalizeAppend([], Split(from, '/'), [""]);
  }

  /** Pieces that start with a name join to a relative path. */
  lemma RelativePieces(from: string, parts: seq<string>)
    requires |parts| >= 1 && NoSlash(parts) && |parts[0]| >= 1
    ensures !StartsWith(Join(parts, "/"), "/")
    ensures Segments(from + "/" + Join(parts, "/")) == Normalize(Segments(from), parts)
  {
    var j := Join(parts, "/");
    JoinHead(parts, "/");
    assert '/' !in parts[0];
    assert j[0] != '/';
    assert j[..1] != "/" by {
      assert j[..1][0] == j[0];
    }
    ResolveRelativePieces(from, parts);
  }

  lemma {:induction false} CommonPrefixOfExtension(a: seq<string>, b: seq<string>)
    ensures CommonPrefixLength(a, a + b) == |a|
  {
    if |a| > 0 {
      assert (a + b)[0] == a[0] && (a + b)[1..] == a[1..] + b;
      CommonPrefixOfExtension(a[1..], b);
    }
  }

  /** The path of a file `names` below `root` is `names` relative to `root`. */
  lemma RelativeBelow(root: string, file: string, names: seq<string>)
    requires Segments(file) == Segments(root) + names
    ensures Relative(root, file) == Join(names, "/")
  {
    var f := Segments(root);
    var t := Segments(file);
    CommonPrefixOfExtension(f, names);
    assert Repeat("..", 0) + t[|f|..] == names;
  }
}

=== FILE: plugin.dfy ===
/** The plugin object of `src/plugin.ts`: the `config` hook, the change filter
    and the debounce timer that turns bursts of file notifications into one
    generation. Time is a number of milliseconds; Node's timer queue is part
    of the state, so that "one pending timer" is something to prove. */
module Plugin {
  import opened Wrappers
  import opened Text
  import opened Paths
  import opened FileStore
  import opened Scanner
  import opened Config
  import opened RollupInput
  import opened Artifacts

  /** Node's `TIMEOUT_MAX`, the longest delay `setTimeout` honours. */
  const TimeoutMax: int := 2147483647

  /** The delay Node's `setTimeout` actually waits for a requested delay:
      anything below one or above `TIMEOUT_MAX` becomes one millisecond. */
  function EffectiveDelay(ms: int): (d: int)
    ensures 1 <= d <= TimeoutMax
    ensures 1 <= ms <= TimeoutMax <==> d == ms
  {
    if ms < 1 || ms > TimeoutMax then 1 else ms
  }

  /** The variables the plugin closes over, and the timers Node holds. */
  datatype Session = Session(
    cwd: string,                        // the directory `path.resolve` starts from
    resolved: Option<ResolvedOptions>,  // `resolved`
    handle: Option<nat>,                // `debounceTimer`, as the id of a Node timer
    queue: map<nat, int>,               // Node's pending timers: id to deadline
    nextId: nat,                        // the id the next `setTimeout` hands out
    listening: bool)                    // the change handlers are on the watcher

  /** A new plugin instance: nothing resolved, no timer, no handler. */
  function NewSession(cwd: string): Session {
    Session(cwd, None, None, map[], 0, false)
  }

  /** Every pending timer is the one `debounceTimer` names, and ids are fresh. */
  predicate Inv(s: Session) {
    (forall id :: id in s.queue ==> s.handle == Some(id)) &&
    (forall id :: id in s.queue ==> id < s.nextId) &&
    (s.handle.Some? ==> s.handle.value < s.nextId)
  }

  /** The notifications the plugin reacts to. */
  datatype Event =
    | ConfigResolved(options: ResolvedOptions)              // `configResolved`, with the
                                                           // options `resolvePluginOptions` returned
    | BuildStart                                           // `buildStart`
    | ConfigureServer                                      // `configureServer`
    | Watch(path: string)                                  // add, change, unlink, addDir, unlinkDir
    | Close                                                // the HTTP server's `close`

  /** An event and the time it arrives at. */
  datatype Stamped = Stamped(at: int, event: Event)

  /** A session after some events, and the times generations ran at. */
  datatype Run = Run(session: Session, generations: seq<int>)

  // ---------------------------------------------------------------------------
  // The hooks
  // ---------------------------------------------------------------------------

  /** The `config` hook: Rollup's input with the preview page added under the
      page's unresolved relative path. */
  function ConfigInput(options: PluginOptions, input: InputOption): (r: map<string, string>)
    ensures PreviewKey in r
    ensures r[PreviewKey] == options.previewHtmlOutput.GetOr(DefaultPreviewHtml)
  {
    TransformInput(options.previewHtmlOutput.GetOr(DefaultPreviewHtml), input)
  }

  /** `shouldHandle(filePath)`: a `.svg` path, in that letter case, whose
      absolute form starts with the icon root as a string. */
  function ShouldHandle(s: Session, filePath: string): (handled: bool)
    ensures handled ==> s.resolved.Some?
    ensures handled ==> EndsWith(Resolve(s.cwd, filePath), ".svg")
    ensures handled ==> StartsWith(Resolve(s.cwd, filePath), s.resolved.value.iconsRoot)
  {
    if s.resolved.None? then false
    else
      var normalized := Resolve(s.cwd, filePath);
      EndsWith(normalized, ".svg") && StartsWith(normalized, s.resolved.value.iconsRoot)
  }

  /** `scheduleGenerate()` at time `now`: cancel the timer `debounceTimer`
      names, then start one that fires after the debounce delay. */
  function Schedule(s: Session, now: int): (r: Session)
    ensures s.resolved.None? ==> r == s
    ensures s.resolved.Some? ==> r.handle == Some(s.nextId) && r.nextId == s.nextId + 1
    ensures s.resolved.Some? && Inv(s) ==>
      r.queue == map[s.nextId := now + EffectiveDelay(s.resolved.value.debounceMs)]
  {
    if s.resolved.None? then s
    else
      var cleared := if s.handle.Some? then s.queue - {s.handle.value} else s.queue;
      var id := s.nextId;
      s.(handle := Some(id),
         queue := cleared[id := now + EffectiveDelay(s.resolved.value.debounceMs)],
         nextId := id + 1)
  }

  /** The timer's callback: its timer leaves the queue, `debounceTimer` is
      set to null, and then `runGenerate` runs, generating when resolved. */
  function Fire(s: Session, id: nat): (r: Run)
    requires id in s.queue
    ensures r.session.handle.None? && id !in r.session.queue
    ensures |r.generations| <= 1
  {
    Run(s.(handle := None, queue := s.queue - {id}), if s.resolved.Some? then [s.queue[id]] else [])
  }

  /** Time passes up to `t`: the pending timer fires if its deadline has come. */
  function Elapse(s: Session, t: int): (r: Run)
    ensures Inv(s) ==> forall id :: id in r.session.queue ==> t < r.session.queue[id]
    ensures Inv(s) ==> |r.generations| <= 1
  {
    if s.handle.Some? && s.handle.value in s.queue && s.queue[s.handle.value] <= t
    then Fire(s, s.handle.value)
    else Run(s, [])
  }

  /** Time runs on with no more events: the pending timer, if any, fires. */
  function Drain(s: Session): (r: Run)
    ensures Inv(s) ==> r.session.queue == map[]
  {
    if s.handle.Some? && s.handle.value in s.queue then Fire(s, s.handle.value) else Run(s, [])
  }

  /** One event at time `now`, the pending timer having had its chance to fire. */
  function Apply(s: Session, e: Event, now: int): (r: Run)
    ensures r.generations != [] ==> e == BuildStart && r.generations == [now] && r.session == s
  {
    match e
    case ConfigResolved(options) =>
      Run(s.(resolved := Some(options)), [])
    case BuildStart =>
      Run(s, if s.resolved.Some? then [now] else [])
    case ConfigureServer =>
      if s.resolved.None? then Run(s, []) else Run(Schedule(s.(listening := true), now), [])
    case Watch(path) =>
      if s.listening && ShouldHandle(s, path) then Run(Schedule(s, now), []) else Run(s, [])
    case Close =>
      if !s.listening then Run(s, [])
      else
        var cleared := if s.handle.Some? then s.queue - {s.handle.value} else s.queue;
        Run(s.(listening := false, queue := cleared), [])
  }

  function Step(s: Session, e: Stamped): Run {
    var before := Elapse(s, e.at);
    var after := Apply(before.session, e.event, e.at);
    Run(after.session, before.generations + after.generations)
  }

  /** The events of `trace`, in order. */
  function RunTrace(s: Session, trace: seq<Stamped>): Run
    decreases |trace|
  {
    if |trace| == 0 then Run(s, [])
    else
      var first := Step(s, trace[0]);
      var rest := RunTrace(first.session, trace[1..]);
      Run(rest.session, first.generations + rest.generations)
  }

  /** `runGenerate(context)`: nothing before the options are resolved;
      otherwise generate and return the line `logGenerate` prints. */
  function RunGenerate(s: Session, fs: FileSystem, icons: Listing, le: (string, string) -> bool): (o: Outcome<Option<string>>)
    ensures s.resolved.None? ==> o == Outcome(fs, Success(None))
    ensures s.resolved.Some? && o.result.Success? ==>
      ScanSvgFiles(s.resolved.value.iconsRoot, icons).Success? &&
      o.result.value == Some(LogGenerate(|ScanSvgFiles(s.resolved.value.iconsRoot, icons).value|))
  {
    if s.resolved.None? then Outcome(fs, Success(None))
    else
      var o := GenerateArtifacts(fs, icons, s.resolved.value, le);
      Outcome(o.fs, if o.result.Failure? then Failure(o.result.error) else Success(Some(LogGenerate(o.result.value))))
  }

  // ---------------------------------------------------------------------------
  // The timer invariant
  // ---------------------------------------------------------------------------

  /** At most one timer is ever pending. */
  lemma AtMostOnePending(s: Session)
    requires Inv(s)
    ensures |s.queue.Keys| <= 1
    ensures s.queue != map[] ==> s.handle.Some? && s.queue.Keys == {s.handle.value}
  {
    if s.queue != map[] {
      var id :| id in s.queue;
      assert s.queue.Keys == {id};
    }
  }

  lemma NewSessionInv(cwd: string)
    ensures Inv(NewSession(cwd)) && NewSession(cwd).queue == map[]
  {
  }

  lemma ScheduleKeepsInv(s: Session, now: int)
    requires Inv(s)
    ensures Inv(Schedule(s, now))
  {
  }

  lemma ElapseKeepsInv(s: Session, t: int)
    requires Inv(s)
    ensures Inv(Elapse(s, t).session)
  {
  }

  lemma ApplyKeepsInv(s: Session, e: Event, now: int)
    requires Inv(s)
    ensures Inv(Apply(s, e, now).session)
  {
    match e
    case ConfigureServer =>
      if s.resolved.Some? {
        ScheduleKeepsInv(s.(listening := true), now);
      }
    case Watch(path) =>
      ScheduleKeepsInv(s, now);
    case _ =>
  }

  /** Every event keeps the invariant, so at most one timer is pending after
      any sequence of events. */
  lemma {:induction false} RunKeepsInv(s: Session, trace: seq<Stamped>)
    requires Inv(s)
    ensures Inv(RunTrace(s, trace).session)
    ensures |RunTrace(s, trace).session.queue.Keys| <= 1
    decreases |trace|
  {
    if |trace| > 0 {
      ElapseKeepsInv(s, trace[0].at);
      ApplyKeepsInv(Elapse(s, trace[0].at).session, trace[0].event, trace[0].at);
      RunKeepsInv(Step(s, trace[0]).session, trace[1..]);
    }
    AtMostOnePending(RunTrace(s, trace).session);
  }

  // ---------------------------------------------------------------------------
  // The change filter
  // ---------------------------------------------------------------------------

  /** A `.svg` file below the icon root is handled. */
  lemma HandlesIconBelowRoot(s: Session, filePath: string, names: seq<string>)
    requires s.resolved.Some?
    requires s.resolved.value.iconsRoot == Render(Segments(s.resolved.value.iconsRoot))
    requires |names| > 0 && EndsWith(names[|names| - 1], ".svg")
    requires Segments(Resolve(s.cwd, filePath)) == Segments(s.resolved.value.iconsRoot) + names
    ensures ShouldHandle(s, filePath)
  {
    var root := Segments(s.resolved.value.iconsRoot);
    var normalized := Resolve(s.cwd, filePath);
    RenderOfResolve(s.cwd, filePath);
    RenderPrefix(root, names);
    RenderEndsWithLast(root + names);
    assert (root + names)[|root + names| - 1] == names[|names| - 1];
    EndsWithTail(Render(root + names), names[|names| - 1], ".svg");
  }

  /** A resolved icon root is in rendered form, as `HandlesIconBelowRoot` needs. */
  lemma ResolvedRootIsRendered(options: PluginOptions, root: string)
    ensures var r := ResolvePluginOptions(options, root).iconsRoot; r == Render(Segments(r))
  {
    RenderOfResolve(root, options.iconsDir.GetOr(DefaultIconsDir));
  }

  /** The rendered directory is a string prefix of everything below it. */
  lemma RenderPrefix(a: seq<string>, b: seq<string>)
    ensures StartsWith(Render(a + b), Render(a))
  {
    if |a| > 0 && |b| > 0 {
      JoinAppend(a, b, "/");
      assert Render(a + b) == Render(a) + ("/" + Join(b, "/"));
    } else if |b| == 0 {
      assert a + b == a;
    } else {
      assert Render(a) == "/";
    }
  }

  /** A rendered path ends with its last name. */
  lemma RenderEndsWithLast(s: seq<string>)
    requires |s| > 0
    ensures EndsWith(Render(s), s[|s| - 1])
  {
    if |s| == 1 {
      assert Join(s, "/") == s[0];
    } else {
      JoinAppend(s[..|s| - 1], [s[|s| - 1]], "/");
      assert s[..|s| - 1] + [s[|s| - 1]] == s;
      assert Join([s[|s| - 1]], "/") == s[|s| - 1];
      assert Render(s) == Render(s[..|s| - 1]) + "/" + s[|s| - 1];
    }
  }

  lemma EndsWithTail(s: string, t: string, u: string)
    requires EndsWith(s, t) && EndsWith(t, u)
    ensures EndsWith(s, u)
  {
    assert s[|s| - |u|..] == t[|t| - |u|..];
  }

  /** The suffix test is case-sensitive: an upper-case `.SVG` file is not
      handled, although the scan collects it. */
  lemma UpperCaseIgnored(s: Session, filePath: string)
    requires EndsWith(Resolve(s.cwd, filePath), ".SVG")
    ensures !ShouldHandle(s, filePath)
  {
    var n := Resolve(s.cwd, filePath);
    assert n[|n| - 1] == 'G';
  }

  /** The prefix test is on strings, not directories: a `.svg` file in a
      sibling directory whose name extends the icon root's last name is
      handled too, although it is not below the icon root. */
  lemma SiblingDirectoryHandled(s: Session, d: seq<string>, x: string, suffix: string, name: string)
    requires s.resolved.Some? && s.resolved.value.iconsRoot == Render(d + [x])
    requires AllEntryNames(d + [x]) && AllEntryNames(d + [x + suffix, name])
    requires suffix != "" && EndsWith(name, ".svg")
    ensures ShouldHandle(s, Render(d + [x + suffix, name]))
    ensures !(Segments(s.resolved.value.iconsRoot) <= Segments(Render(d + [x + suffix, name])))
  {
    var path := d + [x + suffix, name];
    var p := Render(path);
    var prefix := RenderDir(d);
    SegmentsOfRender(path);
    assert Resolve(s.cwd, p) == p;
    RenderSnoc(d, x);
    RenderSnoc(d, x + suffix);
    assert d + [x + suffix] + [name] == path;
    RenderSnoc(d + [x + suffix], name);
    assert p == prefix + x + (suffix + "/" + name);
    assert p[..|prefix + x|] == prefix + x;
    assert p[|p| - |name|..] == name;
    EndsWithTail(p, name, ".svg");
    SegmentsOfRender(d + [x]);
    assert path[|d|] == x + suffix != x;
  }

  /** The text a rendered directory puts before the name of an entry in it. */
  function RenderDir(a: seq<string>): string {
    if |a| == 0 then "/" else Render(a) + "/"
  }

  lemma RenderSnoc(a: seq<string>, y: string)
    ensures Render(a + [y]) == RenderDir(a) + y
  {
    if |a| == 0 {
      assert a + [y] == [y];
    } else {
      JoinAppend(a, [y], "/");
    }
  }

  // ---------------------------------------------------------------------------
  // The debounce timer
  // ---------------------------------------------------------------------------

  /** Before `configResolved` scheduling does nothing. */
  lemma ScheduleBeforeResolve(s: Session, now: int)
    requires s.resolved.None?
    ensures Schedule(s, now) == s
  {
  }

  /** `configureServer` schedules one initial generation, the debounce delay
      later; before the options are resolved it does nothing. */
  lemma ServerSchedulesFirstRun(s: Session, now: int)
    requires Inv(s)
    ensures s.resolved.None? ==> Apply(s, ConfigureServer, now) == Run(s, [])
    ensures s.resolved.Some? ==>
      var next := Apply(s, ConfigureServer, now).session;
      next.listening &&
      Drain(next).generations == [now + EffectiveDelay(s.resolved.value.debounceMs)]
  {
  }

  /** `configResolved` stores the resolved options and leaves the timers
      alone; a server configured next waits the user's delay, or 100 ms. */
  lemma ResolvedThenServed(s: Session, options: PluginOptions, root: string, now: int)
    requires Inv(s)
    ensures var a := Apply(s, ConfigResolved(ResolvePluginOptions(options, root)), now);
      a.generations == [] && a.session.resolved == Some(ResolvePluginOptions(options, root)) &&
      a.session.queue == s.queue && a.session.handle == s.handle
    ensures var a := Apply(s, ConfigResolved(ResolvePluginOptions(options, root)), now).session;
      var b := Apply(a, ConfigureServer, now).session;
      b.listening && Drain(b).generations == [now + EffectiveDelay(options.debounceMs.GetOr(100))]
  {
    var o := ResolvePluginOptions(options, root);
    ServedAfterResolve(s, o, now);
    DebounceChoice(options, root);
  }

  lemma ServedAfterResolve(s: Session, o: ResolvedOptions, now: int)
    requires Inv(s)
    ensures var a := Apply(s, ConfigResolved(o), now);
      a.generations == [] && a.session.resolved == Some(o) &&
      a.session.queue == s.queue && a.session.handle == s.handle
    ensures var a := Apply(s, ConfigResolved(o), now).session;
      var b := Apply(a, ConfigureServer, now).session;
      b.listening && Drain(b).generations == [now + EffectiveDelay(o.debounceMs)]
  {
    var a := Apply(s, ConfigResolved(o), now).session;
    assert Inv(a);
    ServerSchedulesFirstRun(a, now);
  }

  /** The pending timer's deadline, when one is pending. */
  predicate PendingAt(s: Session, deadline: int) {
    s.handle.Some? && s.queue == map[s.handle.value := deadline]
  }

  /** The notifications of a burst: each one handled, each arriving less than
      `delay` after the one before. */
  predicate Burst(s: Session, trace: seq<Stamped>, delay: int) {
    |trace| > 0 && AllHandled(s, trace) && Spaced(trace, delay)
  }

  /** Each event of `trace` arrives less than `delay` after the one before. */
  predicate Spaced(trace: seq<Stamped>, delay: int)
    decreases |trace|
  {
    |trace| <= 1 || (trace[0].at <= trace[1].at < trace[0].at + delay && Spaced(trace[1..], delay))
  }

  /** Every event of `trace` is a change notification `shouldHandle` accepts. */
  predicate AllHandled(s: Session, trace: seq<Stamped>)
    decreases |trace|
  {
    |trace| == 0 ||
    (trace[0].event.Watch? && ShouldHandle(s, trace[0].event.path) && AllHandled(s, trace[1..]))
  }

  /** Whether a notification is handled depends only on the working
      directory and the resolved options. */
  lemma {:induction false} HandledAlike(s: Session, t: Session, trace: seq<Stamped>)
    requires AllHandled(s, trace)
    requires t.cwd == s.cwd && t.resolved == s.resolved
    ensures AllHandled(t, trace)
    decreases |trace|
  {
    if |trace| > 0 {
      HandledAlike(s, t, trace[1..]);
    }
  }

  /** During a burst nothing is generated, and afterwards one timer is
      pending, due the debounce delay after the last notification. */
  lemma BurstPostpones(s: Session, trace: seq<Stamped>)
    requires Inv(s) && s.resolved.Some? && s.listening
    requires Burst(s, trace, EffectiveDelay(s.resolved.value.debounceMs))
    requires forall id :: id in s.queue ==> trace[0].at < s.queue[id]
    ensures RunTrace(s, trace).generations == []
    ensures PendingAt(RunTrace(s, trace).session,
      trace[|trace| - 1].at + EffectiveDelay(s.resolved.value.debounceMs))
    ensures Inv(RunTrace(s, trace).session)
    ensures RunTrace(s, trace).session.resolved == s.resolved && RunTrace(s, trace).session.listening
  {
    Postpones(s, trace);
  }

  /** What a burst leaves behind: no generation, and one timer pending until
      `deadline` in a listening session with the same options. */
  predicate Postponed(r: Run, deadline: int, resolved: Option<ResolvedOptions>) {
    r.generations == [] && PendingAt(r.session, deadline) && Inv(r.session) &&
    r.session.resolved == resolved && r.session.listening
  }

  /** A listening, resolved session about to receive a burst, with no timer
      due before its first notification. */
  predicate BurstAhead(s: Session, trace: seq<Stamped>) {
    Inv(s) && s.resolved.Some? && s.listening &&
    Burst(s, trace, EffectiveDelay(s.resolved.value.debounceMs)) &&
    forall id :: id in s.queue ==> trace[0].at < s.queue[id]
  }

  /** Running `trace` from `s` postpones generation to the debounce delay
      after the last notification. */
  predicate PostponedAfter(s: Session, trace: seq<Stamped>) {
    |trace| > 0 && s.resolved.Some? &&
    Postponed(RunTrace(s, trace), trace[|trace| - 1].at + EffectiveDelay(s.resolved.value.debounceMs), s.resolved)
  }

  lemma {:induction false} Postpones(s: Session, trace: seq<Stamped>)
    requires BurstAhead(s, trace)
    ensures PostponedAfter(s, trace)
    decreases |trace|
  {
    if |trace| == 1 {
      PostponesOne(s, trace);
    } else {
      BurstRest(s, trace);
      Postpones(Schedule(s, trace[0].at), trace[1..]);
      PostponesStep(s, trace);
    }
  }

  /** A burst of one notification leaves its timer pending. */
  lemma PostponesOne(s: Session, trace: seq<Stamped>)
    requires BurstAhead(s, trace) && |trace| == 1
    ensures PostponedAfter(s, trace)
  {
    var next := Schedule(s, trace[0].at);
    BurstFirst(s, trace);
    Rescheduled(s, trace[0].at);
    assert RunTrace(next, trace[1..]) == Run(next, []);
  }

  /** After its first notification, the rest of a burst is a burst from
      the rescheduled session. */
  lemma BurstRest(s: Session, trace: seq<Stamped>)
    requires BurstAhead(s, trace) && |trace| > 1
    ensures BurstAhead(Schedule(s, trace[0].at), trace[1..])
  {
    var next := Schedule(s, trace[0].at);
    Rescheduled(s, trace[0].at);
    BurstTail(s, next, trace, EffectiveDelay(s.resolved.value.debounceMs));
    assert trace[1..][0] == trace[1];
  }

  /** What the rest of a burst leaves behind, the whole burst leaves behind. */
  lemma PostponesStep(s: Session, trace: seq<Stamped>)
    requires BurstAhead(s, trace) && |trace| > 1
    requires PostponedAfter(Schedule(s, trace[0].at), trace[1..])
    ensures PostponedAfter(s, trace)
  {
    BurstFirst(s, trace);
    Rescheduled(s, trace[0].at);
    assert trace[1..][|trace[1..]| - 1] == trace[|trace| - 1];
  }

  /** The first notification of a burst only reschedules. */
  lemma BurstFirst(s: Session, trace: seq<Stamped>)
    requires Inv(s) && s.resolved.Some? && s.listening
    requires |trace| > 0 && trace[0].event.Watch? && ShouldHandle(s, trace[0].event.path)
    requires forall id :: id in s.queue ==> trace[0].at < s.queue[id]
    ensures RunTrace(s, trace) == RunTrace(Schedule(s, trace[0].at), trace[1..])
  {
    HandledStep(s, trace[0]);
    QuietFirst(s, trace, Schedule(s, trace[0].at));
  }

  /** A rescheduled session keeps the invariant, its options and its
      handlers, and waits for the new timer alone. */
  lemma Rescheduled(s: Session, now: int)
    requires Inv(s) && s.resolved.Some? && s.listening
    ensures var next := Schedule(s, now);
      Inv(next) && next.resolved == s.resolved && next.listening && next.cwd == s.cwd &&
      PendingAt(next, now + EffectiveDelay(s.resolved.value.debounceMs))
  {
    ScheduleKeepsInv(s, now);
    SchedulePends(s, now);
  }

  /** After scheduling, the one pending timer is the new one. */
  lemma SchedulePends(s: Session, now: int)
    requires Inv(s) && s.resolved.Some?
    ensures PendingAt(Schedule(s, now), now + EffectiveDelay(s.resolved.value.debounceMs))
  {
  }

  /** A handled notification, arriving before any timer is due, only
      reschedules. */
  lemma HandledStep(s: Session, e: Stamped)
    requires Inv(s) && s.listening
    requires e.event.Watch? && ShouldHandle(s, e.event.path)
    requires forall id :: id in s.queue ==> e.at < s.queue[id]
    ensures Step(s, e) == Run(Schedule(s, e.at), [])
  {
    assert Elapse(s, e.at) == Run(s, []);
  }

  /** A first event that generates nothing leaves the rest of the trace to
      run from the state it reaches. */
  lemma QuietFirst(s: Session, trace: seq<Stamped>, next: Session)
    requires |trace| > 0 && Step(s, trace[0]) == Run(next, [])
    ensures RunTrace(s, trace) == RunTrace(next, trace[1..])
  {
    var rest := RunTrace(next, trace[1..]);
    assert [] + rest.generations == rest.generations;
  }

  /** The rest of a burst is a burst for the rescheduled session. */
  lemma BurstTail(s: Session, next: Session, trace: seq<Stamped>, delay: int)
    requires Burst(s, trace, delay) && |trace| > 1
    requires next.cwd == s.cwd && next.resolved == s.resolved
    ensures Burst(next, trace[1..], delay)
  {
    HandledAlike(s, next, trace[1..]);
  }

  /** A burst of notifications causes exactly one generation, the debounce
      delay after the last notification. */
  lemma BurstGeneratesOnce(s: Session, trace: seq<Stamped>)
    requires Inv(s) && s.resolved.Some? && s.listening
    requires Burst(s, trace, EffectiveDelay(s.resolved.value.debounceMs))
    requires forall id :: id in s.queue ==> trace[0].at < s.queue[id]
    ensures var after := RunTrace(s, trace).session;
      RunTrace(s, trace).generations + Drain(after).generations ==
        [trace[|trace| - 1].at + EffectiveDelay(s.resolved.value.debounceMs)]
  {
    BurstPostpones(s, trace);
  }

  /** After the server closes, no timer is pending and no notification
      schedules one. */
  lemma CloseCancels(s: Session, now: int)
    requires Inv(s) && s.listening
    ensures var closed := Apply(s, Close, now).session;
      closed.queue == map[] && !closed.listening && Drain(closed).generations == []
  {
    AtMostOnePending(s);
  }

  /** A closed server stays quiet whatever files change. */
  lemma {:induction false} QuietAfterClose(s: Session, trace: seq<Stamped>)
    requires !s.listening && s.queue == map[]
    requires forall i :: 0 <= i < |trace| ==> trace[i].event.Watch? || trace[i].event.Close?
    ensures RunTrace(s, trace).generations == []
    ensures RunTrace(s, trace).session.queue == map[]
    decreases |trace|
  {
    if |trace| > 0 {
      assert Step(s, trace[0]) == Run(s, []);
      assert forall i :: 0 <= i < |trace[1..]| ==> trace[1..][i] == trace[i + 1];
      QuietAfterClose(s, trace[1..]);
    }
  }

  // ---------------------------------------------------------------------------
  // Generation and the build
  // ---------------------------------------------------------------------------

  /** `buildStart` generates at once when the options are resolved, and
      leaves the timer alone. */
  lemma BuildStartGeneratesNow(s: Session, now: int)
    ensures Apply(s, BuildStart, now).session == s
    ensures Apply(s, BuildStart, now).generations == if s.resolved.Some? then [now] else []
  {
  }

  /** A zero or negative debounce setting makes the timer wait one millisecond. */
  lemma ZeroDelayWaitsOne(options: PluginOptions, root: string)
    requires options.debounceMs.Some? && options.debounceMs.value <= 0
    ensures EffectiveDelay(ResolvePluginOptions(options, root).debounceMs) == 1
  {
  }
}

=== FILE: preview_page.dfy ===
/** The preview page texts of `src/generator/templates.ts`: the icon array
    `buildPreviewVue` embeds in the page, the fixed `main.ts` of the page,
    and the HTML document with its `toPublicPath` script address. */
module PreviewPage {
  import opened Wrappers
  import opened Text
  import opened Ordering
  import opened Paths
  import opened Naming

  /** One element of the page's `icons` array (`IconItem` of the page script). */
  datatype IconItem = IconItem(name: string, path: string, category: string)

  const RootCategory: string := "root"

  // ---------------------------------------------------------------------------
  // Category
  // ---------------------------------------------------------------------------

  /** `toCategory`: the name of the directory holding the icon, or `root`
      when the path has fewer than two non-empty pieces. Backslashes count as
      separators. */
  function ToCategory(filePath: string): (r: string)
    ensures r != ""
    ensures r == RootCategory || forall i :: 0 <= i < |r| ==> r[i] in filePath && r[i] != '/' && r[i] != '\\'
  {
    var normalized := ReplaceAll(filePath, '\\', '/');
    var parts := NonEmpty(Split(normalized, '/'));
    if |parts| < 2 then RootCategory
    else if parts[|parts| - 2] != "" then
      assert parts[|parts| - 2] in parts;
      PieceCharacters(filePath, parts[|parts| - 2]);
      parts[|parts| - 2]
    else RootCategory
  }

  /** Every character of a `/`-piece of a normalised path is a non-separator
      character of the original path. */
  lemma PieceCharacters(filePath: string, piece: string)
    requires piece in Split(ReplaceAll(filePath, '\\', '/'), '/')
    ensures forall i :: 0 <= i < |piece| ==> piece[i] in filePath && piece[i] != '/' && piece[i] != '\\'
  {
    var normalized := ReplaceAll(filePath, '\\', '/');
    var parts := Split(normalized, '/');
    var k :| 0 <= k < |parts| && parts[k] == piece;
    forall i | 0 <= i < |piece| ensures piece[i] in filePath && piece[i] != '/' && piece[i] != '\\' {
      InJoin(parts, "/", k, piece[i]);
      var j :| 0 <= j < |normalized| && normalized[j] == piece[i];
      assert piece[i] != '/';
      assert filePath[j] == piece[i];
    }
  }

  /** For a path made of plain names the category is the next-to-last name. */
  lemma CategoryOfNames(names: seq<string>)
    requires forall i :: 0 <= i < |names| ==> names[i] != "" && '/' !in names[i] && '\\' !in names[i]
    ensures ToCategory(Join(names, "/")) == if |names| < 2 then RootCategory else names[|names| - 2]
  {
    PiecesOfNames(names);
    CategoryOfPieces(Join(names, "/"), names);
  }

  /** The category is the next-to-last non-empty piece of the path. */
  lemma CategoryOfPieces(filePath: string, parts: seq<string>)
    requires parts == NonEmpty(Split(ReplaceAll(filePath, '\\', '/'), '/'))
    ensures ToCategory(filePath) == if |parts| < 2 then RootCategory else parts[|parts| - 2]
  {
  }

  /** A path joined from plain names splits back into those names. */
  lemma PiecesOfNames(names: seq<string>)
    requires forall i :: 0 <= i < |names| ==> names[i] != "" && '/' !in names[i] && '\\' !in names[i]
    ensures NonEmpty(Split(ReplaceAll(Join(names, "/"), '\\', '/'), '/')) == names
  {
    var p := Join(names, "/");
    NotInJoin(names, "/", '\\');
    assert ReplaceAll(p, '\\', '/') == p;
    if |names| == 0 {
      assert Split(p, '/') == [""];
    } else {
      SplitJoin(names, '/');
      NonEmptyIdentity(names);
    }
  }

  // ---------------------------------------------------------------------------
  // String literals of the icon array
  // ---------------------------------------------------------------------------

  /** `s.replace(/'/g, "\\'")`: every single quote preceded by a backslash. */
  function EscapeQuotes(s: string): (r: string)
    ensures |r| >= |s|
    ensures '\'' !in s ==> r == s
  {
    if |s| == 0 then ""
    else if s[0] == '\'' then "\\'" + EscapeQuotes(s[1..])
    else [s[0]] + EscapeQuotes(s[1..])
  }

  /** Text that a single-quoted literal holds unchanged: no quote, backslash
      or line break. */
  predicate Plain(s: string) {
    '\'' !in s && '\\' !in s && '\n' !in s && '\r' !in s
  }

  /** Reads the body of a single-quoted TypeScript string literal whose
      opening quote is already consumed: the value up to the closing quote,
      and the text after it. The escapes `\'` and `\\` stand for the
      character they escape; other escapes and line breaks are not read. */
  function ReadLiteral(s: string): Option<(string, string)>
  {
    if |s| == 0 || s[0] == '\n' || s[0] == '\r' then None
    else if s[0] == '\'' then Some(("", s[1..]))
    else if s[0] == '\\' then
      if |s| >= 2 && (s[1] == '\'' || s[1] == '\\') then
        match ReadLiteral(s[2..])
        case Some((v, rest)) => Some(([s[1]] + v, rest))
        case None => None
      else None
    else
      match ReadLiteral(s[1..])
      case Some((v, rest)) => Some(([s[0]] + v, rest))
      case None => None
  }

  /** Reading an escaped value back gives the value, and the literal ends at
      the quote that closes it. */
  lemma {:induction false} ReadEscaped(v: string, rest: string)
    requires '\\' !in v && '\n' !in v && '\r' !in v
    ensures ReadLiteral(EscapeQuotes(v) + "'" + rest) == Some((v, rest))
  {
    if |v| == 0 {
      assert EscapeQuotes(v) + "'" + rest == "'" + rest;
    } else {
      assert v[0] in v;
      assert forall c :: c in v[1..] ==> c in v;
      ReadEscaped(v[1..], rest);
      ReadEscapedStep(v, rest);
    }
  }

  /** A value is read back when the value without its first character is. */
  lemma ReadEscapedStep(v: string, rest: string)
    requires |v| > 0 && v[0] != '\\' && v[0] != '\n' && v[0] != '\r'
    requires ReadLiteral(EscapeQuotes(v[1..]) + "'" + rest) == Some((v[1..], rest))
    ensures ReadLiteral(EscapeQuotes(v) + "'" + rest) == Some((v, rest))
  {
    var t := EscapeQuotes(v[1..]) + "'" + rest;
    if v[0] == '\'' {
      EscapeHeadQuote(v, rest);
      ReadQuoteEscape(t, v[1..], rest);
    } else {
      EscapeHeadOther(v, rest);
      ReadOrdinary(v[0], t, v[1..], rest);
    }
    assert [v[0]] + v[1..] == v;
  }

  lemma EscapeHeadQuote(v: string, rest: string)
    requires |v| > 0 && v[0] == '\''
    ensures EscapeQuotes(v) + "'" + rest == "\\'" + (EscapeQuotes(v[1..]) + "'" + rest)
  {
    var e := EscapeQuotes(v[1..]);
    assert EscapeQuotes(v) == "\\'" + e;
    Associate("\\'", e, "'", rest);
  }

  lemma EscapeHeadOther(v: string, rest: string)
    requires |v| > 0 && v[0] != '\''
    ensures EscapeQuotes(v) + "'" + rest == [v[0]] + (EscapeQuotes(v[1..]) + "'" + rest)
  {
    var e := EscapeQuotes(v[1..]);
    assert EscapeQuotes(v) == [v[0]] + e;
    Associate([v[0]], e, "'", rest);
  }

  lemma Associate(a: string, b: string, c: string, d: string)
    ensures a + b + c + d == a + (b + c + d)
  {
  }

  /** An escaped quote is read as a quote. */
  lemma ReadQuoteEscape(t: string, v: string, rest: string)
    requires ReadLiteral(t) == Some((v, rest))
    ensures ReadLiteral("\\'" + t) == Some(("'" + v, rest))
  {
    assert ("\\'" + t)[2..] == t;
  }

  /** Any other character that is not a backslash or line break is read as itself. */
  lemma ReadOrdinary(c: char, t: string, v: string, rest: string)
    requires c != '\'' && c != '\\' && c != '\n' && c != '\r'
    requires ReadLiteral(t) == Some((v, rest))
    ensures ReadLiteral([c] + t) == Some(([c] + v, rest))
  {
    assert ([c] + t)[1..] == t;
  }

  /** A plain value is read back as written. */
  lemma ReadPlain(v: string, rest: string)
    requires Plain(v)
    ensures ReadLiteral(v + "'" + rest) == Some((v, rest))
  {
    ReadEscaped(v, rest);
  }

  /** A name or path holding a quote is not escaped: the literal ends at
      that quote, and what is read is the text before it. */
  lemma UnescapedQuoteCutsValue(a: string, b: string, rest: string)
    requires Plain(a)
    ensures ReadLiteral(a + "'" + b + "'" + rest) == Some((a, b + "'" + rest))
  {
    assert a + "'" + b + "'" + rest == a + "'" + (b + "'" + rest);
    ReadPlain(a, b + "'" + rest);
  }

  // ---------------------------------------------------------------------------
  // The icon array
  // ---------------------------------------------------------------------------

  const NameOpen: string := "  { name: '"
  const PathOpen: string := ", path: '"
  const CategoryOpen: string := ", category: '"
  const EntryClose: string := " },"
  const EmptyArray: string := "[] as const"
  const ArrayClose: string := "] as const"

  /** `value` followed by the quote that closes its literal, then `next`. */
  function Quoted(value: string, next: string): string {
    value + "'" + next
  }

  /** The array line of one icon: its name, its path and its escaped category. */
  function EntryLine(e: IconEntry): string {
    NameOpen + Quoted(e.name, PathOpen + Quoted(e.path, CategoryOpen +
      Quoted(EscapeQuotes(ToCategory(e.path)), EntryClose)))
  }

  function EntryLines(entries: seq<IconEntry>): (lines: seq<string>)
    ensures |lines| == |entries|
    ensures forall i :: 0 <= i < |entries| ==> lines[i] == EntryLine(entries[i])
  {
    if |entries| == 0 then [] else [EntryLine(entries[0])] + EntryLines(entries[1..])
  }

  /** `iconArray`: an empty array, or one line per icon between brackets. */
  function IconArray(sorted: seq<IconEntry>): (r: string)
    ensures r == EmptyArray <==> |sorted| == 0
  {
    if |sorted| == 0 then EmptyArray
    else
      var joined := Join(EntryLines(sorted), "\n");
      assert ("[\n" + joined + "\n" + ArrayClose)[1] == '\n';
      "[\n" + joined + "\n" + ArrayClose
  }

  /** The item the page script sees for an icon. */
  function ItemOf(e: IconEntry): IconItem {
    IconItem(e.name, e.path, ToCategory(e.path))
  }

  function ItemsOf(entries: seq<IconEntry>): (items: seq<IconItem>)
    ensures |items| == |entries|
    ensures forall i :: 0 <= i < |entries| ==> items[i] == ItemOf(entries[i])
  {
    if |entries| == 0 then [] else [ItemOf(entries[0])] + ItemsOf(entries[1..])
  }

  /** Reads one array line back. */
  function ParseEntryLine(line: string): Option<IconItem> {
    if !StartsWith(line, NameOpen) then None
    else match ReadLiteral(line[|NameOpen|..])
    case None => None
    case Some((name, r1)) =>
      if !StartsWith(r1, PathOpen) then None
      else match ReadLiteral(r1[|PathOpen|..])
      case None => None
      case Some((path, r2)) =>
        if !StartsWith(r2, CategoryOpen) then None
        else match ReadLiteral(r2[|CategoryOpen|..])
        case None => None
        case Some((category, r3)) =>
          if r3 == EntryClose then Some(IconItem(name, path, category)) else None
  }

  function ParseEntryLines(lines: seq<string>): Option<seq<IconItem>> {
    if |lines| == 0 then Some([])
    else match (ParseEntryLine(lines[0]), ParseEntryLines(lines[1..]))
    case (Some(item), Some(items)) => Some([item] + items)
    case _ => None
  }

  /** Reads the array literal back into the items it lists. */
  function ParseIconArray(text: string): Option<seq<IconItem>> {
    if text == EmptyArray then Some([])
    else
      var lines := Split(text, '\n');
      if |lines| >= 3 && lines[0] == "[" && lines[|lines| - 1] == ArrayClose
      then ParseEntryLines(lines[1..|lines| - 1])
      else None
  }

  /** An icon whose name and path are plain is read back with its category. */
  lemma ParseEntry(e: IconEntry)
    requires Plain(e.name) && Plain(e.path)
    ensures ParseEntryLine(EntryLine(e)) == Some(ItemOf(e))
  {
    var c := ToCategory(e.path);
    assert '\\' !in c && '\n' !in c && '\r' !in c;
    var t3 := Quoted(EscapeQuotes(c), EntryClose);
    var t2 := Quoted(e.path, CategoryOpen + t3);
    var t1 := Quoted(e.name, PathOpen + t2);
    ReadEscaped(c, EntryClose);
    ReadPlain(e.path, CategoryOpen + t3);
    ReadPlain(e.name, PathOpen + t2);
    assert (NameOpen + t1)[|NameOpen|..] == t1;
    assert (PathOpen + t2)[|PathOpen|..] == t2;
    assert (CategoryOpen + t3)[|CategoryOpen|..] == t3;
  }

  lemma {:induction false} ParseEntries(entries: seq<IconEntry>)
    requires forall i :: 0 <= i < |entries| ==> Plain(entries[i].name) && Plain(entries[i].path)
    ensures ParseEntryLines(EntryLines(entries)) == Some(ItemsOf(entries))
  {
    if |entries| > 0 {
      ParseEntry(entries[0]);
      ParseEntries(entries[1..]);
      assert EntryLines(entries)[1..] == EntryLines(entries[1..]);
    }
  }

  /** No array line holds a line break. */
  lemma EntryLinesUnbroken(entries: seq<IconEntry>)
    requires forall i :: 0 <= i < |entries| ==> Plain(entries[i].name) && Plain(entries[i].path)
    ensures forall i :: 0 <= i < |EntryLines(entries)| ==> '\n' !in EntryLines(entries)[i]
  {
    forall i | 0 <= i < |entries| ensures '\n' !in EntryLine(entries[i]) {
      EntryLineUnbroken(entries[i]);
    }
  }

  lemma EntryLineUnbroken(e: IconEntry)
    requires Plain(e.name) && Plain(e.path)
    ensures '\n' !in EntryLine(e)
  {
    var c := ToCategory(e.path);
    assert '\n' !in c;
    EscapeKeepsLineBreakFree(c);
    FramesUnbroken();
    var tail := Quoted(EscapeQuotes(c), EntryClose);
    QuotedUnbroken(EscapeQuotes(c), EntryClose);
    var middle := Quoted(e.path, CategoryOpen + tail);
    QuotedUnbroken(e.path, CategoryOpen + tail);
    QuotedUnbroken(e.name, PathOpen + middle);
  }

  lemma FramesUnbroken()
    ensures '\n' !in NameOpen && '\n' !in PathOpen && '\n' !in CategoryOpen && '\n' !in EntryClose
  {
  }

  lemma QuotedUnbroken(value: string, next: string)
    requires '\n' !in value && '\n' !in next
    ensures '\n' !in Quoted(value, next)
  {
  }

  lemma {:induction false} EscapeKeepsLineBreakFree(s: string)
    requires '\n' !in s
    ensures '\n' !in EscapeQuotes(s)
  {
    if |s| > 0 {
      EscapeKeepsLineBreakFree(s[1..]);
    }
  }

  /** The array text is its lines framed by `[` and `] as const`. */
  lemma ArrayLines(lines: seq<string>)
    requires |lines| >= 1
    ensures "[\n" + Join(lines, "\n") + "\n" + ArrayClose == Join(["["] + lines + [ArrayClose], "\n")
  {
    FrameLines("[", lines, ArrayClose, "\n");
    assert "[\n" == "[" + "\n";
  }

  lemma FrameLines(o: string, lines: seq<string>, c: string, sep: string)
    requires |lines| >= 1
    ensures o + sep + Join(lines, sep) + sep + c == Join([o] + lines + [c], sep)
  {
    JoinAppend([o], lines, sep);
    JoinAppend([o] + lines, [c], sep);
  }

  /** Reading the array back lists every icon, in the order given, with its
      category. */
  lemma IconArrayRoundTrip(sorted: seq<IconEntry>)
    requires forall i :: 0 <= i < |sorted| ==> Plain(sorted[i].name) && Plain(sorted[i].path)
    ensures ParseIconArray(IconArray(sorted)) == Some(ItemsOf(sorted))
  {
    if |sorted| > 0 {
      EntryLinesUnbroken(sorted);
      ParseFramed(EntryLines(sorted));
      ParseEntries(sorted);
    }
  }

  /** Lines without line breaks, framed as an array, are read back as lines. */
  lemma ParseFramed(lines: seq<string>)
    requires |lines| >= 1
    requires forall i :: 0 <= i < |lines| ==> '\n' !in lines[i]
    ensures ParseIconArray("[\n" + Join(lines, "\n") + "\n" + ArrayClose) == ParseEntryLines(lines)
  {
    var text := "[\n" + Join(lines, "\n") + "\n" + ArrayClose;
    ArrayLines(lines);
    BracketsUnbroken();
    SplitFramed("[", lines, ArrayClose);
    NotEmptyArray(Join(lines, "\n"));
    ParseSplit(text, lines);
  }

  lemma BracketsUnbroken()
    ensures '\n' !in "[" && '\n' !in ArrayClose
  {
  }

  /** Text that splits into the bracket lines around `lines` reads as the entries of `lines`. */
  lemma ParseSplit(text: string, lines: seq<string>)
    requires |lines| >= 1 && text != EmptyArray && Split(text, '\n') == ["["] + lines + [ArrayClose]
    ensures ParseIconArray(text) == ParseEntryLines(lines)
  {
    var framed := ["["] + lines + [ArrayClose];
    assert framed[1..|framed| - 1] == lines;
  }

  lemma NotEmptyArray(joined: string)
    ensures "[\n" + joined + "\n" + ArrayClose != EmptyArray
  {
    assert ("[\n" + joined + "\n" + ArrayClose)[1] == '\n';
  }

  lemma SplitFramed(o: string, lines: seq<string>, c: string)
    requires '\n' !in o && '\n' !in c
    requires forall i :: 0 <= i < |lines| ==> '\n' !in lines[i]
    ensures Split(Join([o] + lines + [c], "\n"), '\n') == [o] + lines + [c]
    ensures ([o] + lines + [c])[1..|lines| + 1] == lines
  {
    var framed := [o] + lines + [c];
    forall i | 0 <= i < |framed| ensures '\n' !in framed[i] {
      if 0 < i < |framed| - 1 {
        assert framed[i] == lines[i - 1];
      }
    }
    SplitJoin(framed, '\n');
    assert framed[1..|lines| + 1] == lines;
  }

  // ---------------------------------------------------------------------------
  // The page
  // ---------------------------------------------------------------------------

  /** The page text before and after the embedded array; the rest of the
      markup, script and style is fixed text outside this model. */
  const PageHead: string := "const icons: readonly IconItem[] = "
  const PageTail: string := ";\n"

  /** `sort((a, b) => a.name.localeCompare(b.name))`, with the locale order
      `le` as a parameter. */
  function ByName(le: (string, string) -> bool): (IconEntry, IconEntry) -> bool {
    (a: IconEntry, b: IconEntry) => le(a.name, b.name)
  }

  lemma ByNamePreorder(le: (string, string) -> bool)
    requires TotalPreorder(le)
    ensures TotalPreorder(ByName(le))
  {
    var cmp := ByName(le);
    forall a: IconEntry, b: IconEntry ensures cmp(a, b) || cmp(b, a) {
      assert le(a.name, b.name) || le(b.name, a.name);
    }
    forall a: IconEntry, b: IconEntry, c: IconEntry | cmp(a, b) && cmp(b, c) ensures cmp(a, c) {
      assert le(a.name, b.name) && le(b.name, c.name);
    }
  }

  /** `buildPreviewVue(entries)`: the page embedding the icons ordered by name. */
  function BuildPreviewVue(entries: seq<IconEntry>, le: (string, string) -> bool): (page: string)
    ensures (forall i :: 0 <= i < |entries| ==> Plain(entries[i].name) && Plain(entries[i].path)) ==>
      IconsOfPage(page) == Some(ItemsOf(Sort(entries, ByName(le))))
  {
    var sorted := Sort(entries, ByName(le));
    if forall i :: 0 <= i < |entries| ==> Plain(entries[i].name) && Plain(entries[i].path) then
      SortKeepsPlain(entries, ByName(le));
      IconArrayRoundTrip(sorted);
      PageFrame(IconArray(sorted));
      PageHead + IconArray(sorted) + PageTail
    else
      PageHead + IconArray(sorted) + PageTail
  }

  /** The items the page's `icons` constant holds. */
  function IconsOfPage(page: string): Option<seq<IconItem>> {
    if |page| >= |PageHead| + |PageTail| && StartsWith(page, PageHead) && EndsWith(page, PageTail)
    then ParseIconArray(page[|PageHead|..|page| - |PageTail|])
    else None
  }

  /** The page lists every icon once per occurrence, ordered by name, each
      with the category of its path. */
  lemma PreviewListsEveryIcon(entries: seq<IconEntry>, le: (string, string) -> bool)
    requires forall i :: 0 <= i < |entries| ==> Plain(entries[i].name) && Plain(entries[i].path)
    ensures IconsOfPage(BuildPreviewVue(entries, le)).Some?
    ensures var items := IconsOfPage(BuildPreviewVue(entries, le)).value;
      var sorted := Sort(entries, ByName(le));
      |items| == |entries| && multiset(sorted) == multiset(entries) &&
      (forall i :: 0 <= i < |items| ==> items[i] == ItemOf(sorted[i])) &&
      (TotalPreorder(le) ==> forall i, j :: 0 <= i < j < |items| ==> le(items[i].name, items[j].name))
  {
    if TotalPreorder(le) {
      ByNamePreorder(le);
    }
  }

  lemma SortKeepsPlain(entries: seq<IconEntry>, le: (IconEntry, IconEntry) -> bool)
    requires forall i :: 0 <= i < |entries| ==> Plain(entries[i].name) && Plain(entries[i].path)
    ensures forall i :: 0 <= i < |Sort(entries, le)| ==>
      Plain(Sort(entries, le)[i].name) && Plain(Sort(entries, le)[i].path)
  {
    var sorted := Sort(entries, le);
    forall i | 0 <= i < |sorted| ensures Plain(sorted[i].name) && Plain(sorted[i].path) {
      assert sorted[i] in multiset(entries);
    }
  }

  /** The array is found again between the head and the tail of the page. */
  lemma PageFrame(text: string)
    ensures |PageHead + text + PageTail| >= |PageHead| + |PageTail|
    ensures StartsWith(PageHead + text + PageTail, PageHead)
    ensures EndsWith(PageHead + text + PageTail, PageTail)
    ensures (PageHead + text + PageTail)[|PageHead|..|PageHead + text + PageTail| - |PageTail|] == text
  {
    var page := PageHead + text + PageTail;
    assert page[..|PageHead|] == PageHead;
    assert page[|page| - |PageTail|..] == PageTail;
  }

  // ---------------------------------------------------------------------------
  // main.ts and the HTML document
  // ---------------------------------------------------------------------------

  /** The module specifier under which `main.ts` imports the page. */
  const PreviewImport: string := "./generated-preview.vue"

  /** `buildPreviewMain()`: registers the sprite and mounts the page on `#app`. */
  function BuildPreviewMain(): (r: string)
    ensures Contains(r, "import Preview from '" + PreviewImport + "';")
    ensures Contains(r, "mount('#app')")
  {
    var a := "import { createApp } from 'vue';\nimport 'virtual:svg-icons-register';\n";
    var b := "import Preview from '" + PreviewImport + "';";
    var c := "\n\ncreateApp(Preview).";
    var d := "mount('#app')";
    var e := ";\n";
    assert OccursAt(a + b + c + d + e, b, |a|);
    assert OccursAt(a + b + c + d + e, d, |a + b + c|);
    a + b + c + d + e
  }

  /** `rel.replace(/\\\\/g, "/")`: each PAIR of backslashes becomes `/`,
      scanning from the left; a single backslash is kept. */
  function ReplaceBackslashPairs(s: string): (r: string)
    ensures '\\' !in s ==> r == s
    ensures |r| <= |s|
  {
    if |s| == 0 then ""
    else if |s| >= 2 && s[0] == '\\' && s[1] == '\\' then "/" + ReplaceBackslashPairs(s[2..])
    else [s[0]] + ReplaceBackslashPairs(s[1..])
  }

  /** A lone backslash survives, a doubled one turns into `/`. */
  lemma BackslashPairExamples()
    ensures ReplaceBackslashPairs("a\\b") == "a\\b"
    ensures ReplaceBackslashPairs("a\\\\b") == "a/b"
  {
    assert ReplaceBackslashPairs("b") == "b";
    assert "a\\b"[1..] == "\\b" && "\\b"[1..] == "b";
    assert "a\\\\b"[1..] == "\\\\b" && "\\\\b"[2..] == "b";
  }

  /** `toPublicPath(filePath, root)`: the file relative to `root`, rooted at `/`. */
  function ToPublicPath(filePath: string, root: string): (r: string)
    ensures StartsWith(r, "/")
  {
    var rel := ReplaceBackslashPairs(Relative(root, filePath));
    if StartsWith(rel, "/") then rel else "/" + rel
  }

  /** A file below the root is served at its path below the root. */
  lemma PublicPathBelowRoot(root: string, filePath: string, names: seq<string>)
    requires Segments(filePath) == Segments(root) + names
    requires forall i :: 0 <= i < |names| ==> '\\' !in names[i]
    ensures ToPublicPath(filePath, root) == Render(names)
  {
    RelativeBelow(root, filePath, names);
    NotInJoin(names, "/", '\\');
    var rel := Join(names, "/");
    if |names| > 0 {
      assert AllEntryNames(Segments(filePath));
      assert names[0] == Segments(filePath)[|Segments(root)|];
      JoinHead(names, "/");
      assert rel[0] != '/';
    } else {
      assert rel == "";
    }
  }

  const HtmlHead: string :=
    "<!doctype html>\n<html lang=\"zh-CN\">\n  <head>\n    <meta charset=\"UTF-8\" />\n" +
    "    <meta name=\"viewport\" content=\"width=device-width, initial-scale=1.0\" />\n" +
    "    <title>SVG Icon Preview</title>\n  </head>\n  <body>\n    <div id=\"app\"></div>\n" +
    "    <script type=\"module\" src=\""
  const HtmlTail: string := "\"></script>\n  </body>\n</html>\n"

  /** `buildPreviewHtml(previewMainFile, root)`. */
  function BuildPreviewHtml(previewMainFile: string, root: string): (html: string)
    ensures ScriptSource(html) == Some(ToPublicPath(previewMainFile, root))
  {
    var src := ToPublicPath(previewMainFile, root);
    var html := HtmlHead + src + HtmlTail;
    assert html[..|HtmlHead|] == HtmlHead;
    assert html[|html| - |HtmlTail|..] == HtmlTail;
    assert html[|HtmlHead|..|html| - |HtmlTail|] == src;
    html
  }

  /** The `src` of the document's module script. */
  function ScriptSource(html: string): Option<string> {
    if |html| >= |HtmlHead| + |HtmlTail| && StartsWith(html, HtmlHead) && EndsWith(html, HtmlTail)
    then Some(html[|HtmlHead|..|html| - |HtmlTail|])
    else None
  }
}

=== FILE: preview_script.dfy ===
/** The list logic of the script embedded in the preview page
    (`src/generator/templates.ts`): the keyword filter, the grouping by
    category with the `root` group first, and the rotation control. */
module PreviewScript {
  import opened Wrappers
  import opened Text
  import opened Ordering
  import opened PreviewPage

  // ---------------------------------------------------------------------------
  // Keyword filter
  // ---------------------------------------------------------------------------

  /** An icon matches a lower-cased keyword when its lower-cased name or
      path contains it. `lower` is `String.prototype.toLowerCase`, whose
      full Unicode case mapping is a parameter of the model. */
  predicate Matches(item: IconItem, kw: string, lower: string -> string) {
    Contains(lower(item.name), kw) || Contains(lower(item.path), kw)
  }

  /** `a` is `b` with some elements left out, the rest in their order. */
  ghost predicate IsSubsequence<T>(a: seq<T>, b: seq<T>)
    decreases |b|
  {
    |a| == 0 || (|b| > 0 && ((a[0] == b[0] && IsSubsequence(a[1..], b[1..])) || IsSubsequence(a, b[1..])))
  }

  /** `icons.filter(item => matches(item, kw))`. */
  function KeepMatching(icons: seq<IconItem>, kw: string, lower: string -> string): (r: seq<IconItem>)
    ensures forall x :: x in r <==> x in icons && Matches(x, kw, lower)
    ensures forall x :: multiset(r)[x] == if Matches(x, kw, lower) then multiset(icons)[x] else 0
  {
    if |icons| == 0 then []
    else
      assert icons == [icons[0]] + icons[1..];
      (if Matches(icons[0], kw, lower) then [icons[0]] else []) + KeepMatching(icons[1..], kw, lower)
  }

  lemma {:induction false} KeepMatchingIsSubsequence(icons: seq<IconItem>, kw: string, lower: string -> string)
    ensures IsSubsequence(KeepMatching(icons, kw, lower), icons)
  {
    if |icons| > 0 {
      KeepMatchingIsSubsequence(icons[1..], kw, lower);
      var rest := KeepMatching(icons[1..], kw, lower);
      if Matches(icons[0], kw, lower) {
        assert KeepMatching(icons, kw, lower) == [icons[0]] + rest;
        assert ([icons[0]] + rest)[1..] == rest;
      } else {
        assert KeepMatching(icons, kw, lower) == rest;
      }
    }
  }

  /** The trimmed, lower-cased keyword the filter uses. */
  function Keyword(keyword: string, lower: string -> string): string {
    lower(Trim(keyword))
  }

  /** `filteredIcons`: all icons for a blank keyword, otherwise the
      matching ones. */
  function FilteredIcons(icons: seq<IconItem>, keyword: string, lower: string -> string): (r: seq<IconItem>)
    ensures Keyword(keyword, lower) == "" ==> r == icons
    ensures Keyword(keyword, lower) != "" ==> forall x :: x in r <==> x in icons && Matches(x, Keyword(keyword, lower), lower)
    ensures forall x :: multiset(r)[x] <= multiset(icons)[x]
  {
    var kw := Keyword(keyword, lower);
    if kw == "" then icons else KeepMatching(icons, kw, lower)
  }

  /** The filter keeps the page order. */
  lemma FilteredIsSubsequence(icons: seq<IconItem>, keyword: string, lower: string -> string)
    ensures IsSubsequence(FilteredIcons(icons, keyword, lower), icons)
  {
    var kw := Keyword(keyword, lower);
    if kw == "" {
      SubsequenceOfItself(icons);
    } else {
      KeepMatchingIsSubsequence(icons, kw, lower);
    }
  }

  lemma {:induction false} SubsequenceOfItself<T>(s: seq<T>)
    ensures IsSubsequence(s, s)
  {
    if |s| > 0 {
      SubsequenceOfItself(s[1..]);
    }
  }

  /** A keyword of white space alone keeps every icon, `toLowerCase`
      leaving the empty text empty. */
  lemma BlankKeywordKeepsAll(icons: seq<IconItem>, keyword: string, lower: string -> string)
    requires lower("") == ""
    requires forall i :: 0 <= i < |keyword| ==> IsWhiteSpace(keyword[i])
    ensures FilteredIcons(icons, keyword, lower) == icons
  {
  }

  /** Case is folded beyond ASCII: where `toLowerCase` maps `Ä` to `ä`, the
      keyword `ä` finds the icon `Ä`. */
  lemma UnicodeCaseFolded(lower: string -> string)
    requires lower("Ä") == "ä" && lower("ä") == "ä"
    ensures FilteredIcons([IconItem("Ä", "Ä.svg", "")], "ä", lower) == [IconItem("Ä", "Ä.svg", "")]
  {
    var item := IconItem("Ä", "Ä.svg", "");
    assert Trim("ä") == "ä";
    assert OccursAt("ä", "ä", 0);
    assert Matches(item, "ä", lower);
  }

  // ---------------------------------------------------------------------------
  // Grouping
  // ---------------------------------------------------------------------------

  datatype Group = Group(category: string, items: seq<IconItem>)

  /** `item.category || 'root'`. */
  function GroupKey(item: IconItem): (k: string)
    ensures k != ""
  {
    if item.category == "" then RootCategory else item.category
  }

  /** The items of `items` with group key `k`, in order. */
  function WithKey(items: seq<IconItem>, k: string): (r: seq<IconItem>)
    ensures forall x :: x in r <==> x in items && GroupKey(x) == k
  {
    if |items| == 0 then []
    else
      var last := items[|items| - 1];
      assert items == items[..|items| - 1] + [last];
      WithKey(items[..|items| - 1], k) + (if GroupKey(last) == k then [last] else [])
  }

  function Categories(groups: seq<Group>): (r: seq<string>)
    ensures |r| == |groups|
    ensures forall i :: 0 <= i < |groups| ==> r[i] == groups[i].category
  {
    if |groups| == 0 then [] else [groups[0].category] + Categories(groups[1..])
  }

  ghost predicate Distinct<T>(s: seq<T>) {
    forall i, j :: 0 <= i < j < |s| ==> s[i] != s[j]
  }

  /** The index of the group of category `k`, if there is one. */
  function FindGroup(groups: seq<Group>, k: string): (r: int)
    ensures -1 <= r < |groups|
    ensures r >= 0 ==> groups[r].category == k
    ensures r < 0 ==> forall i :: 0 <= i < |groups| ==> groups[i].category != k
  {
    if |groups| == 0 then -1
    else if groups[|groups| - 1].category == k then |groups| - 1
    else FindGroup(groups[..|groups| - 1], k)
  }

  /** The properties every object inherits from `Object.prototype`. None is
      `null` or `undefined`, so `groups[cat] ??= []` keeps the inherited
      value for such a key, and `.push` is not a function on it. */
  const InheritedNames: set<string> := {
    "constructor", "hasOwnProperty", "isPrototypeOf", "propertyIsEnumerable",
    "toLocaleString", "toString", "valueOf", "__proto__",
    "__defineGetter__", "__defineSetter__", "__lookupGetter__", "__lookupSetter__"
  }

  /** `(groups[cat] ??= []).push(item)` for a key that is not inherited. */
  function AddToGroups(groups: seq<Group>, item: IconItem): seq<Group> {
    var k := GroupKey(item);
    var at := FindGroup(groups, k);
    if at < 0 then groups + [Group(k, [item])]
    else groups[at := Group(k, groups[at].items + [item])]
  }

  /** The groups in the order their categories first occur, or `None` for
      the TypeError the page throws at the first item whose key is inherited. */
  function CollectGroups(items: seq<IconItem>): (r: Option<seq<Group>>)
    ensures r.None? <==> exists i :: 0 <= i < |items| && GroupKey(items[i]) in InheritedNames
  {
    if |items| == 0 then Some([])
    else
      var init, x := items[..|items| - 1], items[|items| - 1];
      assert forall i :: 0 <= i < |init| ==> init[i] == items[i];
      match CollectGroups(init)
      case None => None
      case Some(groups) => if GroupKey(x) in InheritedNames then None else Some(AddToGroups(groups, x))
  }

  /** Each group holds exactly the items of its category, in order. */
  ghost predicate ItemsByKey(groups: seq<Group>, items: seq<IconItem>) {
    forall i :: 0 <= i < |groups| ==> groups[i].items == WithKey(items, groups[i].category)
  }

  /** Every item has the group of its category. */
  ghost predicate Covers(groups: seq<Group>, items: seq<IconItem>) {
    forall x :: x in items ==> exists i :: 0 <= i < |groups| && groups[i].category == GroupKey(x)
  }

  /** What a collection of groups for `items` looks like: one group per key
      occurring in `items`, holding exactly the items with that key, in order. */
  ghost predicate GroupsOf(groups: seq<Group>, items: seq<IconItem>) {
    Distinct(Categories(groups)) && ItemsByKey(groups, items) && Covers(groups, items) &&
    (forall i :: 0 <= i < |groups| ==> groups[i].items != [])
  }

  lemma {:induction false} CollectGroupsCorrect(items: seq<IconItem>)
    ensures CollectGroups(items).Some? ==> GroupsOf(CollectGroups(items).value, items)
  {
    if |items| > 0 && CollectGroups(items).Some? {
      var init := items[..|items| - 1];
      CollectGroupsCorrect(init);
      AddKeepsGroups(CollectGroups(init).value, items);
    }
  }

  /** A category named after an inherited property makes the page throw. */
  lemma InheritedCategoryThrows(le: (string, string) -> bool)
    ensures GroupedIcons([IconItem("a", "constructor/a.svg", "constructor")], le) == None
  {
    var items := [IconItem("a", "constructor/a.svg", "constructor")];
    assert GroupKey(items[0]) in InheritedNames;
  }

  lemma AddKeepsGroups(groups: seq<Group>, items: seq<IconItem>)
    requires |items| > 0 && GroupsOf(groups, items[..|items| - 1])
    ensures GroupsOf(AddToGroups(groups, items[|items| - 1]), items)
  {
    var init := items[..|items| - 1];
    var x := items[|items| - 1];
    assert init + [x] == items;
    AddKeepsItems(groups, init, x);
    AddKeepsDistinct(groups, x);
    AddCovers(groups, init, x);
    AddKeepsNonEmpty(groups, x);
  }

  lemma WithKeySnoc(init: seq<IconItem>, x: IconItem, k: string)
    ensures WithKey(init + [x], k) == WithKey(init, k) + (if GroupKey(x) == k then [x] else [])
  {
    assert (init + [x])[..|init + [x]| - 1] == init;
  }

  /** No item has a key without a group. */
  lemma WithKeyEmpty(init: seq<IconItem>, k: string)
    requires forall y :: y in init ==> GroupKey(y) != k
    ensures WithKey(init, k) == []
  {
    if WithKey(init, k) != [] {
      assert WithKey(init, k)[0] in WithKey(init, k);
    }
  }

  lemma AddKeepsItems(groups: seq<Group>, init: seq<IconItem>, x: IconItem)
    requires Distinct(Categories(groups)) && ItemsByKey(groups, init) && Covers(groups, init)
    ensures ItemsByKey(AddToGroups(groups, x), init + [x])
  {
    var k := GroupKey(x);
    var at := FindGroup(groups, k);
    var r := AddToGroups(groups, x);
    forall i | 0 <= i < |r| ensures r[i].items == WithKey(init + [x], r[i].category) {
      if at < 0 && i == |groups| {
        AddedGroup(groups, init, x);
      } else if i == at {
        WithKeySnoc(init, x, k);
      } else {
        OtherGroup(groups, init, x, i);
      }
    }
  }

  lemma AddedGroup(groups: seq<Group>, init: seq<IconItem>, x: IconItem)
    requires Covers(groups, init)
    requires FindGroup(groups, GroupKey(x)) < 0
    ensures WithKey(init + [x], GroupKey(x)) == [x]
  {
    var k := GroupKey(x);
    forall y | y in init ensures GroupKey(y) != k {
      var p :| 0 <= p < |groups| && groups[p].category == GroupKey(y);
    }
    WithKeyEmpty(init, k);
    WithKeySnoc(init, x, k);
  }

  lemma OtherGroup(groups: seq<Group>, init: seq<IconItem>, x: IconItem, i: nat)
    requires Distinct(Categories(groups)) && ItemsByKey(groups, init)
    requires i < |groups| && i != FindGroup(groups, GroupKey(x))
    ensures AddToGroups(groups, x)[i] == groups[i]
    ensures groups[i].items == WithKey(init + [x], groups[i].category)
  {
    var k := GroupKey(x);
    var at := FindGroup(groups, k);
    if at >= 0 {
      assert Categories(groups)[i] != Categories(groups)[at] by {
        if i < at {
          assert Categories(groups)[i] != Categories(groups)[at];
        } else {
          assert Categories(groups)[at] != Categories(groups)[i];
        }
      }
    }
    assert groups[i].category != k;
    WithKeySnoc(init, x, groups[i].category);
  }

  lemma AddCategories(groups: seq<Group>, x: IconItem)
    ensures var at := FindGroup(groups, GroupKey(x));
      Categories(AddToGroups(groups, x)) ==
        if at < 0 then Categories(groups) + [GroupKey(x)] else Categories(groups)
  {
  }

  lemma AddKeepsDistinct(groups: seq<Group>, x: IconItem)
    requires Distinct(Categories(groups))
    ensures Distinct(Categories(AddToGroups(groups, x)))
  {
    var k := GroupKey(x);
    var cs := Categories(groups);
    AddCategories(groups, x);
    if FindGroup(groups, k) < 0 {
      var ds := cs + [k];
      forall i, j | 0 <= i < j < |ds| ensures ds[i] != ds[j] {
        if j < |cs| {
          assert ds[i] == cs[i] && ds[j] == cs[j];
        } else {
          assert ds[i] == groups[i].category;
        }
      }
    }
  }

  lemma AddCovers(groups: seq<Group>, init: seq<IconItem>, x: IconItem)
    requires Covers(groups, init)
    ensures Covers(AddToGroups(groups, x), init + [x])
  {
    var k := GroupKey(x);
    var at := FindGroup(groups, k);
    var r := AddToGroups(groups, x);
    forall y | y in init + [x] ensures exists i :: 0 <= i < |r| && r[i].category == GroupKey(y) {
      if y in init {
        var i :| 0 <= i < |groups| && groups[i].category == GroupKey(y);
        assert r[i].category == GroupKey(y);
      } else if at < 0 {
        assert r[|groups|].category == GroupKey(y);
      } else {
        assert r[at].category == GroupKey(y);
      }
    }
  }

  lemma AddKeepsNonEmpty(groups: seq<Group>, x: IconItem)
    requires forall i :: 0 <= i < |groups| ==> groups[i].items != []
    ensures var r := AddToGroups(groups, x);
      forall i :: 0 <= i < |r| ==> r[i].items != []
  {
    var at := FindGroup(groups, GroupKey(x));
    var r := AddToGroups(groups, x);
    forall i | 0 <= i < |r| ensures r[i].items != [] {
      if i < |groups| && i != at {
        assert r[i] == groups[i];
      }
    }
  }

  /** `a.localeCompare(b) <= 0` lifted to groups, with `root` first: the
      comparator of the groups. */
  function GroupOrder(le: (string, string) -> bool): (cmp: (Group, Group) -> bool)
    ensures TotalPreorder(le) ==> TotalPreorder(cmp)
    ensures forall a: Group, b: Group :: a.category == RootCategory ==> cmp(a, b)
  {
    var cmp := (a: Group, b: Group) => a.category == RootCategory || (b.category != RootCategory && le(a.category, b.category));
    RootFirstPreorder(le, cmp);
    cmp
  }

  lemma RootFirstPreorder(le: (string, string) -> bool, cmp: (Group, Group) -> bool)
    requires forall a: Group, b: Group :: cmp(a, b) == (a.category == RootCategory || (b.category != RootCategory && le(a.category, b.category)))
    ensures TotalPreorder(le) ==> TotalPreorder(cmp)
  {
    if TotalPreorder(le) {
      forall a: Group, b: Group ensures cmp(a, b) || cmp(b, a) {
        assert le(a.category, b.category) || le(b.category, a.category);
      }
      forall a: Group, b: Group, c: Group | cmp(a, b) && cmp(b, c) ensures cmp(a, c) {
        if a.category != RootCategory {
          assert le(a.category, b.category) && le(b.category, c.category);
        }
      }
    }
  }

  // ---------------------------------------------------------------------------
  // The order of `Object.entries`
  // ---------------------------------------------------------------------------

  /** An array index: the canonical decimal numeral of a whole number below
      2^32 - 1. An object lists such keys first, in ascending numeric order,
      and its other string keys after them, in insertion order. */
  predicate IsArrayIndex(k: string) {
    |k| > 0 && AllDigits(k) && (k[0] != '0' || |k| == 1) && NumeralValue(k, 10) < 0xFFFF_FFFF
  }

  /** The groups keyed by an array index, in insertion order. */
  function IndexGroups(groups: seq<Group>): (r: seq<Group>)
    ensures forall g :: multiset(r)[g] == if IsArrayIndex(g.category) then multiset(groups)[g] else 0
  {
    if |groups| == 0 then []
    else
      assert groups == [groups[0]] + groups[1..];
      (if IsArrayIndex(groups[0].category) then [groups[0]] else []) + IndexGroups(groups[1..])
  }

  /** The other groups, in insertion order. */
  function NamedGroups(groups: seq<Group>): (r: seq<Group>)
    ensures forall g :: multiset(r)[g] == if IsArrayIndex(g.category) then 0 else multiset(groups)[g]
  {
    if |groups| == 0 then []
    else
      assert groups == [groups[0]] + groups[1..];
      (if IsArrayIndex(groups[0].category) then [] else [groups[0]]) + NamedGroups(groups[1..])
  }

  /** The number an array-index key denotes. */
  function IndexValue(k: string): nat {
    if IsArrayIndex(k) then NumeralValue(k, 10) else 0
  }

  /** Groups by the numbers their array-index keys denote. */
  function IndexOrder(): (cmp: (Group, Group) -> bool)
    ensures TotalPreorder(cmp)
  {
    var cmp := (a: Group, b: Group) => IndexValue(a.category) <= IndexValue(b.category);
    assert forall a: Group, b: Group :: cmp(a, b) == (IndexValue(a.category) <= IndexValue(b.category));
    cmp
  }

  /** `Object.entries(groups)`: the array-index keys first, ascending, then
      the other keys in insertion order. */
  function ObjectEntries(groups: seq<Group>): (r: seq<Group>)
    ensures multiset(r) == multiset(groups)
  {
    var r := Sort(IndexGroups(groups), IndexOrder()) + NamedGroups(groups);
    assert multiset(r) == multiset(groups) by {
      assert forall g :: multiset(r)[g] == multiset(groups)[g];
    }
    r
  }

  /** The entries list every array-index key before every other key, the
      array indices in ascending numeric order, and the other keys as a
      subsequence of the insertion order. */
  lemma EntriesOrder(groups: seq<Group>)
    ensures var e := ObjectEntries(groups);
      forall i, j :: 0 <= i < j < |e| && IsArrayIndex(e[j].category) ==>
        IsArrayIndex(e[i].category) && NumeralValue(e[i].category, 10) <= NumeralValue(e[j].category, 10)
    ensures var e := ObjectEntries(groups);
      IsSubsequence(e[|IndexGroups(groups)|..], groups)
  {
    var sorted := Sort(IndexGroups(groups), IndexOrder());
    var named := NamedGroups(groups);
    SortedIndices(groups, sorted);
    OnlyNames(groups, named);
    EntriesSplit(sorted, named);
    assert ObjectEntries(groups)[|sorted|..] == named;
    NamedGroupsIsSubsequence(groups);
  }

  lemma SortedIndices(groups: seq<Group>, sorted: seq<Group>)
    requires sorted == Sort(IndexGroups(groups), IndexOrder())
    ensures forall i :: 0 <= i < |sorted| ==> IsArrayIndex(sorted[i].category)
    ensures Sorted(sorted, IndexOrder())
    ensures |sorted| == |IndexGroups(groups)|
  {
    forall i | 0 <= i < |sorted| ensures IsArrayIndex(sorted[i].category) {
      assert sorted[i] in multiset(sorted);
    }
  }

  lemma OnlyNames(groups: seq<Group>, named: seq<Group>)
    requires named == NamedGroups(groups)
    ensures forall i :: 0 <= i < |named| ==> !IsArrayIndex(named[i].category)
  {
    forall i | 0 <= i < |named| ensures !IsArrayIndex(named[i].category) {
      assert named[i] in multiset(named);
    }
  }

  /** Indices sorted by value, then names: the order the first clause of
      `EntriesOrder` states. */
  lemma EntriesSplit(sorted: seq<Group>, named: seq<Group>)
    requires forall i :: 0 <= i < |sorted| ==> IsArrayIndex(sorted[i].category)
    requires Sorted(sorted, IndexOrder())
    requires forall i :: 0 <= i < |named| ==> !IsArrayIndex(named[i].category)
    ensures var e := sorted + named;
      forall i, j :: 0 <= i < j < |e| && IsArrayIndex(e[j].category) ==>
        IsArrayIndex(e[i].category) && NumeralValue(e[i].category, 10) <= NumeralValue(e[j].category, 10)
  {
    var e := sorted + named;
    forall i, j | 0 <= i < j < |e| && IsArrayIndex(e[j].category)
      ensures IsArrayIndex(e[i].category) && NumeralValue(e[i].category, 10) <= NumeralValue(e[j].category, 10)
    {
      assert j < |sorted|;
      assert IndexOrder()(sorted[i], sorted[j]);
    }
  }

  lemma {:induction false} NamedGroupsIsSubsequence(groups: seq<Group>)
    ensures IsSubsequence(NamedGroups(groups), groups)
  {
    if |groups| > 0 {
      NamedGroupsIsSubsequence(groups[1..]);
      var rest := NamedGroups(groups[1..]);
      if !IsArrayIndex(groups[0].category) {
        assert NamedGroups(groups) == [groups[0]] + rest;
        assert ([groups[0]] + rest)[1..] == rest;
      } else {
        assert NamedGroups(groups) == rest;
      }
    }
  }

  /** An array-index key is listed before a key created earlier. */
  lemma IndexKeysFirst()
    ensures ObjectEntries([Group("b", []), Group("2", [])]) == [Group("2", []), Group("b", [])]
  {
    var gs := [Group("b", []), Group("2", [])];
    ExampleFilters(gs);
    assert Sort([Group("2", [])], IndexOrder()) == [Group("2", [])];
  }

  lemma ExampleFilters(gs: seq<Group>)
    requires gs == [Group("b", []), Group("2", [])]
    ensures IndexGroups(gs) == [Group("2", [])]
    ensures NamedGroups(gs) == [Group("b", [])]
  {
    ExampleKeys();
    assert gs[1..] == [Group("2", [])];
    assert gs[1..][1..] == [];
  }

  lemma ExampleKeys()
    ensures !IsArrayIndex("b") && IsArrayIndex("2")
  {
    assert NumeralValue("2", 10) == 2 by {
      assert "2"[..0] == "";
    }
  }

  /** `groupedIcons`: the groups of the filtered icons as `Object.entries`
      lists them, sorted with `root` first and the others in the locale
      order; `None` where the page throws. */
  function GroupedIcons(filtered: seq<IconItem>, le: (string, string) -> bool): (r: Option<seq<Group>>)
    ensures r.None? <==> exists i :: 0 <= i < |filtered| && GroupKey(filtered[i]) in InheritedNames
    ensures r.Some? ==> multiset(r.value) == multiset(CollectGroups(filtered).value)
  {
    match CollectGroups(filtered)
    case None => None
    case Some(groups) => Some(Sort(ObjectEntries(groups), GroupOrder(le)))
  }

  /** In a sequence without repetitions every element occurs once. */
  lemma {:induction false} DistinctOnce<T>(s: seq<T>, x: T)
    requires Distinct(s)
    ensures multiset(s)[x] <= 1
  {
    if |s| > 0 {
      assert s == [s[0]] + s[1..];
      assert Distinct(s[1..]) by {
        forall i, j | 0 <= i < j < |s[1..]| ensures s[1..][i] != s[1..][j] {
          assert s[1..][i] == s[i + 1] && s[1..][j] == s[j + 1];
        }
      }
      DistinctOnce(s[1..], x);
      if x == s[0] {
        assert x !in s[1..];
      }
    }
  }

  /** A sequence holding `x` at two places holds it at least twice. */
  lemma TwiceAtTwoPlaces<T>(s: seq<T>, i: nat, j: nat)
    requires i < j < |s| && s[i] == s[j]
    ensures multiset(s)[s[i]] >= 2
  {
    assert s == s[..j] + s[j..];
    assert s[i] in s[..j] && s[j] in s[j..];
  }

  lemma DistinctGroups(groups: seq<Group>)
    requires Distinct(Categories(groups))
    ensures Distinct(groups)
  {
    forall i, j | 0 <= i < j < |groups| ensures groups[i] != groups[j] {
      assert Categories(groups)[i] != Categories(groups)[j];
    }
  }

  /** A permutation of groups of `items` is again a collection of groups of `items`. */
  lemma PermutedGroups(a: seq<Group>, b: seq<Group>, items: seq<IconItem>)
    requires GroupsOf(a, items)
    requires multiset(a) == multiset(b)
    ensures GroupsOf(b, items)
  {
    forall i | 0 <= i < |b| ensures b[i] in a {
      assert b[i] in multiset(a);
    }
    DistinctGroups(a);
    forall i, j | 0 <= i < j < |b| ensures Categories(b)[i] != Categories(b)[j] {
      if b[i].category == b[j].category {
        assert b[i] in a && b[j] in a;
        var p :| 0 <= p < |a| && a[p] == b[i];
        var q :| 0 <= q < |a| && a[q] == b[j];
        assert b[i].items == b[j].items;
        assert b[i] == b[j];
        TwiceAtTwoPlaces(b, i, j);
        DistinctOnce(a, b[i]);
      }
    }
    forall x | x in items ensures exists i :: 0 <= i < |b| && b[i].category == GroupKey(x) {
      var p :| 0 <= p < |a| && a[p].category == GroupKey(x);
      assert a[p] in multiset(b);
      var i :| 0 <= i < |b| && b[i] == a[p];
    }
  }

  /** Every filtered icon is in exactly one group, which holds the icons of
      its category in filtered order; no group is empty. */
  lemma GroupedIconsPartition(filtered: seq<IconItem>, le: (string, string) -> bool)
    ensures GroupedIcons(filtered, le).Some? ==> GroupsOf(GroupedIcons(filtered, le).value, filtered)
  {
    if GroupedIcons(filtered, le).Some? {
      CollectGroupsCorrect(filtered);
      PermutedGroups(CollectGroups(filtered).value, GroupedIcons(filtered, le).value, filtered);
    }
  }

  /** An icon is in the group of its category and in no other; the
      categories of the groups are distinct, so there is exactly one such group. */
  lemma ExactlyOneGroup(filtered: seq<IconItem>, le: (string, string) -> bool, x: IconItem)
    requires x in filtered
    ensures GroupedIcons(filtered, le).Some? ==>
      var groups := GroupedIcons(filtered, le).value;
      Distinct(Categories(groups)) &&
      (exists i :: 0 <= i < |groups| && x in groups[i].items) &&
      forall j :: 0 <= j < |groups| ==> (x in groups[j].items <==> groups[j].category == GroupKey(x))
  {
    if GroupedIcons(filtered, le).Some? {
      var groups := GroupedIcons(filtered, le).value;
      GroupedIconsPartition(filtered, le);
      var i :| 0 <= i < |groups| && groups[i].category == GroupKey(x);
      assert x in groups[i].items;
    }
  }

  /** With a consistent locale order, the `root` group, when present, is
      first (and, categories being distinct, nowhere else). */
  lemma RootGroupFirst(filtered: seq<IconItem>, le: (string, string) -> bool, j: nat)
    requires TotalPreorder(le)
    requires GroupedIcons(filtered, le).Some?
    requires j < |GroupedIcons(filtered, le).value| && GroupedIcons(filtered, le).value[j].category == RootCategory
    ensures GroupedIcons(filtered, le).value[0].category == RootCategory
  {
    var groups := GroupedIcons(filtered, le).value;
    var cmp := GroupOrder(le);
    assert TotalPreorder(cmp);
    assert groups == Sort(ObjectEntries(CollectGroups(filtered).value), cmp);
    if j > 0 {
      assert cmp(groups[0], groups[j]);
    }
  }

  /** With a consistent locale order, the other groups follow in that order. */
  lemma OtherGroupsInLocaleOrder(filtered: seq<IconItem>, le: (string, string) -> bool, i: nat, j: nat)
    requires TotalPreorder(le)
    requires GroupedIcons(filtered, le).Some?
    requires i < j < |GroupedIcons(filtered, le).value|
    requires GroupedIcons(filtered, le).value[i].category != RootCategory
    ensures le(GroupedIcons(filtered, le).value[i].category, GroupedIcons(filtered, le).value[j].category)
  {
    var groups := GroupedIcons(filtered, le).value;
    var cmp := GroupOrder(le);
    assert TotalPreorder(cmp);
    assert groups == Sort(ObjectEntries(CollectGroups(filtered).value), cmp);
    assert cmp(groups[i], groups[j]);
  }

  // ---------------------------------------------------------------------------
  // Rotation
  // ---------------------------------------------------------------------------

  /** `normalizeRotation` over whole degrees: a full turn or more either way
      resets to 0. */
  function NormalizeRotation(v: int): (r: int)
    ensures -360 < r < 360
    ensures -360 < v < 360 ==> r == v
    ensures r != v ==> r == 0
  {
    if v >= 360 || v <= -360 then 0 else v
  }

  lemma NormalizeIdempotent(v: int)
    ensures NormalizeRotation(NormalizeRotation(v)) == NormalizeRotation(v)
  {
  }

  /** `changeRotate(delta)` applied to the current angle. */
  function ChangeRotate(current: int, delta: int): (r: int)
    ensures -360 < r < 360
    ensures -360 < current + delta < 360 ==> r == current + delta
  {
    NormalizeRotation(current + delta)
  }

  /** A step that stays within a turn is undone by the opposite step. */
  lemma RotateUndo(current: int, delta: int)
    requires -360 < current < 360 && -360 < current + delta < 360
    ensures ChangeRotate(ChangeRotate(current, delta), -delta) == current
  {
  }

  /** The angle after `n` presses of a button that rotates by `delta`. */
  function Presses(start: int, delta: int, n: nat): int {
    if n == 0 then start else ChangeRotate(Presses(start, delta, n - 1), delta)
  }

  /** From 0, `n` presses of a positive step below a full turn reach `n * delta`. */
  lemma {:induction false} PressesBelowTurn(delta: int, n: nat)
    requires 0 < delta && n * delta < 360
    ensures Presses(0, delta, n) == n * delta
  {
    if n > 0 {
      assert (n - 1) * delta == n * delta - delta;
      PressesBelowTurn(delta, n - 1);
    }
  }

  /** Eight presses of `+45` come back to 0. */
  lemma EightEighthsReturn()
    ensures Presses(0, 45, 8) == 0
  {
    PressesBelowTurn(45, 7);
  }
}

=== FILE: rollup_input.dfy ===
/** `normalizeInput` and `createInputTransform` of `src/rollup/input.ts`:
    Rollup's `input` option as a map from entry names to files, with the
    preview page added as one more entry. */
module RollupInput {
  import opened Text

  /** Rollup's `InputOption`: absent, one file, a list of files, or named files. */
  datatype InputOption =
    | Absent
    | Single(file: string)
    | Files(files: seq<string>)
    | Named(entries: map<string, string>)

  const MainKey: string := "main"
  const DefaultEntry: string := "index.html"
  const PreviewKey: string := "icon-preview"
  /** The one key that is an inherited accessor of every plain object:
      `normalized["__proto__"] = v` calls the `Object.prototype.__proto__`
      setter, which ignores a string `v`, so no own key is created. */
  const ProtoKey: string := "__proto__"

  /** The entry name of the `index`-th file of a list. */
  function PageKey(index: nat): string {
    "page-" + Decimal(index)
  }

  /** `input.forEach((entry, index) => { normalized[`page-${index}`] = entry; })`. */
  function Pages(files: seq<string>): (m: map<string, string>)
    ensures m.Keys == set i | 0 <= i < |files| :: PageKey(i)
  {
    if |files| == 0 then map[]
    else
      var n := |files| - 1;
      var m := Pages(files[..n]);
      assert files[..n][..|files[..n]|] == files[..n];
      assert (set i | 0 <= i < |files| :: PageKey(i)) == (set i | 0 <= i < n :: PageKey(i)) + {PageKey(n)};
      m[PageKey(n) := files[n]]
  }

  /** `normalizeInput(input)`: never empty, falling back to `index.html` as
      `main`. A named entry `__proto__` is lost on the way (see `ProtoKey`). */
  function NormalizeInput(input: InputOption): (r: map<string, string>)
    ensures |r| > 0
  {
    var normalized := match input
      case Absent => map[]
      case Single(file) => map[MainKey := file]
      case Files(files) => Pages(files)
      case Named(entries) => entries - {ProtoKey};
    if |normalized| == 0 then map[MainKey := DefaultEntry] else normalized
  }

  /** The function `createInputTransform(previewHtml)` returns, applied to `input`. */
  function TransformInput(previewHtml: string, input: InputOption): (r: map<string, string>)
    ensures PreviewKey in r && r[PreviewKey] == previewHtml
  {
    NormalizeInput(input)[PreviewKey := previewHtml]
  }

  // ---------------------------------------------------------------------------
  // Lemmas
  // ---------------------------------------------------------------------------

  /** One file becomes the `main` entry, whatever its name, the empty one included. */
  lemma SingleIsMain(file: string)
    ensures NormalizeInput(Single(file)) == map[MainKey := file]
  {
  }

  /** Nothing to build falls back to `index.html` as the `main` entry. */
  lemma EmptyFallsBack()
    ensures NormalizeInput(Absent) == map[MainKey := DefaultEntry]
    ensures NormalizeInput(Files([])) == map[MainKey := DefaultEntry]
    ensures NormalizeInput(Named(map[])) == map[MainKey := DefaultEntry]
  {
  }

  /** Distinct positions have distinct entry names. */
  lemma PageKeyInjective(i: nat, j: nat)
    requires PageKey(i) == PageKey(j)
    ensures i == j
  {
    var a, b := Decimal(i), Decimal(j);
    assert a == PageKey(i)[5..] && b == PageKey(j)[5..];
    DecimalInjective(i, j);
  }

  /** The `i`-th entry name maps to the `i`-th file. */
  lemma {:induction false} PagesHoldFiles(files: seq<string>, i: nat)
    requires i < |files|
    ensures PageKey(i) in Pages(files) && Pages(files)[PageKey(i)] == files[i]
  {
    var n := |files| - 1;
    if i < n {
      PagesHoldFiles(files[..n], i);
      if PageKey(i) == PageKey(n) {
        PageKeyInjective(i, n);
      }
    }
  }

  /** A non-empty list of `n` files becomes the entries `page-0` to
      `page-(n-1)`, holding the files in order. */
  lemma FilesArePages(files: seq<string>)
    requires |files| > 0
    ensures NormalizeInput(Files(files)).Keys == set i | 0 <= i < |files| :: PageKey(i)
    ensures forall i :: 0 <= i < |files| ==> NormalizeInput(Files(files))[PageKey(i)] == files[i]
  {
    assert PageKey(0) in Pages(files);
    forall i | 0 <= i < |files| ensures Pages(files)[PageKey(i)] == files[i] {
      PagesHoldFiles(files, i);
    }
  }

  /** Named files keep their names and files, except an entry named
      `__proto__`, which never becomes an own key of the result. */
  lemma NamedKept(entries: map<string, string>)
    ensures ProtoKey !in NormalizeInput(Named(entries))
    ensures (exists k :: k in entries && k != ProtoKey) ==>
      NormalizeInput(Named(entries)) == entries - {ProtoKey}
  {
    if k :| k in entries && k != ProtoKey {
      assert k in entries - {ProtoKey};
    }
  }

  /** An input whose only named entry is `__proto__` normalises as if it were
      empty. */
  lemma ProtoOnlyFallsBack(file: string)
    ensures NormalizeInput(Named(map[ProtoKey := file])) == map[MainKey := DefaultEntry]
  {
    assert map[ProtoKey := file] - {ProtoKey} == map[];
  }

  /** The transform adds the preview page and leaves every other entry as
      normalisation gave it, overwriting an entry already named `icon-preview`. */
  lemma TransformKeepsOthers(previewHtml: string, input: InputOption)
    ensures TransformInput(previewHtml, input).Keys == NormalizeInput(input).Keys + {PreviewKey}
    ensures forall k :: k in NormalizeInput(input) && k != PreviewKey ==>
      TransformInput(previewHtml, input)[k] == NormalizeInput(input)[k]
  {
  }
}

=== FILE: scanner.dfy ===
/** The recursive `.svg` collection of `src/generator/scan.ts`, over a
    snapshot of the directory tree. */
module Scanner {
  import opened Wrappers
  import opened Text
  import opened Paths

  /** One entry of a directory listing (`readdir` with file types). */
  datatype Entry =
    | File(name: string)                         // `isFile()`
    | Directory(name: string, listing: Listing)  // `isDirectory()`, with what reading it gives
    | Other(name: string)                        // link, socket, FIFO or device: neither

  /** What reading a directory gives: its entries in enumeration order, or
      the code of the error `readdir` throws (`ENOENT` when it is missing). */
  datatype Listing = Listed(entries: seq<Entry>) | Unreadable(code: ErrorCode)

  /** The file-name test: ends in `.svg`, in any letter case. */
  predicate IsSvgName(name: string) {
    EndsWithIgnoringCase(name, ".svg")
  }

  /** `scanSvgFiles(dir)`: the paths of the regular `.svg` files at any depth
      below `dir`, in enumeration order; `[]` when `dir` is missing; any other
      error of any directory read aborts the whole scan. */
  function ScanSvgFiles(dir: string, listing: Listing): (r: Result<seq<string>, ErrorCode>)
    ensures r.Failure? ==> r.error != ENOENT
    decreases listing, 1, 0
  {
    match listing
    case Unreadable(code) => if code == ENOENT then Success([]) else Failure(code)
    case Listed(entries) => ScanEntries(dir, listing, 0)
  }

  /** The loop over the entries of `listing` from the `i`-th on. */
  function ScanEntries(dir: string, listing: Listing, i: nat): (r: Result<seq<string>, ErrorCode>)
    requires listing.Listed? && i <= |listing.entries|
    ensures r.Failure? ==> r.error != ENOENT
    decreases listing, 0, |listing.entries| - i
  {
    if i == |listing.entries| then Success([])
    else
      match listing.entries[i]
      case Directory(name, sub) =>
        var inner := ScanSvgFiles(JoinPath(dir, name), sub);
        if inner.Failure? then inner
        else
          var rest := ScanEntries(dir, listing, i + 1);
          if rest.Failure? then rest else Success(inner.value + rest.value)
      case File(name) =>
        var rest := ScanEntries(dir, listing, i + 1);
        if rest.Failure? || !IsSvgName(name) then rest
        else Success([JoinPath(dir, name)] + rest.value)
      case Other(_) => ScanEntries(dir, listing, i + 1)
  }

  // ---------------------------------------------------------------------------
  // The reference description: reachable `.svg` files and fatal errors
  // ---------------------------------------------------------------------------

  /** The directory names `names` lead from `listing` to a regular file whose
      name is `.svg`: every name but the last is a readable directory. */
  ghost predicate Reaches(listing: Listing, names: seq<string>)
    decreases listing
  {
    listing.Listed? && |names| >= 1 &&
    exists i :: 0 <= i < |listing.entries| && Leads(listing.entries[i], names)
  }

  ghost predicate Leads(e: Entry, names: seq<string>)
    decreases e
  {
    |names| >= 1 && e.name == names[0] &&
    if |names| == 1 then e.File? && IsSvgName(names[0])
    else e.Directory? && Reaches(e.listing, names[1..])
  }

  /** The path reached from `dir` by entering `names` in turn. */
  function FilePath(dir: string, names: seq<string>): string
    decreases |names|
  {
    if |names| == 0 then dir else FilePath(JoinPath(dir, names[0]), names[1..])
  }

  /** Some directory of the tree cannot be read for a reason other than its absence. */
  ghost predicate HasFatalError(listing: Listing)
    decreases listing
  {
    match listing
    case Unreadable(code) => code != ENOENT
    case Listed(entries) =>
      exists i :: 0 <= i < |entries| && entries[i].Directory? && HasFatalError(entries[i].listing)
  }

  /** Every name in the tree is one a directory listing can hold. */
  ghost predicate WellFormed(listing: Listing)
    decreases listing
  {
    listing.Listed? ==>
      forall i :: 0 <= i < |listing.entries| ==>
        IsEntryName(listing.entries[i].name) &&
        (listing.entries[i].Directory? ==> WellFormed(listing.entries[i].listing))
  }

  // ---------------------------------------------------------------------------
  // Errors
  // ---------------------------------------------------------------------------

  /** The scan fails exactly when some directory is unreadable for a reason
      other than `ENOENT`; a missing directory, the root included, is empty. */
  lemma {:induction false} ScanFailsIffFatal(dir: string, listing: Listing)
    ensures ScanSvgFiles(dir, listing).Failure? <==> HasFatalError(listing)
    decreases listing, 1, 0
  {
    if listing.Listed? {
      ScanEntriesFailsIffFatal(dir, listing, 0);
    }
  }

  lemma {:induction false} ScanEntriesFailsIffFatal(dir: string, listing: Listing, j: nat)
    requires listing.Listed? && j <= |listing.entries|
    ensures ScanEntries(dir, listing, j).Failure? <==>
      exists i :: j <= i < |listing.entries| && listing.entries[i].Directory? &&
        HasFatalError(listing.entries[i].listing)
    decreases listing, 0, |listing.entries| - j
  {
    if j < |listing.entries| {
      ScanEntriesFailsIffFatal(dir, listing, j + 1);
      var e := listing.entries[j];
      if e.Directory? {
        ScanFailsIffFatal(JoinPath(dir, e.name), e.listing);
      }
    }
  }

  /** The extension test ignores case: a directory holding `A.SVG` alone
      scans to that one file. */
  lemma UpperCaseSvgCollected(dir: string)
    ensures ScanSvgFiles(dir, Listed([File("A.SVG")])) == Success([JoinPath(dir, "A.SVG")])
  {
    var listing := Listed([File("A.SVG")]);
    UpperCaseSvgName();
    assert ScanEntries(dir, listing, 1) == Success([]);
    assert ScanEntries(dir, listing, 0) == Success([JoinPath(dir, "A.SVG")] + []);
    assert [JoinPath(dir, "A.SVG")] + [] == [JoinPath(dir, "A.SVG")];
    assert ScanSvgFiles(dir, listing) == ScanEntries(dir, listing, 0);
  }

  lemma UpperCaseSvgName()
    ensures IsSvgName("A.SVG")
  {
    var s := "A.SVG";
    assert s[|s| - 4..] == ".SVG";
    assert ToLower(".SVG") == ".svg" == ToLower(".svg");
  }

  /** A missing root yields no files; another error of the root propagates. */
  lemma MissingRootIsEmpty(dir: string, code: ErrorCode)
    ensures ScanSvgFiles(dir, Unreadable(code)) ==
      (if code == ENOENT then Success([]) else Failure(code))
  {
  }

  // ---------------------------------------------------------------------------
  // Soundness and completeness
  // ---------------------------------------------------------------------------

  /** What entry `e` of directory `dir` adds to the result. */
  ghost predicate Contributes(dir: string, e: Entry, p: string) {
    match e
    case File(name) => IsSvgName(name) && p == JoinPath(dir, name)
    case Directory(name, sub) =>
      var inner := ScanSvgFiles(JoinPath(dir, name), sub);
      inner.Success? && p in inner.value
    case Other(_) => false
  }

  lemma {:induction false} ScanEntriesMembers(dir: string, listing: Listing, j: nat)
    requires listing.Listed? && j <= |listing.entries|
    requires ScanEntries(dir, listing, j).Success?
    ensures forall p :: p in ScanEntries(dir, listing, j).value <==>
      exists i :: j <= i < |listing.entries| && Contributes(dir, listing.entries[i], p)
    ensures forall i :: j <= i < |listing.entries| && listing.entries[i].Directory? ==>
      ScanSvgFiles(JoinPath(dir, listing.entries[i].name), listing.entries[i].listing).Success?
    decreases |listing.entries| - j
  {
    if j < |listing.entries| {
      ScanEntriesMembers(dir, listing, j + 1);
      forall p | Contributes(dir, listing.entries[j], p)
        ensures p in ScanEntries(dir, listing, j).value
      {
      }
    }
  }

  lemma FilePathFirst(dir: string, name: string, names: seq<string>)
    ensures FilePath(dir, [name] + names) == FilePath(JoinPath(dir, name), names)
  {
    assert ([name] + names)[1..] == names;
  }

  /** Every returned path is a reachable `.svg` file. */
  lemma {:induction false} ScanSound(dir: string, listing: Listing, p: string)
    requires ScanSvgFiles(dir, listing).Success? && p in ScanSvgFiles(dir, listing).value
    ensures exists names :: Reaches(listing, names) && p == FilePath(dir, names)
    decreases listing
  {
    var entries := listing.entries;
    ScanEntriesMembers(dir, listing, 0);
    var i :| 0 <= i < |entries| && Contributes(dir, entries[i], p);
    EntrySound(dir, entries[i], p);
    var names :| Leads(entries[i], names) && p == FilePath(dir, names);
    assert Reaches(listing, names);
  }

  /** What one entry contributes is a `.svg` file it leads to. */
  lemma {:induction false} EntrySound(dir: string, e: Entry, p: string)
    requires Contributes(dir, e, p)
    ensures exists names :: Leads(e, names) && p == FilePath(dir, names)
    decreases e
  {
    if e.File? {
      assert Leads(e, [e.name]);
      assert p == FilePath(dir, [e.name]);
    } else {
      var d := JoinPath(dir, e.name);
      ScanSound(d, e.listing, p);
      var rest :| Reaches(e.listing, rest) && p == FilePath(d, rest);
      var names := [e.name] + rest;
      assert names[1..] == rest;
      assert Leads(e, names);
      FilePathFirst(dir, e.name, rest);
    }
  }

  /** Every reachable `.svg` file is returned. */
  lemma {:induction false} ScanComplete(dir: string, listing: Listing, names: seq<string>)
    requires ScanSvgFiles(dir, listing).Success? && Reaches(listing, names)
    ensures FilePath(dir, names) in ScanSvgFiles(dir, listing).value
    decreases listing
  {
    var entries := listing.entries;
    ScanEntriesMembers(dir, listing, 0);
    var i :| 0 <= i < |entries| && Leads(entries[i], names);
    var e := entries[i];
    var p := FilePath(dir, names);
    FilePathFirst(dir, e.name, names[1..]);
    assert [e.name] + names[1..] == names;
    if |names| > 1 {
      ScanComplete(JoinPath(dir, e.name), e.listing, names[1..]);
    }
    assert Contributes(dir, e, p);
  }

  /** On success, the scan returns exactly the reachable `.svg` files:
      no directory is returned, whatever its name, and there is no depth limit. */
  lemma ScanFindsExactlyReachable(dir: string, listing: Listing, p: string)
    requires ScanSvgFiles(dir, listing).Success?
    ensures p in ScanSvgFiles(dir, listing).value <==>
      exists names :: Reaches(listing, names) && p == FilePath(dir, names)
  {
    if p in ScanSvgFiles(dir, listing).value {
      ScanSound(dir, listing, p);
    }
    if exists names :: Reaches(listing, names) && p == FilePath(dir, names) {
      var names :| Reaches(listing, names) && p == FilePath(dir, names);
      ScanComplete(dir, listing, names);
    }
  }

  // ---------------------------------------------------------------------------
  // Paths of reachable files
  // ---------------------------------------------------------------------------

  /** Names along a path of a well-formed tree are entry names, and the last
      one is a `.svg` file name. */
  lemma {:induction false} ReachedNames(listing: Listing, names: seq<string>)
    requires WellFormed(listing) && Reaches(listing, names)
    ensures AllEntryNames(names) && IsSvgName(names[|names| - 1])
    decreases listing
  {
    var i :| 0 <= i < |listing.entries| && Leads(listing.entries[i], names);
    var e := listing.entries[i];
    if |names| > 1 {
      ReachedNames(e.listing, names[1..]);
      assert names == [names[0]] + names[1..];
    }
  }

  /** Entering entry names appends them to the directory names. */
  lemma {:induction false} SegmentsOfFilePath(dir: string, names: seq<string>)
    requires AllEntryNames(names)
    ensures Segments(FilePath(dir, names)) == Segments(dir) + names
    decreases |names|
  {
    if |names| > 0 {
      SegmentsOfJoinPath(dir, names[0]);
      SegmentsOfFilePath(JoinPath(dir, names[0]), names[1..]);
      assert Segments(dir) + [names[0]] + names[1..] == Segments(dir) + names;
    }
  }

  /** Every file the scan of a well-formed tree returns is a `.svg` file
      strictly below `dir`. */
  lemma ScannedFileBelowRoot(dir: string, listing: Listing, p: string)
    requires WellFormed(listing)
    requires ScanSvgFiles(dir, listing).Success? && p in ScanSvgFiles(dir, listing).value
    ensures exists names ::
      (|names| >= 1 && AllEntryNames(names) && IsSvgName(names[|names| - 1]) &&
       Segments(p) == Segments(dir) + names)
  {
    ScanSound(dir, listing, p);
    var names :| Reaches(listing, names) && p == FilePath(dir, names);
    ReachedNames(listing, names);
    SegmentsOfFilePath(dir, names);
  }
}

=== FILE: text.dfy ===
/** String primitives of JavaScript's `String.prototype` that the generator
    relies on, over `string` (a sequence of characters). */
module Text {

  // ---------------------------------------------------------------------------
  // Prefixes, suffixes and infixes
  // ---------------------------------------------------------------------------

  predicate StartsWith(s: string, prefix: string) {
    |prefix| <= |s| && s[..|prefix|] == prefix
  }

  predicate EndsWith(s: string, suffix: string) {
    |suffix| <= |s| && s[|s| - |suffix|..] == suffix
  }

  /** `sub` occurs in `s` at position `i`. */
  predicate OccursAt(s: string, sub: string, i: int) {
    0 <= i <= |s| - |sub| && s[i..i + |sub|] == sub
  }

  /** `s.includes(sub)`. */
  predicate Contains(s: string, sub: string) {
    exists i | 0 <= i <= |s| - |sub| :: OccursAt(s, sub, i)
  }

  lemma EmptyIsContained(s: string)
    ensures Contains(s, "")
  {
    assert OccursAt(s, "", 0);
  }

  // ---------------------------------------------------------------------------
  // Case
  // ---------------------------------------------------------------------------

  /** Lower-casing of one character; only ASCII letters are mapped. */
  function LowerChar(c: char): (d: char)
    ensures 'A' <= c <= 'Z' ==> 'a' <= d <= 'z' && d as int == c as int + 32
    ensures !('A' <= c <= 'Z') ==> d == c
  {
    if 'A' <= c <= 'Z' then (c as int + 32) as char else c
  }

  /** `s.toLowerCase()` restricted to ASCII letters. */
  function ToLower(s: string): (r: string)
    ensures |r| == |s|
    ensures forall i :: 0 <= i < |s| ==> r[i] == LowerChar(s[i])
  {
    if |s| == 0 then "" else [LowerChar(s[0])] + ToLower(s[1..])
  }

  /** `a.toLowerCase() == b.toLowerCase()` for ASCII letters. */
  predicate EqualIgnoringCase(a: string, b: string) {
    ToLower(a) == ToLower(b)
  }

  /** A case-insensitive prefix test, as a regular expression with the `i`
      flag performs it on a literal. */
  predicate StartsWithIgnoringCase(s: string, prefix: string) {
    |prefix| <= |s| && EqualIgnoringCase(s[..|prefix|], prefix)
  }

  /** A case-insensitive suffix test, as `/\.svg$/i` and
      `name.toLowerCase().endsWith(".svg")` perform it. */
  predicate EndsWithIgnoringCase(s: string, suffix: string) {
    |suffix| <= |s| && EqualIgnoringCase(s[|s| - |suffix|..], suffix)
  }

  // ---------------------------------------------------------------------------
  // UTF-16 code units
  // ---------------------------------------------------------------------------

  /** The UTF-16 code units of one character, as a JavaScript string stores
      it: the character itself below U+10000, otherwise a high surrogate
      followed by a low surrogate. */
  function Utf16Char(c: char): (u: seq<int>)
    ensures |u| == 1 <==> c as int < 0x1_0000
    ensures |u| == 1 || |u| == 2
    ensures 0xD800 <= u[0] < 0xDC00 <==> |u| == 2
    ensures |u| == 2 ==> 0xDC00 <= u[1] < 0xE000
  {
    var n := c as int;
    if n < 0x1_0000 then [n]
    else [0xD800 + (n - 0x1_0000) / 0x400, 0xDC00 + (n - 0x1_0000) % 0x400]
  }

  /** The code units of a whole string. */
  function Utf16(s: string): (u: seq<int>)
    ensures |s| <= |u| <= 2 * |s|
  {
    if |s| == 0 then [] else Utf16Char(s[0]) + Utf16(s[1..])
  }

  /** `s.length`: the number of UTF-16 code units of `s`. */
  function Length(s: string): nat {
    |Utf16(s)|
  }

  /** Decoding a surrogate pair gives back the character it encodes. */
  lemma CharUnitsInjective(c: char, d: char)
    requires Utf16Char(c) == Utf16Char(d)
    ensures c == d
  {
    var u := Utf16Char(c);
    if |u| == 2 {
      assert c as int == 0x1_0000 + (u[0] - 0xD800) * 0x400 + (u[1] - 0xDC00);
      assert d as int == 0x1_0000 + (u[0] - 0xD800) * 0x400 + (u[1] - 0xDC00);
    }
  }

  /** Two strings with the same code units are the same string. */
  lemma {:induction false} Utf16Injective(a: string, b: string)
    requires Utf16(a) == Utf16(b)
    ensures a == b
  {
    if |a| != 0 && |b| != 0 {
      var ua, ub := Utf16Char(a[0]), Utf16Char(b[0]);
      assert ua[0] == Utf16(a)[0] == Utf16(b)[0] == ub[0];
      assert |ua| == |ub|;
      assert ua == Utf16(a)[..|ua|] == Utf16(b)[..|ub|] == ub;
      CharUnitsInjective(a[0], b[0]);
      assert Utf16(a[1..]) == Utf16(a)[|ua|..] == Utf16(b)[|ub|..] == Utf16(b[1..]);
      Utf16Injective(a[1..], b[1..]);
      assert a == [a[0]] + a[1..];
      assert b == [b[0]] + b[1..];
    }
  }

  /** A string of characters below U+10000 has one code unit per character. */
  lemma {:induction false} BmpLength(s: string)
    requires forall i :: 0 <= i < |s| ==> s[i] as int < 0x1_0000
    ensures Length(s) == |s|
  {
    if |s| != 0 {
      BmpLength(s[1..]);
    }
  }

  // ---------------------------------------------------------------------------
  // White space
  // ---------------------------------------------------------------------------

  /** The ECMAScript WhiteSpace and LineTerminator characters, which `trim`,
      `parseInt` and the regular-expression class `\s` skip. */
  predicate IsWhiteSpace(c: char) {
    c == '\t' || c == '\n' || c == '\U{000B}' || c == '\U{000C}' || c == '\r' ||
    c == ' ' || c == '\U{00A0}' || c == '\U{1680}' || ('\U{2000}' <= c <= '\U{200A}') ||
    c == '\U{2028}' || c == '\U{2029}' || c == '\U{202F}' || c == '\U{205F}' ||
    c == '\U{3000}' || c == '\U{FEFF}'
  }

  /** `s.trimStart()`. */
  function TrimStart(s: string): (r: string)
    ensures |r| <= |s| && r == s[|s| - |r|..]
    ensures forall i :: 0 <= i < |s| - |r| ==> IsWhiteSpace(s[i])
    ensures |r| > 0 ==> !IsWhiteSpace(r[0])
  {
    if |s| > 0 && IsWhiteSpace(s[0]) then
      var r := TrimStart(s[1..]);
      assert forall i :: 1 <= i < |s| - |r| ==> s[i] == s[1..][i - 1];
      r
    else s
  }

  /** `s.trimEnd()`. */
  function TrimEnd(s: string): (r: string)
    ensures |r| <= |s| && r == s[..|r|]
    ensures forall i :: |r| <= i < |s| ==> IsWhiteSpace(s[i])
    ensures |r| > 0 ==> !IsWhiteSpace(r[|r| - 1])
  {
    if |s| > 0 && IsWhiteSpace(s[|s| - 1]) then
      var r := TrimEnd(s[..|s| - 1]);
      assert forall i :: |r| <= i < |s| - 1 ==> s[i] == s[..|s| - 1][i];
      r
    else s
  }

  /** `s.trim()`. */
  function Trim(s: string): (r: string)
    ensures exists i :: OccursAt(s, r, i)
    ensures |r| > 0 ==> !IsWhiteSpace(r[0]) && !IsWhiteSpace(r[|r| - 1])
    ensures (forall i :: 0 <= i < |s| ==> IsWhiteSpace(s[i])) <==> r == ""
  {
    var t := TrimStart(s);
    var r := TrimEnd(t);
    assert OccursAt(s, r, |s| - |t|);
    r
  }

  /** `s.replace(/\s+/g, "")`: every white-space character removed. */
  function RemoveWhiteSpace(s: string): (r: string)
    ensures forall i :: 0 <= i < |r| ==> !IsWhiteSpace(r[i])
    ensures (forall i :: 0 <= i < |s| ==> !IsWhiteSpace(s[i])) ==> r == s
  {
    if |s| == 0 then ""
    else if IsWhiteSpace(s[0]) then RemoveWhiteSpace(s[1..])
    else [s[0]] + RemoveWhiteSpace(s[1..])
  }

  // ---------------------------------------------------------------------------
  // Replacement
  // ---------------------------------------------------------------------------

  /** `s.replace(/x/g, y)` for single characters `x` and `y`. */
  function ReplaceAll(s: string, x: char, y: char): (r: string)
    ensures |r| == |s|
    ensures forall i :: 0 <= i < |s| ==> r[i] == (if s[i] == x then y else s[i])
  {
    if |s| == 0 then "" else [if s[0] == x then y else s[0]] + ReplaceAll(s[1..], x, y)
  }

  /** `s.replace(x, "")` with a one-character string pattern: only the FIRST
      occurrence of `x` is removed. */
  function RemoveFirst(s: string, x: char): (r: string)
    ensures x !in s ==> r == s
    ensures x in s ==> |r| == |s| - 1
  {
    if |s| == 0 then ""
    else if s[0] == x then s[1..]
    else [s[0]] + RemoveFirst(s[1..], x)
  }

  // ---------------------------------------------------------------------------
  // Split and join
  // ---------------------------------------------------------------------------

  /** `parts.join(sep)`. */
  function Join(parts: seq<string>, sep: string): string {
    if |parts| == 0 then ""
    else if |parts| == 1 then parts[0]
    else parts[0] + sep + Join(parts[1..], sep)
  }

  /** `s.split(c)` for a one-character separator. Every piece is free of `c`,
      and joining the pieces with `c` gives `s` back. */
  function Split(s: string, c: char): (parts: seq<string>)
    ensures |parts| >= 1
    ensures forall i :: 0 <= i < |parts| ==> c !in parts[i]
    ensures Join(parts, [c]) == s
  {
    if |s| == 0 then [""]
    else
      var rest := Split(s[1..], c);
      if s[0] == c then
        assert [c] + s[1..] == s;
        [""] + rest
      else
        JoinConsFirst(s[0], rest, [c]);
        assert [s[0]] + s[1..] == s;
        [[s[0]] + rest[0]] + rest[1..]
  }

  lemma JoinConsFirst(x: char, parts: seq<string>, sep: string)
    requires |parts| >= 1
    ensures Join([[x] + parts[0]] + parts[1..], sep) == [x] + Join(parts, sep)
  {
    var q := [[x] + parts[0]] + parts[1..];
    assert q[1..] == parts[1..];
  }

  lemma JoinAppend(a: seq<string>, b: seq<string>, sep: string)
    requires |a| >= 1 && |b| >= 1
    ensures Join(a + b, sep) == Join(a, sep) + sep + Join(b, sep)
  {
    if |a| == 1 {
      assert (a + b)[1..] == b;
    } else {
      assert (a + b)[1..] == a[1..] + b;
      JoinAppend(a[1..], b, sep);
    }
  }

  /** A character of a piece is a character of the joined text. */
  lemma {:induction false} InJoin(parts: seq<string>, sep: string, i: nat, x: char)
    requires i < |parts| && x in parts[i]
    ensures x in Join(parts, sep)
  {
    if i > 0 {
      InJoin(parts[1..], sep, i - 1, x);
    }
  }

  /** A character in no piece and not in the separator is not in the joined text. */
  lemma {:induction false} NotInJoin(parts: seq<string>, sep: string, x: char)
    requires x !in sep
    requires forall i :: 0 <= i < |parts| ==> x !in parts[i]
    ensures x !in Join(parts, sep)
  {
    if |parts| > 1 {
      NotInJoin(parts[1..], sep, x);
    }
  }

  /** A non-empty join starts with the first piece's first character. */
  lemma JoinHead(parts: seq<string>, sep: string)
    requires |parts| >= 1 && |parts[0]| >= 1
    ensures |Join(parts, sep)| >= 1 && Join(parts, sep)[0] == parts[0][0]
  {
  }

  lemma JoinThree(a: string, b: string, c: string, sep: string)
    ensures Join([a, b, c], sep) == a + sep + b + sep + c
  {
    assert [a, b, c][1..] == [b, c];
    assert [b, c][1..] == [c];
    assert Join([b, c], sep) == b + sep + c;
    assert a + sep + (b + sep + c) == a + sep + b + sep + c;
  }

  /** Splitting undoes joining, when no piece contains the separator. */
  lemma {:induction false} SplitJoin(parts: seq<string>, c: char)
    requires |parts| >= 1
    requires forall i :: 0 <= i < |parts| ==> c !in parts[i]
    ensures Split(Join(parts, [c]), c) == parts
  {
    if |parts| == 1 {
      SplitFree(parts[0], c);
    } else {
      SplitJoin(parts[1..], c);
      SplitAround(parts[0], Join(parts[1..], [c]), c);
      assert [parts[0]] + parts[1..] == parts;
    }
  }

  /** A string without the separator splits into itself. */
  lemma SplitFree(s: string, c: char)
    requires c !in s
    ensures Split(s, c) == [s]
  {
    if |s| > 0 {
      SplitFree(s[1..], c);
      assert [s[0]] + s[1..] == s;
    }
  }

  /** Splitting `a + c + b` where `a` has no `c` puts `a` in front of the pieces of `b`. */
  lemma SplitAround(a: string, b: string, c: char)
    requires c !in a
    ensures Split(a + [c] + b, c) == [a] + Split(b, c)
  {
    if |a| == 0 {
      assert a + [c] + b == [c] + b;
      assert ([c] + b)[1..] == b;
    } else {
      var x := a + [c] + b;
      assert x[0] == a[0] != c;
      assert x[1..] == a[1..] + [c] + b;
      SplitAround(a[1..], b, c);
      var rest := Split(x[1..], c);
      assert rest[0] == a[1..] && rest[1..] == Split(b, c);
      assert [a[0]] + a[1..] == a;
    }
  }

  /** The non-empty pieces, in order (`parts.filter(Boolean)`). */
  function NonEmpty(parts: seq<string>): (r: seq<string>)
    ensures forall i :: 0 <= i < |r| ==> r[i] != ""
    ensures |r| <= |parts|
    ensures forall p :: p in r <==> p in parts && p != ""
  {
    if |parts| == 0 then []
    else if parts[0] == "" then NonEmpty(parts[1..])
    else [parts[0]] + NonEmpty(parts[1..])
  }

  lemma NonEmptyAppend(a: seq<string>, b: seq<string>)
    ensures NonEmpty(a + b) == NonEmpty(a) + NonEmpty(b)
  {
    if |a| == 0 {
      assert a + b == b;
    } else {
      assert (a + b)[0] == a[0];
      assert (a + b)[1..] == a[1..] + b;
      NonEmptyAppend(a[1..], b);
    }
  }

  lemma NonEmptyIdentity(parts: seq<string>)
    requires forall i :: 0 <= i < |parts| ==> parts[i] != ""
    ensures NonEmpty(parts) == parts
  {
  }

  // ---------------------------------------------------------------------------
  // Decimal and hexadecimal numerals
  // ---------------------------------------------------------------------------

  predicate IsDigit(c: char) {
    '0' <= c <= '9'
  }

  predicate IsHexDigit(c: char) {
    IsDigit(c) || 'a' <= c <= 'f' || 'A' <= c <= 'F'
  }

  predicate AllDigits(s: string) {
    forall i :: 0 <= i < |s| ==> IsDigit(s[i])
  }

  predicate AllHexDigits(s: string) {
    forall i :: 0 <= i < |s| ==> IsHexDigit(s[i])
  }

  /** The value of one (hexadecimal) digit character. */
  function DigitValue(c: char): (v: nat)
    requires IsHexDigit(c)
    ensures v < 16
    ensures IsDigit(c) ==> v < 10
    ensures v < 10 <==> IsDigit(c)
  {
    if IsDigit(c) then c as int - '0' as int
    else if 'a' <= c <= 'f' then c as int - 'a' as int + 10
    else c as int - 'A' as int + 10
  }

  /** The digit character for `v` (lower-case for values above 9). */
  function DigitChar(v: nat): (c: char)
    requires v < 16
    ensures IsHexDigit(c) && DigitValue(c) == v
    ensures v < 10 <==> IsDigit(c)
    ensures !('A' <= c <= 'F')
  {
    if v < 10 then ('0' as int + v) as char else ('a' as int + v - 10) as char
  }

  /** The value of a numeral in base 10 or 16, most significant digit first. */
  function NumeralValue(s: string, base: nat): (v: nat)
    requires base == 10 || base == 16
    requires AllHexDigits(s)
  {
    if |s| == 0 then 0 else NumeralValue(s[..|s| - 1], base) * base + DigitValue(s[|s| - 1])
  }

  /** `n.toString(base)` for a natural number: the shortest numeral. */
  function Numeral(n: nat, base: nat): (s: string)
    requires base == 10 || base == 16
    ensures |s| >= 1 && AllHexDigits(s)
    ensures base == 10 ==> AllDigits(s)
    ensures forall i :: 0 <= i < |s| ==> !('A' <= s[i] <= 'F')
    ensures n < base <==> |s| == 1
  {
    if n < base then [DigitChar(n)] else Numeral(n / base, base) + [DigitChar(n % base)]
  }

  /** Reading a printed numeral gives the number back. */
  lemma {:induction false} NumeralRoundTrip(n: nat, base: nat)
    requires base == 10 || base == 16
    requires forall i :: 0 <= i < |Numeral(n, base)| ==> DigitValue(Numeral(n, base)[i]) < base
    ensures NumeralValue(Numeral(n, base), base) == n
  {
    var s := Numeral(n, base);
    if n >= base {
      var p := Numeral(n / base, base);
      assert s[..|s| - 1] == p;
      forall i | 0 <= i < |p| ensures DigitValue(p[i]) < base {
        assert p[i] == s[i];
      }
      NumeralRoundTrip(n / base, base);
    }
  }

  /** Every digit `Numeral` prints is below its base. */
  lemma {:induction false} NumeralDigitsBelowBase(n: nat, base: nat)
    requires base == 10 || base == 16
    ensures forall i :: 0 <= i < |Numeral(n, base)| ==> DigitValue(Numeral(n, base)[i]) < base
  {
    if n >= base {
      NumeralDigitsBelowBase(n / base, base);
    }
  }

  /** `String(n)` for a natural number. */
  function Decimal(n: nat): (s: string)
    ensures |s| >= 1 && AllDigits(s)
    ensures NumeralValue(s, 10) == n
    ensures n < 10 ==> |s| == 1
    ensures n < 100 ==> |s| <= 2
    ensures n < 1000 ==> |s| <= 3
  {
    NumeralDigitsBelowBase(n, 10);
    NumeralRoundTrip(n, 10);
    DecimalLength(n);
    Numeral(n, 10)
  }

  lemma DecimalLength(n: nat)
    ensures n < 100 ==> |Numeral(n, 10)| <= 2
    ensures n < 1000 ==> |Numeral(n, 10)| <= 3
  {
    if n >= 10 {
      DecimalLength(n / 10);
    }
  }

  /** Distinct numbers print as distinct decimals. */
  lemma DecimalInjective(m: nat, n: nat)
    requires Decimal(m) == Decimal(n)
    ensures m == n
  {
  }
}

=== FILE: type_file.dfy ===
/** `buildTypeFile` of `src/generator/templates.ts`: the declaration of the
    union type `SvgIconName` of all icon identifiers. */
module TypeFile {
  import opened Wrappers
  import opened Text
  import opened Ordering

  /** `FILE_HEADER` of `src/config/defaults.ts`. */
  const FileHeader: string := "// ⚠️ 此文件为自动生成，请勿手动修改"

  const NeverDeclaration: string := "export type SvgIconName = never;"
  const UnionOpening: string := "export type SvgIconName ="

  /** The text written when no icon exists. */
  const EmptyTypeFile: string := FileHeader + "\n" + NeverDeclaration + "\n"

  /** One variant of the union: `  | 'name'`. */
  function UnionLine(name: string): string {
    "  | '" + name + "'"
  }

  function UnionLines(names: seq<string>): (lines: seq<string>)
    ensures |lines| == |names|
    ensures forall i :: 0 <= i < |names| ==> lines[i] == UnionLine(names[i])
  {
    if |names| == 0 then [] else [UnionLine(names[0])] + UnionLines(names[1..])
  }

  /** `buildTypeFile(names)`. */
  function BuildTypeFile(names: seq<string>): (r: string)
    ensures r == EmptyTypeFile <==> |names| == 0
  {
    if |names| == 0 then EmptyTypeFile
    else
      var joined := Join(UnionLines(Sort(names, CodeUnitLessEq)), "\n");
      UnionIsNotEmpty(joined);
      FileHeader + "\n" + UnionOpening + "\n" + joined + ";\n"
  }

  /** Anything after the header that starts with the union opening differs
      from the `never` declaration. */
  lemma UnionIsNotEmpty(joined: string)
    ensures FileHeader + "\n" + UnionOpening + "\n" + joined + ";\n" != EmptyTypeFile
  {
    var k := |FileHeader| + 1 + |UnionOpening|;
    var u := FileHeader + "\n" + UnionOpening + "\n" + joined + ";\n";
    assert u == (FileHeader + "\n" + UnionOpening) + ("\n" + joined + ";\n");
    assert |FileHeader + "\n" + UnionOpening| == k;
    assert u[k] == '\n';
    assert EmptyTypeFile == (FileHeader + "\n") + NeverDeclaration + "\n";
    assert EmptyTypeFile[k] == NeverDeclaration[|UnionOpening|];
    assert NeverDeclaration[|UnionOpening|] == ' ';
  }

  // ---------------------------------------------------------------------------
  // Reading the declaration back
  // ---------------------------------------------------------------------------

  /** The identifier of one union line, given the text that closes it. */
  function ParseUnionLine(line: string, closing: string): Option<string> {
    if StartsWith(line, "  | '") && |line| >= 5 + |closing| && EndsWith(line, closing)
    then Some(line[5..|line| - |closing|])
    else None
  }

  /** The identifiers of the union lines; the last one closes with `';`. */
  function ParseUnionLines(lines: seq<string>): Option<seq<string>> {
    if |lines| == 0 then None
    else if |lines| == 1 then
      match ParseUnionLine(lines[0], "';")
      case Some(n) => Some([n])
      case None => None
    else
      match ParseUnionLine(lines[0], "'")
      case None => None
      case Some(n) =>
        match ParseUnionLines(lines[1..])
        case Some(ns) => Some([n] + ns)
        case None => None
  }

  /** The identifiers a type file declares, in the order it lists them. */
  function DeclaredNames(text: string): Option<seq<string>> {
    var lines := Split(text, '\n');
    if |lines| < 3 || lines[0] != FileHeader || lines[|lines| - 1] != "" then None
    else if |lines| == 3 && lines[1] == NeverDeclaration then Some([])
    else if lines[1] == UnionOpening then ParseUnionLines(lines[2..|lines| - 1])
    else None
  }

  // ---------------------------------------------------------------------------
  // Lemmas
  // ---------------------------------------------------------------------------

  /** The lines of a union, the last one closed by `;`. */
  function ClosedLines(names: seq<string>): seq<string>
    requires |names| >= 1
  {
    var ls := UnionLines(names);
    ls[..|ls| - 1] + [ls[|ls| - 1] + ";"]
  }

  lemma JoinCloseLast(parts: seq<string>, sep: string, tail: string)
    requires |parts| >= 1
    ensures Join(parts, sep) + tail == Join(parts[..|parts| - 1] + [parts[|parts| - 1] + tail], sep)
  {
    if |parts| > 1 {
      var q := parts[..|parts| - 1] + [parts[|parts| - 1] + tail];
      assert q[0] == parts[0];
      assert q[1..] == parts[1..][..|parts[1..]| - 1] + [parts[1..][|parts[1..]| - 1] + tail];
      JoinCloseLast(parts[1..], sep, tail);
    }
  }

  lemma ParseLine(name: string, closing: string)
    ensures ParseUnionLine("  | '" + name + closing, closing) == Some(name)
  {
    var line := "  | '" + name + closing;
    assert line[..5] == "  | '";
    assert line[|line| - |closing|..] == closing;
    assert line[5..|line| - |closing|] == name;
  }

  lemma {:induction false} ParseClosedLines(names: seq<string>)
    requires |names| >= 1
    ensures ParseUnionLines(ClosedLines(names)) == Some(names)
  {
    if |names| == 1 {
      ClosedSingle(names[0]);
      ParseLine(names[0], "';");
      assert names == [names[0]];
    } else {
      var tail := ClosedLines(names[1..]);
      ClosedCons(names, tail);
      ParseLine(names[0], "'");
      ParseClosedLines(names[1..]);
      assert [names[0]] + names[1..] == names;
    }
  }

  lemma ClosedSingle(name: string)
    ensures ClosedLines([name]) == ["  | '" + name + "';"]
  {
    assert UnionLine(name) + ";" == "  | '" + name + "';";
  }

  lemma ClosedCons(names: seq<string>, tail: seq<string>)
    requires |names| >= 2 && tail == ClosedLines(names[1..])
    ensures ClosedLines(names) == ["  | '" + names[0] + "'"] + tail
  {
    var ls := ClosedLines(names);
    assert ls[0] == "  | '" + names[0] + "'";
    assert ls[1..] == tail;
  }

  /** Closing the last of `ls` with `;` and framing them by two lines and a
      final line break. */
  lemma FramedLines(h: string, o: string, ls: seq<string>)
    requires |ls| >= 1
    ensures h + "\n" + o + "\n" + Join(ls, "\n") + ";\n" ==
      Join([h, o] + (ls[..|ls| - 1] + [ls[|ls| - 1] + ";"]) + [""], "\n")
  {
    var closed := ls[..|ls| - 1] + [ls[|ls| - 1] + ";"];
    JoinCloseLast(ls, "\n", ";");
    JoinLastEmpty([h, o] + closed, "\n");
    JoinAfterPair(h, o, closed, "\n");
    Reassociate(h, o, Join(ls, "\n"));
  }

  lemma JoinLastEmpty(parts: seq<string>, sep: string)
    requires |parts| >= 1
    ensures Join(parts + [""], sep) == Join(parts, sep) + sep + ""
  {
    JoinAppend(parts, [""], sep);
  }

  lemma JoinAfterPair(h: string, o: string, rest: seq<string>, sep: string)
    requires |rest| >= 1
    ensures Join([h, o] + rest, sep) == (h + sep + o) + sep + Join(rest, sep)
  {
    JoinAppend([h, o], rest, sep);
    assert [h, o][1..] == [o];
  }

  lemma Reassociate(h: string, o: string, j: string)
    ensures (h + "\n" + o) + "\n" + (j + ";") + "\n" + "" == h + "\n" + o + "\n" + j + ";\n"
  {
    assert ";\n" == ";" + "\n";
  }

  lemma ConstantsHaveNoLineBreak()
    ensures '\n' !in FileHeader && '\n' !in UnionOpening && '\n' !in NeverDeclaration
  {
  }

  lemma LinesWithoutBreaks(sorted: seq<string>)
    requires |sorted| >= 1
    requires forall i :: 0 <= i < |sorted| ==> '\n' !in sorted[i]
    ensures forall i :: 0 <= i < |[FileHeader, UnionOpening] + ClosedLines(sorted) + [""]| ==>
      '\n' !in ([FileHeader, UnionOpening] + ClosedLines(sorted) + [""])[i]
  {
    var closed := ClosedLines(sorted);
    var lines := [FileHeader, UnionOpening] + closed + [""];
    ConstantsHaveNoLineBreak();
    forall i | 0 <= i < |lines| ensures '\n' !in lines[i] {
      if 2 <= i < |lines| - 1 {
        assert lines[i] == closed[i - 2];
        var k := i - 2;
        if k < |sorted| - 1 {
          assert closed[k] == "  | '" + sorted[k] + "'";
        } else {
          assert closed[k] == "  | '" + sorted[k] + "'" + ";";
        }
      }
    }
  }

  lemma DeclaredFromLines(text: string, closed: seq<string>)
    requires |closed| >= 1
    requires Split(text, '\n') == [FileHeader, UnionOpening] + closed + [""]
    ensures DeclaredNames(text) == ParseUnionLines(closed)
  {
    var lines := Split(text, '\n');
    assert lines[2..|lines| - 1] == closed;
    assert lines[0] == FileHeader && lines[1] == UnionOpening && lines[|lines| - 1] == "";
    assert |lines| > 3;
  }

  /** Reading back a type file gives the identifiers it was built from, in
      code-unit order with duplicates kept, provided none holds a line break;
      an empty list declares `never`. */
  lemma DeclaredNamesRoundTrip(names: seq<string>)
    requires forall i :: 0 <= i < |names| ==> '\n' !in names[i]
    ensures DeclaredNames(BuildTypeFile(names)) == Some(Sort(names, CodeUnitLessEq))
  {
    if |names| == 0 {
      DeclaredNamesOfEmpty();
    } else {
      UnionText(names);
      SortKeepsLineBreakFree(names);
      DeclaredNamesOfUnion(Sort(names, CodeUnitLessEq));
    }
  }

  lemma UnionText(names: seq<string>)
    requires |names| > 0
    ensures BuildTypeFile(names) == FileHeader + "\n" + UnionOpening + "\n" +
      Join(UnionLines(Sort(names, CodeUnitLessEq)), "\n") + ";\n"
  {
  }

  lemma SortKeepsLineBreakFree(names: seq<string>)
    requires forall i :: 0 <= i < |names| ==> '\n' !in names[i]
    ensures forall i :: 0 <= i < |Sort(names, CodeUnitLessEq)| ==>
      '\n' !in Sort(names, CodeUnitLessEq)[i]
  {
    var sorted := Sort(names, CodeUnitLessEq);
    forall i | 0 <= i < |sorted| ensures '\n' !in sorted[i] {
      assert sorted[i] in multiset(names);
    }
  }

  lemma DeclaredNamesOfUnion(sorted: seq<string>)
    requires |sorted| >= 1
    requires forall i :: 0 <= i < |sorted| ==> '\n' !in sorted[i]
    ensures DeclaredNames(FileHeader + "\n" + UnionOpening + "\n" +
      Join(UnionLines(sorted), "\n") + ";\n") == Some(sorted)
  {
    var text := FileHeader + "\n" + UnionOpening + "\n" + Join(UnionLines(sorted), "\n") + ";\n";
    var lines := [FileHeader, UnionOpening] + ClosedLines(sorted) + [""];
    FramedLines(FileHeader, UnionOpening, UnionLines(sorted));
    assert text == Join(lines, "\n");
    LinesWithoutBreaks(sorted);
    SplitJoin(lines, '\n');
    DeclaredFromLines(text, ClosedLines(sorted));
    ParseClosedLines(sorted);
  }

  lemma DeclaredNamesOfEmpty()
    ensures DeclaredNames(EmptyTypeFile) == Some([])
  {
    ConstantsHaveNoLineBreak();
    SplitJoin([FileHeader, NeverDeclaration, ""], '\n');
    JoinThree(FileHeader, NeverDeclaration, "", "\n");
    assert EmptyTypeFile == FileHeader + "\n" + NeverDeclaration + "\n" + "";
  }

  /** The declared identifiers are sorted in code-unit order and are the
      input identifiers with the same multiplicities. */
  lemma DeclaredNamesSortedPermutation(names: seq<string>)
    ensures Sorted(Sort(names, CodeUnitLessEq), CodeUnitLessEq)
    ensures multiset(Sort(names, CodeUnitLessEq)) == multiset(names)
  {
    CodeUnitIsTotalOrder();
  }

  /** The text does not depend on the order the names arrive in. */
  lemma TypeFileIgnoresScanOrder(a: seq<string>, b: seq<string>)
    requires multiset(a) == multiset(b)
    ensures BuildTypeFile(a) == BuildTypeFile(b)
  {
    CodeUnitIsTotalOrder();
    SortForgetsOrder(a, b, CodeUnitLessEq);
    assert |a| == |multiset(a)| == |multiset(b)| == |b|;
  }

  /** `["b", "a", "c"]` is declared as `'a'`, `'b'`, `'c'`. */
  lemma OrderExample()
    ensures DeclaredNames(BuildTypeFile(["b", "a", "c"])) == Some(["a", "b", "c"])
  {
    var names: seq<string> := ["b", "a", "c"];
    assert forall i :: 0 <= i < |names| ==> '\n' !in names[i];
    DeclaredNamesRoundTrip(names);
    SortExample();
  }

  lemma SortExample()
    ensures Sort(["b", "a", "c"], CodeUnitLessEq) == ["a", "b", "c"]
  {
    SortTwoExample();
    ExampleOrder();
    SortCons("b", ["a", "c"], CodeUnitLessEq);
    InsertAfterFirst("b", ["a", "c"], CodeUnitLessEq);
    assert Insert("b", ["c"], CodeUnitLessEq) == ["b", "c"];
  }

  lemma SortTwoExample()
    ensures Sort(["a", "c"], CodeUnitLessEq) == ["a", "c"]
  {
    SortCons("c", [], CodeUnitLessEq);
    assert Sort(["c"], CodeUnitLessEq) == ["c"];
    SortCons("a", ["c"], CodeUnitLessEq);
    ExampleOrder();
  }

  lemma ExampleOrder()
    ensures CodeUnitLessEq("a", "c") && CodeUnitLessEq("b", "c") && !CodeUnitLessEq("b", "a")
  {
    assert Utf16("a") == ['a' as int];
    assert Utf16("b") == ['b' as int];
    assert Utf16("c") == ['c' as int];
  }

  /** Sorting a list inserts its first element into the sorted rest. */
  lemma SortCons<T(!new)>(x: T, xs: seq<T>, le: (T, T) -> bool)
    ensures Sort([x] + xs, le) == Insert(x, Sort(xs, le), le)
  {
    assert ([x] + xs)[1..] == xs;
  }

  /** An element that does not come before the head is inserted after it. */
  lemma InsertAfterFirst<T>(x: T, xs: seq<T>, le: (T, T) -> bool)
    requires |xs| > 0 && !le(x, xs[0])
    ensures Insert(x, xs, le) == [xs[0]] + Insert(x, xs[1..], le)
  {
  }
}

=== FILE: wrappers.dfy ===
/** Option and Result datatypes shared by every module, and the error codes
    of the Node.js filesystem calls the generator makes. */
module Wrappers {

  /** A value that may be absent: `undefined`/`null` in the source. */
  datatype Option<+T> = None | Some(value: T) {

    /** The wrapped value, or `default` when absent (the source's `??`). */
    function GetOr(default: T): T {
      match this
      case Some(v) => v
      case None => default
    }
  }

  /** The outcome of an operation that may throw. */
  datatype Result<+T, +E> = Success(value: T) | Failure(error: E)

  /** The `error.code` values of the filesystem errors the model distinguishes. */
  datatype ErrorCode =
    | ENOENT   // no such file or directory
    | ENOTDIR  // a path component is not a directory
    | EEXIST   // the path exists, as something else
    | EISDIR   // the path is a directory
    | EACCES   // permission denied
    | EIO      // any other I/O failure
}
